=== FILE: README.md ===
# hprose writer, modelled in Dafny

A model of `HproseWriter`, the encoder of the hprose binary serialization
format for .NET (`src/Hprose/IO/HproseWriter.cs`). The writer turns a .NET
object graph into a byte stream:

- **Integers.** A value from 0 to 9 is written as one ASCII digit. Any other
  value is written as `TagInteger` or `TagLong`, its decimal text, and `;`.
- **Text.** Strings are written as a UTF-8 string prefixed by their count of
  UTF-16 code units.
- **Dates.** A date is written in one of three fixed-width forms, ending with
  the UTC tag or `;`.
- **Containers.** Arrays, lists, maps and collections are written as the tag,
  the count (only when it is non-zero), `{`, the elements, and `}`.
- **Objects.** User objects are written after a class schema. A class writes
  its schema once per writer and is then referred to by its class index.
- **Sharing.** A value the writer has already written is written again as a
  back-reference (`r<id>;`). The ids come from a reference tracker:
  - `RealWriterRefer`, whose notion of "the same value" depends on the
    writer's `HproseMode`;
  - `FakeWriterRefer`, used by a "simple" writer, which never shares.

The model is functional. A closed `Value` datatype stands for the object
graph, and every reference object in it carries an identity `id`. The writer
state is an immutable record, threaded through pure functions:

- the mode;
- the tracker, holding the key-to-id map and `lastref`;
- `classref` and `lastclassref`;
- the process-wide schema caches.

Each function returns the bytes it appends and the new state, or the error
the C# writer throws.

Tag bytes are named constants with no values (module `Tags`). The proofs
that need two tags to differ say so with `TagsDistinct()`.

Modules, in dependency order:

| file | module | what |
|---|---|---|
| wrappers.dfy | Wrappers | `Option`, `Result` and the two error kinds (`WrongUnicode`, `UnsupportedType`) |
| tags.dfy | Tags | the tag constants and ASCII digits |
| integers.dfy | Integers | `WriteInteger`/`WriteLong` for every width, `WriteIntFast`, `WriteInt`, and their decoders |
| utf8.dfy | Utf8 | `WriteUTF8Char` and `WriteUTF8String` (UTF-16 to UTF-8, RFC 3629 section 3, surrogate pairs as in RFC 2781 section 2.2) and a decoder |
| dates.dfy | Dates | `WriteDate`, `WriteTime`, `WriteDateTime`, and a decoder |
| refer.dfy | References | the reference tracker: `AddCount`, `Set`, `Write`, `Reset` |
| values.dfy | Values | the `Value` datatype, modes, class descriptions, and which dictionary key each value has |
| scalars.dfy | Scalars | booleans, the double sentinels, byte arrays, BigInteger and Guid bodies |
| schemas.dfy | Schemas | the class schema bytes and the schema caches |
| writer.dfy | HproseWriter | writer state, `Serialize` and every writer it dispatches to, `WriteObject`, `WriteClass`, `Reset` |
| writer_props.dfy | WriterProperties | properties that relate several writer calls |
| layout.dfy | Layouts | the frame of every list and map, and the element bytes a simple writer writes |
| encodable.dfy | Encodability | when `Serialize` succeeds |

In the code, the count written before a string is `s.Length`. That is the
number of UTF-16 code units, so a surrogate pair counts as two.
`Utf8.CountIsCodeUnits` pins this down on a concrete string: a surrogate pair
followed by one ASCII letter has the count 3, not 2.

`DateTime.Equals` compares ticks and ignores the `Kind`. So a writer that is
not in FieldMode writes a UTC instant and the same local instant as one value:
the second is a back-reference to the first (`WriterProperties.DateSharedAcrossKind`).

## Model

| member | source | states |
|---|---|---|
| Integers.WriteInteger | src/Hprose/IO/HproseWriter.cs:307-406 | 0 to 9 is the single byte `'0'+n`, with no tag and no `;`. Any other value is the width's tag (TagInteger up to ushort; TagLong for uint, long, ulong), its decimal text, then `;` |
| Integers.IntegerRoundTrip | src/Hprose/IO/HproseWriter.cs:307-406 | for every width and every value in its range, decoding what is written gives the value back; the tagged form is at most 22 bytes |
| Integers.TaggedRoundTrip | src/Hprose/IO/HproseWriter.cs:307-406 | the tagged form decodes to the value and is exactly its decimal text plus the tag and `;` |
| Integers.MinLiteralsAreDecimalText | src/Hprose/IO/HproseWriter.cs:167-173 | the literal `minIntBuf` and `minLongBuf` arrays are exactly the decimal text of Int32.MinValue and Int64.MinValue |
| Integers.DigitsOfTwo31 | src/Hprose/IO/HproseWriter.cs:168-169 | the digits after the `-` of `minIntBuf` are the digits of 2^31 |
| Integers.DigitsOfTwo63 | src/Hprose/IO/HproseWriter.cs:170-173 | the digits after the `-` of `minLongBuf` are the digits of 2^63 |
| Integers.DigitsRoundTrip | src/Hprose/IO/HproseWriter.cs:1586-1590 | the digit loop's output read back as a decimal number is the number the loop started from |
| Integers.DecimalTextRoundTrip | src/Hprose/IO/HproseWriter.cs:1609-1627 | the signed decimal text of any non-zero integer parses back to that integer, with `-` exactly when it is negative |
| Integers.TextFitsBuffer | src/Hprose/IO/HproseWriter.cs:1609-1627 | the text of any value from -2^63 to 2^64-1 fits the 20-byte scratch buffer |
| Integers.WriteIntFast | src/Hprose/IO/HproseWriter.cs:1578-1638 | filling the buffer from the right, one digit per division by 10 and then `-` for a negative value, produces the signed decimal text, at most 20 bytes long |
| Integers.WriteInt | src/Hprose/IO/HproseWriter.cs:1640-1647 | a count or id is all digits and starts with `0` only when it is `0`; 0 to 9 is one digit; the text parses back to the value mod 2^32, the effect of the `(uint)` cast |
| Utf8.WriteUTF8Char | src/Hprose/IO/HproseWriter.cs:607-621 | a char is TagUTF8Char plus 1, 2 or 3 bytes by its range, with no surrogate check; a surrogate gets the 3-byte form |
| Utf8.EncodeUnits | src/Hprose/IO/HproseWriter.cs:638-667 | a successful encoding is at least one and at most three bytes per code unit |
| Utf8.WriteUTF8String | src/Hprose/IO/HproseWriter.cs:633-671 | fails exactly on text that is not well-formed UTF-16; otherwise it ends with a quote, is at least two bytes longer than the text, and a reader takes back from it the count, the quote, exactly the text and the closing quote, with nothing left over |
| Utf8.EncodeFailsIffMalformed | src/Hprose/IO/HproseWriter.cs:651-667 | "wrong unicode string" is thrown exactly when a low surrogate comes first, a high surrogate ends the text, or a high surrogate is followed by a unit that is not a low one |
| Utf8.EncodeUnitsRoundTrip | src/Hprose/IO/HproseWriter.cs:638-667 | decoding as many UTF-16 units as the text has from its encoding, followed by any bytes, gives back the text unit for unit, surrogate pairs included, and leaves those bytes untouched |
| Utf8.CountRoundTrip | src/Hprose/IO/HproseWriter.cs:634-635 | the count written before a non-digit byte reads back as the count modulo 2^32, and an absent count as 0 |
| Utf8.StringRoundTrip | src/Hprose/IO/HproseWriter.cs:633-671 | what the string writer writes for well-formed text shorter than 2^32 units, followed by any bytes, reads back as that text with those bytes left over |
| Utf8.UnitBytesDecode | src/Hprose/IO/HproseWriter.cs:640-650 | the 1, 2 or 3 bytes of one code unit, followed by any bytes, decode as that one unit and consume exactly those bytes |
| Utf8.PairSplits | src/Hprose/IO/HproseWriter.cs:655-656 | the code point of a high/low pair splits back into the pair's low 10 bits each |
| Utf8.PairBytesDecode | src/Hprose/IO/HproseWriter.cs:655-661 | the 4 bytes of a surrogate pair's code point, followed by any bytes, decode as the high and then the low surrogate and consume exactly those 4 bytes |
| Utf8.CharAgreesWithString | src/Hprose/IO/HproseWriter.cs:607-621 | for a non-surrogate, the char form after its tag is the same bytes the string encoder gives that one unit |
| Utf8.CountIsCodeUnits | src/Hprose/IO/HproseWriter.cs:634-635 | a surrogate pair plus one ASCII letter is written with the count 3, not 2 |
| Utf8.AsciiEncodesAsItself | src/Hprose/IO/HproseWriter.cs:640-643 | text below 0x80 is encoded byte for byte as its own code units |
| Dates.WriteDate | src/Hprose/IO/HproseWriter.cs:504-514 | TagDate and eight digits |
| Dates.WriteTime | src/Hprose/IO/HproseWriter.cs:516-530 | TagTime and six digits, then TagPoint and three digits exactly when the millisecond is non-zero |
| Dates.WriteDateTime | src/Hprose/IO/HproseWriter.cs:532-557 | the date alone when the time is midnight, the time alone on 1970-01-01, both otherwise; TagPoint exactly when there are milliseconds; the last byte is TagUTC for a UTC date, `;` otherwise |
| Dates.FixedRoundTrip | src/Hprose/IO/HproseWriter.cs:504-514 | a fixed-width digit field reads back as the number written, when the number fits the width |
| Dates.DateTimeRoundTrip | src/Hprose/IO/HproseWriter.cs:504-557 | for every valid date, decoding what is written gives back every field and the Kind; only sub-millisecond ticks are lost |
| Scalars.WriteBoolean | src/Hprose/IO/HproseWriter.cs:495-502 | one byte |
| Scalars.ScalarRoundTrip | src/Hprose/IO/HproseWriter.cs:427-502 | a boolean and a float/double/decimal (NaN, either infinity, or finite text) read back as what was written |
| Scalars.BytesBody | src/Hprose/IO/HproseWriter.cs:568-575 | TagBytes, the length when non-zero, then the array's bytes unchanged between quotes; the length reads back right after the tag, modulo 2^32, and stops at the opening quote |
| Scalars.BytesRoundTrip | src/Hprose/IO/HproseWriter.cs:568-575 | a reader that takes the length, a quote, exactly that many bytes and a quote gets back every byte[] shorter than 2^32, even one holding quote bytes |
| References.Write | src/Hprose/IO/HproseWriter.cs:133-145 | writes something exactly when the tracker is real and the key is bound, and then it is TagRef, the id, `;` |
| References.BackRefId | src/Hprose/IO/HproseWriter.cs:133-145 | the id reads back from a back-reference, modulo 2^32 |
| References.SetAllBindsInOrder | src/Hprose/IO/HproseWriter.cs:127-132 | consecutive `Set` calls, no bound key given twice, bind the keys to `lastref`, `lastref+1`, ... in call order; the counter advances once per call, fresh boxes included; earlier bindings of other keys are kept; a fresh box stays unfindable |
| References.SetThenWrite | src/Hprose/IO/HproseWriter.cs:83-145 | after `Set` the key is written as a back-reference to the id it got; the fake tracker never finds anything |
| References.ResetForgets | src/Hprose/IO/HproseWriter.cs:146-149 | after `Reset` nothing is found and the next `Set` hands out id 0 |
| Values.PartitionOf | src/Hprose/IO/HproseWriter.cs:1441-1446 | fields exactly for a serializable class in FieldMode; properties exactly for a serializable class in PropertyMode; data-contract members otherwise |
| Values.KeyOfText | src/Hprose/IO/HproseWriter.cs:100-108 | only a string in PropertyMode or MemberMode is found by its contents; in FieldMode, and for every StringBuilder and char[], the key is the object itself |
| Values.KeyOfDate | src/Hprose/IO/HproseWriter.cs:100-108 | a boxed DateTime can never be found again in FieldMode, where each boxing is a new object |
| Values.KeyOfGuid | src/Hprose/IO/HproseWriter.cs:100-108 | a boxed Guid can never be found again in FieldMode |
| Schemas.SchemaKeys | src/Hprose/IO/HproseWriter.cs:1497-1506 | the member names are written exactly when each one is well-formed UTF-16, at least three bytes each |
| Schemas.BuildSchema | src/Hprose/IO/HproseWriter.cs:1477-1508 | a schema can be built exactly when the class name and every member name are well-formed; it counts one id per member name, runs from TagClass to `}`, and a reader takes back from it the class name and the member names in order, each after TagString |
| Schemas.SchemaReadsBack | src/Hprose/IO/HproseWriter.cs:1477-1508 | TagClass, the class name, the member count, `{`, the names and `}` read back as the class name and the member names in order |
| Schemas.NamesReadBack | src/Hprose/IO/HproseWriter.cs:1497-1506 | the member names written one after another, each TagString and the string, read back as the names in order, with the following bytes left over |
| Schemas.GetSchema | src/Hprose/IO/HproseWriter.cs:1454-1522 | with a sound cache, the cached schema is the one that building would give |
| HproseWriter.NewWriter | src/Hprose/IO/HproseWriter.cs:188-192 | a simple writer, and only a simple one, gets the fake tracker; a new writer satisfies the class invariant |
| HproseWriter.ResetWriter | src/Hprose/IO/HproseWriter.cs:1649-1653 | after `Reset` no key is found and no class has an index; the mode, the kind of tracker and the schema caches are kept; the invariant is kept |
| HproseWriter.Bind | src/Hprose/IO/HproseWriter.cs:130-132 | `Set` grows the state; afterwards the key is found as a back-reference to the old `lastref`; it is a no-op on a simple writer |
| HproseWriter.Header | src/Hprose/IO/HproseWriter.cs:1192-1197 | the tag, the count only when it is non-zero, then `{`; the count reads back modulo 2^32 |
| HproseWriter.WrapFramed | src/Hprose/IO/HproseWriter.cs:1192-1202 | a wrapped body starts with the header of its tag and count and ends with `}`, with exactly the body between |
| HproseWriter.WriteString | src/Hprose/IO/HproseWriter.cs:623-627 | succeeds exactly on well-formed text; binds the key, then writes TagString followed by bytes a reader takes back as exactly the text |
| HproseWriter.WriteStringWithRef | src/Hprose/IO/HproseWriter.cs:629-631 | a bound key gives the back-reference to its id and leaves the state unchanged; an unbound one succeeds exactly on well-formed text, writes TagString and bytes that read back as the text, and afterwards a real tracker finds the key under the old `lastref` |
| HproseWriter.WriteBytes | src/Hprose/IO/HproseWriter.cs:568-575 | binds the array's identity and starts with TagBytes |
| HproseWriter.WriteDateValue | src/Hprose/IO/HproseWriter.cs:559-562 | the bytes read back as the date, to the millisecond and with its Kind; afterwards a real tracker finds the date exactly when the mode is not FieldMode; either way it uses up one id, and a simple writer is unchanged |
| HproseWriter.WriteDateWithRef | src/Hprose/IO/HproseWriter.cs:564-566 | in FieldMode it always writes the date in full |
| HproseWriter.WriteGuid | src/Hprose/IO/HproseWriter.cs:733-739 | binds the boxed Guid and starts with TagGuid |
| HproseWriter.WriteGuidWithRef | src/Hprose/IO/HproseWriter.cs:741-743 | in FieldMode it always writes the Guid in full |
| HproseWriter.WriteDates | src/Hprose/IO/HproseWriter.cs:1078-1089 | a DateTime[] uses up exactly one id per element, with no lookup |
| HproseWriter.WriteTexts | src/Hprose/IO/HproseWriter.cs:982-1035 | string[], StringBuilder[] and char[][] use up exactly one id per non-null element, with no lookup |
| HproseWriter.WriteBlobs | src/Hprose/IO/HproseWriter.cs:962-975 | a byte[][] uses up exactly one id per non-null element |
| HproseWriter.WriteGuids | src/Hprose/IO/HproseWriter.cs:1042-1053 | a Guid[] leaves a simple writer unchanged |
| HproseWriter.Serialize | src/Hprose/IO/HproseWriter.cs:194-304 | every value either fails or writes at least one byte; the state only grows and keeps the class invariant; a simple writer is left unchanged by a value with no user object in it (when it succeeds: `Encodability.SimpleWriterSucceedsIff`) |
| HproseWriter.WriteArray | src/Hprose/IO/HproseWriter.cs:746-1170 | every array body starts with TagList; the state only grows; a simple writer is left unchanged by an object-free array |
| HproseWriter.WriteItems | src/Hprose/IO/HproseWriter.cs:1101-1103 | serializing the elements one after another only grows the state and never lowers the next reference id; a simple writer is left unchanged by elements with no user object in them |
| HproseWriter.WriteList | src/Hprose/IO/HproseWriter.cs:1192-1290 | every list body starts with TagList; the state only grows; a simple writer is left unchanged by an object-free list |
| HproseWriter.WriteRows | src/Hprose/IO/HproseWriter.cs:1139-1167 | each row of a rank-2 array uses up at least one id, for the `new object()` that stands for the row |
| HproseWriter.WriteEntries | src/Hprose/IO/HproseWriter.cs:1208-1219 | the entries of a map leave a simple writer unchanged when they contain no user object |
| HproseWriter.ClassIndex | src/Hprose/IO/HproseWriter.cs:1316-1330 | a class seen before writes nothing and gets its old index; any class ends up with the index returned |
| HproseWriter.WriteClass | src/Hprose/IO/HproseWriter.cs:1439-1452 | a new class gets the index `lastclassref`; it writes the schema its partition builds; the id counter advances by the member count |
| HproseWriter.WriteObject | src/Hprose/IO/HproseWriter.cs:1316-1343 | after an object is written its class has an index and, with a real tracker, the object itself is bound |
| WriterProperties.SeenIsBackRef | src/Hprose/IO/HproseWriter.cs:194-304 | any value whose key is already bound is written as the back-reference to that key and leaves the writer unchanged |
| WriterProperties.BoundAfterWrite | src/Hprose/IO/HproseWriter.cs:194-304 | with a real tracker, once a value with a key has been written, its key is bound |
| WriterProperties.SecondWriteIsBackRef | src/Hprose/IO/HproseWriter.cs:133-145 | writing a value with a key a second time writes only a back-reference, starting with TagRef |
| WriterProperties.SimpleWriterRepeats | src/Hprose/IO/HproseWriter.cs:83-90 | a simple writer writes an object-free value the same way every time |
| WriterProperties.ResetIsFresh | src/Hprose/IO/HproseWriter.cs:1649-1653 | a reset writer is a newly constructed writer with the same mode, simplicity and schema caches |
| WriterProperties.ContainerUnfolds | src/Hprose/IO/HproseWriter.cs:1204-1206 | an unseen container is bound before any of its contents is written |
| WriterProperties.ObjectArrayUnfolds | src/Hprose/IO/HproseWriter.cs:1095-1105 | an unseen object[] is TagList, the count, `{`, each element through `Serialize`, `}` |
| WriterProperties.MixedArrayBytes | src/Hprose/IO/HproseWriter.cs:1095-1105 | `[1, "hi", null]` as an object[] is exactly `a3{1s2"hi"n}` |
| WriterProperties.SharedValueIsReferenced | src/Hprose/IO/HproseWriter.cs:1095-1105 | an object[] holding one reference value twice writes it once, then a back-reference |
| WriterProperties.SharedValueIsRepeatedWhenSimple | src/Hprose/IO/HproseWriter.cs:83-90 | on a simple writer the same object[] writes the value in full twice |
| WriterProperties.StringBytes | src/Hprose/IO/HproseWriter.cs:623-627 | the bytes of a well-formed string do not depend on the writer state |
| WriterProperties.StringArrayRepeats | src/Hprose/IO/HproseWriter.cs:1002-1015 | a string[] writes a repeated string in full both times and uses up two ids |
| WriterProperties.StringListShares | src/Hprose/IO/HproseWriter.cs:1274-1286 | an IList of strings writes a repeated string once, then as a back-reference, and uses up one id |
| WriterProperties.ShortTextIsUnbound | src/Hprose/IO/HproseWriter.cs:217-230 | a string or StringBuilder of length 0 is TagEmpty alone; of length 1 it is the char form; neither binds an id |
| WriterProperties.LongTextIsLookedUp | src/Hprose/IO/HproseWriter.cs:217-230 | longer strings and builders, and every char[], are looked up under their key |
| WriterProperties.SelfReferenceIsBackRef | src/Hprose/IO/HproseWriter.cs:1192-1206 | a list that contains itself writes the inner occurrence as a back-reference to its own id |
| WriterProperties.FieldModeDateNeverShared | src/Hprose/IO/HproseWriter.cs:559-566 | in FieldMode a DateTime is always written in full and always uses up an id |
| WriterProperties.DateSharedAcrossKind | src/Hprose/IO/HproseWriter.cs:559-566 | in the other modes, the same instant with the other Kind is written as a back-reference to the first date |
| WriterProperties.ObjectLayout | src/Hprose/IO/HproseWriter.cs:1316-1343 | an object is the schema (only for a class without an index), TagObject, the class index (the next one for a new class), `{`, and then the member values, ending with `}` |
| WriterProperties.ClassIndexBytes | src/Hprose/IO/HproseWriter.cs:1439-1452 | a class seen before writes nothing and keeps its index; a new class writes its built schema and gets `lastclassref` |
| WriterProperties.ClassWrittenOnce | src/Hprose/IO/HproseWriter.cs:1316-1330 | after one object of a class, the next one writes no schema and reuses the index |
| WriterProperties.ResetRewritesSchema | src/Hprose/IO/HproseWriter.cs:1649-1653 | after `Reset` a class seen before writes its cached schema again, under index 0 |
| WriterProperties.NamesUseIds | src/Hprose/IO/HproseWriter.cs:1441-1448 | writing a new class's schema advances the id counter by its member count |
| WriterProperties.ObjectIdAfterNames | src/Hprose/IO/HproseWriter.cs:1316-1333 | a new class's object gets the id after its member names' ids |
| Layouts.ArrayFramed | src/Hprose/IO/HproseWriter.cs:746-1170 | every array of every element type is TagList, its length when non-zero, `{`, the elements, `}` |
| Layouts.TypedArrayFramed | src/Hprose/IO/HproseWriter.cs:746-1089 | the same frame for the arrays whose elements are written without `Serialize` |
| Layouts.ListFramed | src/Hprose/IO/HproseWriter.cs:1192-1290 | every list of every element type is TagList, its count when non-zero, `{`, the elements, `}` |
| Layouts.ContainerLayout | src/Hprose/IO/HproseWriter.cs:1192-1240 | a container not yet bound is framed by TagMap and its number of pairs for a map, by TagList and its length or count otherwise |
| Layouts.SimpleItems | src/Hprose/IO/HproseWriter.cs:1101-1103 | a simple writer writes object-free elements as each element's own bytes, in order, and fails exactly when one of them fails |
| Layouts.SimpleEntries | src/Hprose/IO/HproseWriter.cs:1208-1219 | a simple writer writes object-free map entries as each key's bytes then its value's, pair by pair in enumeration order, and fails exactly when one of them fails |
| Layouts.SimpleMapLayout | src/Hprose/IO/HproseWriter.cs:1208-1219 | a map from a simple writer is TagMap, the number of pairs, `{`, each key then its value, `}` |
| Layouts.SimpleArrayLayout | src/Hprose/IO/HproseWriter.cs:1095-1105 | an object[] from a simple writer is TagList, the length, `{`, each element's own bytes in order, `}` |
| Layouts.SimpleListLayout | src/Hprose/IO/HproseWriter.cs:1192-1202 | an IList from a simple writer is TagList, the count, `{`, each element's own bytes in order, `}` |
| Layouts.SimpleCollectionLayout | src/Hprose/IO/HproseWriter.cs:1225-1235 | any other ICollection from a simple writer is TagList, the count, `{`, each element's own bytes in order, `}` |
| Encodability.EncodableWrites | src/Hprose/IO/HproseWriter.cs:194-304 | every writer, whatever it has seen, writes a value with no ISerializable part and no ill-formed text where a full write would encode it |
| Encodability.WrittenIsEncodable | src/Hprose/IO/HproseWriter.cs:194-304 | whatever a simple writer in a consistent state writes has no ISerializable part, no ill-formed text where a full write would encode it (a string or StringBuilder of one unit, even a lone surrogate, is written by the char path and is never checked), and no ill-formed class name or member name of the partition it uses |
| Encodability.SimpleWriterSucceedsIff | src/Hprose/IO/HproseWriter.cs:194-304 | a simple writer in a consistent state succeeds exactly on encodable values |
| Encodability.LoneSurrogateIsWritten | src/Hprose/IO/HproseWriter.cs:217-220 | a string or StringBuilder holding one lone surrogate is encodable though not well-formed, and is written as TagUTF8Char and the surrogate's three-byte form, with no state change |
| Encodability.ClassIndexWrites | src/Hprose/IO/HproseWriter.cs:1316-1330 | the class lookup of an object succeeds when the class name and the names of its partition are well-formed |
| Encodability.ClassIndexWritten | src/Hprose/IO/HproseWriter.cs:1439-1452 | in a consistent state the class lookup succeeds only for a class whose name and partition names are well-formed |

## Left out

- Stream output: each writer returns the bytes it appends instead of writing
  them to a `Stream`. `WriteStream` (reading another stream in chunks, with
  seek and restore) is not modelled; a `Stream` is not a `Value`.
- Partial output and partial state: when the source throws "wrong unicode
  string" or rejects an `ISerializable` type, it has already written some
  bytes, and the tracker may already have changed: `WriteString` calls
  `refer.Set` (HproseWriter.cs:624) before `WriteUTF8String` can throw, so
  that id is already used up. The model returns only the error, with neither
  the bytes nor the writer state of the failed call.
- Float, double and decimal text comes from .NET number formatting
  (`ToString("R")`). The model carries it as given text (`Finite(text)`) and
  only models the choice between NaN, the infinities and a finite value. The
  text of BigInteger and Guid values is carried as given text in the same way.
- Reflection is not modelled: `ObjectSerializer`, the member lookups of
  `HproseHelper` (`GetFields`, `GetProperties`, `GetMembers`), `GetClassName`
  and `IsSerializable`. A class is given as its name, its serializable flag
  and three ordered lists of member names. An object is given with the values
  of those members in the same order.
- Anonymous types (`WriteAnonymousType`) are left out; they need reflection
  over compiler-generated names.
- The `ISerializable` check is a flag on the value (`Unsupported`) rather than
  a type test.
- Enums are written by their underlying integer type, and `TimeSpan` by its
  ticks. The model takes them as `Int` values of that width.
- `DBNull` is `Null`.
- A value type with no branch of its own goes to `WriteObjectWithRef`; the
  model treats it as an `Object`.
- `WriteBitArray` is not reached from `Serialize`, where a `BitArray` is an
  `ICollection`. It is not modelled separately.
- Multi-dimensional arrays are modelled for rank 2 only. The array is a
  sequence of rows, and each row gets its own header, so a ragged sequence
  of rows is also accepted. Higher ranks are left out.
- The odometer loop over `loc[]` is not modelled step by step. `WriteRows`
  models what it writes for rank 2.
- The `lock`/`SyncRoot` discipline around the static caches is left out, as
  it is about concurrency. The three caches are one map, keyed by partition
  and class, threaded through the writer state. This is why `Reset` keeps the
  caches.
- The conditional-compilation variants for old .NET versions are left out;
  only the generic `Dictionary` branch is modelled.
- `DateTime` is given by its calendar fields, its sub-millisecond ticks and a
  UTC flag. The decomposition from ticks is not modelled.
- Dictionary enumeration order is taken as the given order of a map's entries.
- Integers.WriteIntFast: the 20-byte array becomes a sequence that stands for
  the filled end of the buffer. The `int` and `uint` overloads are the same
  loop on smaller ranges.
- The bit operations of the UTF-8 encoder (`>>`, `&`, `|`) are written as
  division, remainder and addition on non-negative integers. On these operands
  they compute the same values.
- HproseWriter.WriteRows: states that each row uses up at least one id, not
  the exact count. The exact count depends on the ids the cells use.
- HproseWriter.WriteItems: states that `lastref` never decreases, not how far
  it advances. That depends on the elements.
- HproseWriter.WriteArray: its own contract gives only the first byte. The
  frame is stated by `Layouts.ArrayFramed` and, for a simple writer, the
  element bytes by `Layouts.SimpleArrayLayout`.
- HproseWriter.WriteList: its own contract gives only the first byte. The
  frame is stated by `Layouts.ListFramed` and, for a simple writer, the
  element bytes by `Layouts.SimpleListLayout`.
- HproseWriter.WriteEntries: its own contract states only how the state
  changes. The key-then-value order is stated for a simple writer by
  `Layouts.SimpleEntries`. With a real tracker each key and value is written
  from the state the previous one left, and the model states no byte layout
  beyond the frame.
- HproseWriter.Serialize: with a real tracker a value can succeed without
  being encodable, because a bound part is written as a back-reference
  without being encoded. So only one direction is stated for every writer
  (`Encodability.EncodableWrites`); both directions are stated for a simple
  writer.
- Reference keys of user objects: every container and user object is found
  by its identity. The source's dictionary compares keys with `Equals`. So in
  PropertyMode and MemberMode it finds a boxed struct, or a class that
  overrides `Equals`, by value; in FieldMode each boxing of a struct is a new
  object. The model gives user objects no value key.
- Cyclic graphs: a `Value` is finite, so a cycle is given with a stand-in at
  the back edge. A real tracker writes the stand-in as a back-reference, as
  the source does. A simple writer never finds anything: the source then
  recurses without end, while the model writes the finite stand-in.
- `ArrayElems.Integers` with the `Byte` width is never produced by the
  source, which writes a byte[] as `Bytes`. The model does not rule it out.
- An object's value lists are not tied to the lengths of its class's name
  lists. Reflection guarantees this in the source; the model does not check it.
- HproseWriter.WriteGuids: states no id count. A Guid is looked up, so the
  count depends on which Guids were seen before.

=== FILE: dates.dfy ===
/**
  The date/time encoder: `WriteDate`, `WriteTime` and `WriteDateTime`. A .NET
  DateTime is taken as its already-decomposed calendar fields.
*/
module Dates {
  import opened Tags
  import opened Wrappers
  import opened Integers

  /** The calendar fields of a DateTime, the ticks below one millisecond (which
      take part in DateTime equality but are never written), and whether its
      Kind is Utc. */
  datatype DateTime = DateTime(
    year: nat, month: nat, day: nat,
    hour: nat, minute: nat, second: nat, millisecond: nat,
    subTicks: nat, utc: bool)

  /** The ranges a .NET DateTime guarantees for its fields. */
  predicate Valid(dt: DateTime) {
    && 1 <= dt.year <= 9999 && 1 <= dt.month <= 12 && 1 <= dt.day <= 31
    && dt.hour < 24 && dt.minute < 60 && dt.second < 60 && dt.millisecond < 1000
    && dt.subTicks < 10000
  }

  predicate TimeIsZero(dt: DateTime) {
    dt.hour == 0 && dt.minute == 0 && dt.second == 0 && dt.millisecond == 0
  }

  predicate IsEpochDate(dt: DateTime) {
    dt.year == 1970 && dt.month == 1 && dt.day == 1
  }

  /** The last `n` decimal digits of `x`, zero-padded, most significant first. */
  function Fixed(x: nat, n: nat): (r: seq<byte>)
    ensures |r| == n && AllDigits(r)
  {
    if n == 0 then [] else Fixed(x / 10, n - 1) + [Digit(x)]
  }

  /** `WriteDate(int, int, int)`: TagDate, four year digits, two month digits,
      two day digits. */
  function WriteDate(year: nat, month: nat, day: nat): (r: seq<byte>)
    ensures |r| == 9 && r[0] == TagDate && AllDigits(r[1..])
  {
    [TagDate] + Fixed(year, 4) + Fixed(month, 2) + Fixed(day, 2)
  }

  /** `WriteTime`: TagTime and two digits each for hour, minute and second,
      then TagPoint and three millisecond digits only when the millisecond is
      not zero. */
  function WriteTime(hour: nat, minute: nat, second: nat, millisecond: nat): (r: seq<byte>)
    ensures |r| == (if millisecond > 0 then 11 else 7) && r[0] == TagTime
    ensures millisecond > 0 ==> r[7] == TagPoint
  {
    [TagTime] + Fixed(hour, 2) + Fixed(minute, 2) + Fixed(second, 2)
    + (if millisecond > 0 then [TagPoint] + Fixed(millisecond, 3) else [])
  }

  /** `WriteDateTime`: date only when the time of day is all zero, time only
      when the date is 1970-01-01, otherwise both; then TagUTC for a Utc
      DateTime and TagSemicolon for any other Kind. */
  function WriteDateTime(dt: DateTime): (r: seq<byte>)
    ensures |r| >= 8 && r[|r| - 1] == (if dt.utc then TagUTC else TagSemicolon)
    ensures TimeIsZero(dt) ==> |r| == 10 && r[0] == TagDate
    ensures !TimeIsZero(dt) && IsEpochDate(dt) ==>
              r[0] == TagTime && |r| == (if dt.millisecond > 0 then 12 else 8)
    ensures !TimeIsZero(dt) && !IsEpochDate(dt) ==>
              |r| == (if dt.millisecond > 0 then 21 else 17) && r[0] == TagDate && r[9] == TagTime
    ensures dt.millisecond > 0 ==> r[|r| - 5] == TagPoint
  {
    var tag := if dt.utc then TagUTC else TagSemicolon;
    if TimeIsZero(dt) then
      WriteDate(dt.year, dt.month, dt.day) + [tag]
    else if IsEpochDate(dt) then
      WriteTime(dt.hour, dt.minute, dt.second, dt.millisecond) + [tag]
    else
      WriteDate(dt.year, dt.month, dt.day)
      + WriteTime(dt.hour, dt.minute, dt.second, dt.millisecond) + [tag]
  }

  /** A fixed-width digit field as a reader takes it. */
  function FieldAt(b: seq<byte>, i: nat, n: nat): Option<nat>
    requires i + n <= |b|
  {
    ParseUnsigned(b[i..i + n])
  }

  /** Reads the hour, minute, second and millisecond starting at the TagTime at `i`. */
  function DecodeTime(b: seq<byte>, i: nat, withMs: bool): Option<(nat, nat, nat, nat)>
    requires i + (if withMs then 11 else 7) <= |b|
  {
    if b[i] != TagTime then None
    else if withMs && b[i + 7] != TagPoint then None
    else
      match (FieldAt(b, i + 1, 2), FieldAt(b, i + 3, 2), FieldAt(b, i + 5, 2),
             if withMs then FieldAt(b, i + 8, 3) else Some(0))
      case (Some(h), Some(mi), Some(s), Some(ms)) => Some((h, mi, s, ms))
      case _ => None
  }

  /** Reads the year, month and day starting at the TagDate at `i`. */
  function DecodeDate(b: seq<byte>, i: nat): Option<(nat, nat, nat)>
    requires i + 9 <= |b|
  {
    if b[i] != TagDate then None
    else
      match (FieldAt(b, i + 1, 4), FieldAt(b, i + 5, 2), FieldAt(b, i + 7, 2))
      case (Some(y), Some(m), Some(d)) => Some((y, m, d))
      case _ => None
  }

  /** A reader's view of a date/time encoding; the three forms have distinct
      lengths (10; 8 or 12; 17 or 21), so the length selects the form. */
  function DecodeDateTime(b: seq<byte>): Option<DateTime> {
    if |b| == 0 then None
    else
      var utc := b[|b| - 1] == TagUTC;
      if |b| == 10 then
        match DecodeDate(b, 0)
        case Some((y, m, d)) => Some(DateTime(y, m, d, 0, 0, 0, 0, 0, utc))
        case None => None
      else if |b| == 8 || |b| == 12 then
        match DecodeTime(b, 0, |b| == 12)
        case Some((h, mi, s, ms)) => Some(DateTime(1970, 1, 1, h, mi, s, ms, 0, utc))
        case None => None
      else if |b| == 17 || |b| == 21 then
        match (DecodeDate(b, 0), DecodeTime(b, 9, |b| == 21))
        case (Some((y, m, d)), Some((h, mi, s, ms))) => Some(DateTime(y, m, d, h, mi, s, ms, 0, utc))
        case _ => None
      else None
  }

  lemma {:induction false} FixedRoundTrip(x: nat, n: nat)
    requires x < Pow10(n)
    ensures DigitsToNat(Fixed(x, n)) == x
    decreases n
  {
    if n > 0 {
      var r := Fixed(x, n);
      assert r[..|r| - 1] == Fixed(x / 10, n - 1);
      FixedRoundTrip(x / 10, n - 1);
    }
  }

  lemma SubSlice(b: seq<byte>, i: nat, t: seq<byte>, j: nat, k: nat)
    requires i + |t| <= |b| && b[i..i + |t|] == t && j <= k <= |t|
    ensures b[i + j..i + k] == t[j..k]
  {
    forall x | 0 <= x < k - j
      ensures b[i + j..i + k][x] == t[j..k][x]
    {
      assert b[i + j + x] == b[i..i + |t|][j + x];
    }
  }

  lemma FieldRoundTrip(b: seq<byte>, i: nat, x: nat, n: nat)
    requires 0 < n && x < Pow10(n) && i + n <= |b|
    requires b[i..i + n] == Fixed(x, n)
    ensures FieldAt(b, i, n) == Some(x)
  {
    FixedRoundTrip(x, n);
  }

  lemma TimeRoundTrip(b: seq<byte>, i: nat, dt: DateTime)
    requires Valid(dt)
    requires var t := WriteTime(dt.hour, dt.minute, dt.second, dt.millisecond);
             i + |t| <= |b| && b[i..i + |t|] == t
    ensures DecodeTime(b, i, dt.millisecond > 0)
            == Some((dt.hour, dt.minute, dt.second, dt.millisecond))
  {
    var t := WriteTime(dt.hour, dt.minute, dt.second, dt.millisecond);
    assert t[1..3] == Fixed(dt.hour, 2);
    SubSlice(b, i, t, 1, 3);
    FieldRoundTrip(b, i + 1, dt.hour, 2);
    assert t[3..5] == Fixed(dt.minute, 2);
    SubSlice(b, i, t, 3, 5);
    FieldRoundTrip(b, i + 3, dt.minute, 2);
    assert t[5..7] == Fixed(dt.second, 2);
    SubSlice(b, i, t, 5, 7);
    FieldRoundTrip(b, i + 5, dt.second, 2);
    assert b[i] == t[0];
    if dt.millisecond > 0 {
      assert Pow10(3) == 1000;
      assert t[8..11] == Fixed(dt.millisecond, 3);
      SubSlice(b, i, t, 8, 11);
      FieldRoundTrip(b, i + 8, dt.millisecond, 3);
      assert b[i + 7] == t[7];
    }
  }

  lemma DateRoundTrip(b: seq<byte>, i: nat, dt: DateTime)
    requires Valid(dt)
    requires var d := WriteDate(dt.year, dt.month, dt.day);
             i + |d| <= |b| && b[i..i + |d|] == d
    ensures DecodeDate(b, i) == Some((dt.year, dt.month, dt.day))
  {
    var d := WriteDate(dt.year, dt.month, dt.day);
    assert Pow10(4) == 10000;
    assert d[1..5] == Fixed(dt.year, 4);
    SubSlice(b, i, d, 1, 5);
    FieldRoundTrip(b, i + 1, dt.year, 4);
    assert d[5..7] == Fixed(dt.month, 2);
    SubSlice(b, i, d, 5, 7);
    FieldRoundTrip(b, i + 5, dt.month, 2);
    assert d[7..9] == Fixed(dt.day, 2);
    SubSlice(b, i, d, 7, 9);
    FieldRoundTrip(b, i + 7, dt.day, 2);
    assert b[i] == d[0];
  }

  /** A reader recovers every written field and the Utc flag: the encoding
      loses only the ticks below one millisecond. */
  lemma DateTimeRoundTrip(dt: DateTime)
    requires Valid(dt) && TagsDistinct()
    ensures DecodeDateTime(WriteDateTime(dt)) == Some(dt.(subTicks := 0))
  {
    var tag := if dt.utc then TagUTC else TagSemicolon;
    var date := WriteDate(dt.year, dt.month, dt.day);
    var time := WriteTime(dt.hour, dt.minute, dt.second, dt.millisecond);
    var b := WriteDateTime(dt);
    if TimeIsZero(dt) {
      assert b[0..9] == date;
      DateRoundTrip(b, 0, dt);
    } else if IsEpochDate(dt) {
      assert b[0..|time|] == time;
      TimeRoundTrip(b, 0, dt);
    } else {
      assert b[0..9] == date;
      DateRoundTrip(b, 0, dt);
      assert b[9..9 + |time|] == time;
      TimeRoundTrip(b, 9, dt);
    }
  }
}

=== FILE: encodable.dfy ===
/**
  When `Serialize` succeeds. It fails only on an `ISerializable` class and on
  text that is not well-formed UTF-16: a string written in full, a class name
  or a member name. `Encodable` says that none of these occurs anywhere a
  writer would reach with nothing bound yet; every writer writes such a value,
  and a simple writer writes nothing else.
*/
module Encodability {
  import opened Tags
  import opened Wrappers
  import opened Utf8
  import opened References
  import opened Values
  import opened Schemas
  import opened HproseWriter
  import opened WriterProperties

  /** Every non-null element is well-formed text. */
  ghost predicate TextsWellFormed(ts: seq<Option<Text>>) {
    forall i :: 0 <= i < |ts| && ts[i].Some? ==> WellFormed(ts[i].value.units)
  }

  /** The names of a class that an object of it writes in its schema. */
  ghost predicate NamesWellFormed(mode: Mode, cls: ClassDesc) {
    && WellFormed(cls.name)
    && var names := NamesOf(cls, PartitionOf(mode, cls));
       forall i :: 0 <= i < |names| ==> WellFormed(names[i])
  }

  /** No unsupported type and no ill-formed text a full write would encode:
      strings and builders of at most one code unit are written as chars
      and always succeed. */
  ghost predicate Encodable(mode: Mode, v: Value)
    decreases v
  {
    match v
    case Txt(kind, t) => (kind != CharsText && |t.units| <= 1) || WellFormed(t.units)
    case Unsupported => false
    case Array(_, elems) =>
      (match elems
       case Objects(items) => forall x :: x in items ==> Encodable(mode, x)
       case Grid(rows) => forall r, x :: r in rows && x in r.cells ==> Encodable(mode, x)
       case Texts(_, ts) => TextsWellFormed(ts)
       case _ => true)
    case List(_, items) =>
      (match items
       case Items(xs) => forall x :: x in xs ==> Encodable(mode, x)
       case StringItems(ts) => TextsWellFormed(ts)
       case _ => true)
    case Map(_, entries) => forall e :: e in entries ==> Encodable(mode, e.key) && Encodable(mode, e.val)
    case Collection(_, members) => forall x :: x in members ==> Encodable(mode, x)
    case Object(_, cls, fs, ps, ms) =>
      && NamesWellFormed(mode, cls)
      && (match PartitionOf(mode, cls)
          case Fields => forall x :: x in fs ==> Encodable(mode, x)
          case Properties => forall x :: x in ps ==> Encodable(mode, x)
          case Members => forall x :: x in ms ==> Encodable(mode, x))
    case _ => true
  }

  /** A simple writer in a consistent state succeeds exactly on encodable
      values. */
  lemma SimpleWriterSucceedsIff(w: Writer, v: Value)
    requires w.refer.Fake? && Inv(w)
    ensures Serialize(w, v).Ok? <==> Encodable(w.mode, v)
  {
    if Encodable(w.mode, v) {
      EncodableWrites(w, v);
    }
    if Serialize(w, v).Ok? {
      WrittenIsEncodable(w, v);
    }
  }

  /** A string or builder of one lone surrogate is encodable although it is
      not well-formed UTF-16: it is written by the char path, unchecked, as
      the three-byte form of the surrogate. */
  lemma LoneSurrogateIsWritten(w: Writer, kind: TextKind, id: nat)
    requires kind != CharsText
    ensures !WellFormed([0xD800]) && Encodable(w.mode, Txt(kind, Text(id, [0xD800])))
    ensures Serialize(w, Txt(kind, Text(id, [0xD800]))) == Ok(Out([TagUTF8Char, 0xED, 0xA0, 0x80], w))
  {
    var s: seq<char16> := [0xD800];
    assert !PairedAt(s, 0);
    assert UnitBytes(0xD800) == [0xED, 0xA0, 0x80];
    assert WriteUTF8Char(0xD800) == [TagUTF8Char, 0xED, 0xA0, 0x80];
    ShortTextIsUnbound(w, kind, Text(id, s));
  }

  /** Every writer writes an encodable value. */
  lemma {:induction false} EncodableWrites(w: Writer, v: Value)
    requires Encodable(w.mode, v)
    ensures Serialize(w, v).Ok?
    decreases v, 3
  {
    if IsReference(v) {
      assert Serialize(w, v) == WriteWithRef(w, v);
      if Found(w, Some(Identity(v.id))).None? {
        if v.Object? {
          assert WriteWithRef(w, v) == WriteObjectWithRef(w, v);
          ObjectWrites(w, v);
        } else {
          ContainerUnfolds(w, v);
          ContainerWrites(Bind(w, Some(Identity(v.id))), v);
        }
      } else if v.Object? {
        assert WriteWithRef(w, v) == WriteObjectWithRef(w, v);
      } else {
        assert WriteWithRef(w, v) == WriteContainerWithRef(w, v);
      }
    } else if v.Txt? {
      assert Serialize(w, v) == WriteTextValue(w, v);
    }
  }

  lemma {:induction false} ContainerWrites(w: Writer, v: Value)
    requires v.Array? || v.List? || v.Map? || v.Collection?
    requires Encodable(w.mode, v)
    ensures WriteContainer(w, v).Ok?
    decreases v, 0
  {
    match v
    case Array(_, elems) => ArrayWrites(w, elems);
    case List(_, items) => ListWrites(w, items);
    case Map(_, entries) => EntriesWrites(w, entries);
    case Collection(_, members) => ItemsWrites(w, members);
  }

  lemma {:induction false} ArrayWrites(w: Writer, elems: ArrayElems)
    requires Encodable(w.mode, Array(0, elems))
    ensures WriteArray(w, elems).Ok?
    decreases elems
  {
    match elems
    case Objects(items) => ItemsWrites(w, items);
    case Grid(rows) => RowsWrites(w, rows);
    case Texts(kind, ts) =>
      TextsWrites(w, kind, ts);
      assert WriteArray(w, elems) == WriteTypedArray(w, elems);
    case _ =>
      assert WriteArray(w, elems) == WriteTypedArray(w, elems);
  }

  lemma {:induction false} ListWrites(w: Writer, items: ListElems)
    requires Encodable(w.mode, List(0, items))
    ensures WriteList(w, items).Ok?
    decreases items
  {
    match items
    case Items(xs) => ItemsWrites(w, xs);
    case StringItems(ts) => StringItemsWrite(w, ts);
    case _ =>
  }

  lemma {:induction false} ItemsWrites(w: Writer, xs: seq<Value>)
    requires forall x :: x in xs ==> Encodable(w.mode, x)
    ensures WriteItems(w, xs).Ok?
    decreases xs
  {
    if xs != [] {
      assert xs[0] in xs;
      EncodableWrites(w, xs[0]);
      var w1 := Serialize(w, xs[0]).value.w;
      assert forall x :: x in xs[1..] ==> x in xs;
      ItemsWrites(w1, xs[1..]);
    }
  }

  lemma {:induction false} RowsWrites(w: Writer, rows: seq<Row>)
    requires forall r, x :: r in rows && x in r.cells ==> Encodable(w.mode, x)
    ensures WriteRows(w, rows).Ok?
    decreases rows
  {
    if rows != [] {
      assert rows[0] in rows;
      ItemsWrites(Bind(w, None), rows[0].cells);
      var w1 := WriteItems(Bind(w, None), rows[0].cells).value.w;
      assert forall r :: r in rows[1..] ==> r in rows;
      RowsWrites(w1, rows[1..]);
    }
  }

  lemma {:induction false} EntriesWrites(w: Writer, entries: seq<Entry>)
    requires forall e :: e in entries ==> Encodable(w.mode, e.key) && Encodable(w.mode, e.val)
    ensures WriteEntries(w, entries).Ok?
    decreases entries
  {
    if entries != [] {
      var e := entries[0];
      assert e in entries;
      EntryWrites(w, e);
      var w1 := WriteEntry(w, e).value.w;
      assert forall x :: x in entries[1..] ==> x in entries;
      EntriesWrites(w1, entries[1..]);
    }
  }

  lemma {:induction false} EntryWrites(w: Writer, e: Entry)
    requires Encodable(w.mode, e.key) && Encodable(w.mode, e.val)
    ensures WriteEntry(w, e).Ok?
    decreases e
  {
    EncodableWrites(w, e.key);
    EncodableWrites(Serialize(w, e.key).value.w, e.val);
  }

  lemma {:induction false} TextsWrites(w: Writer, kind: TextKind, ts: seq<Option<Text>>)
    requires TextsWellFormed(ts)
    ensures WriteTexts(w, kind, ts).Ok?
    decreases |ts|
  {
    if ts != [] {
      var first := match ts[0]
                   case None => Ok(Out([TagNull], w))
                   case Some(t) => WriteString(w, KeyOfText(w.mode, kind, t), t.units);
      assert first.Ok?;
      TextsWrites(first.value.w, kind, ts[1..]);
    }
  }

  lemma {:induction false} StringItemsWrite(w: Writer, ts: seq<Option<Text>>)
    requires TextsWellFormed(ts)
    ensures WriteStringItems(w, ts).Ok?
    decreases |ts|
  {
    if ts != [] {
      var first := match ts[0]
                   case None => Ok(Out([TagNull], w))
                   case Some(t) => WriteStringWithRef(w, KeyOfText(w.mode, StringText, t), t.units);
      assert first.Ok?;
      StringItemsWrite(first.value.w, ts[1..]);
    }
  }

  lemma {:induction false} ObjectWrites(w: Writer, v: Value)
    requires v.Object? && Encodable(w.mode, v)
    ensures WriteObject(w, v).Ok?
    decreases v, 1
  {
    ClassIndexWrites(w, v.cls);
    var c := ClassIndex(w, v.cls).value;
    var w1 := Bind(c.w, Some(Identity(v.id)));
    match PartitionOf(w.mode, v.cls)
    case Fields => ItemsWrites(w1, v.fieldValues);
    case Properties => ItemsWrites(w1, v.propertyValues);
    case Members => ItemsWrites(w1, v.memberValues);
  }

  /** The class lookup succeeds when the names its schema would hold are
      well-formed, or when the class already has an index. */
  lemma ClassIndexWrites(w: Writer, cls: ClassDesc)
    requires NamesWellFormed(w.mode, cls)
    ensures ClassIndex(w, cls).Ok?
  {
    if cls !in w.classes.classref {
      assert ClassIndex(w, cls) == WriteClass(w, cls);
    }
  }

  /** A simple writer in a consistent state writes nothing but encodable
      values: with no tracker nothing is skipped as a back-reference. */
  lemma {:induction false} WrittenIsEncodable(w: Writer, v: Value)
    requires w.refer.Fake? && Inv(w) && Serialize(w, v).Ok?
    ensures Encodable(w.mode, v)
    decreases v, 3
  {
    if IsReference(v) {
      assert Serialize(w, v) == WriteWithRef(w, v);
      if v.Object? {
        assert WriteWithRef(w, v) == WriteObjectWithRef(w, v);
        ObjectWritten(w, v);
      } else {
        ContainerUnfolds(w, v);
        assert Bind(w, Some(Identity(v.id))) == w;
        ContainerWritten(w, v);
      }
    }
  }

  lemma {:induction false} ContainerWritten(w: Writer, v: Value)
    requires v.Array? || v.List? || v.Map? || v.Collection?
    requires w.refer.Fake? && Inv(w) && WriteContainer(w, v).Ok?
    ensures Encodable(w.mode, v)
    decreases v, 0
  {
    match v
    case Array(_, elems) => ArrayWritten(w, elems);
    case List(_, items) => ListWritten(w, items);
    case Map(_, entries) => EntriesWritten(w, entries);
    case Collection(_, members) => ItemsWritten(w, members);
  }

  lemma {:induction false} ArrayWritten(w: Writer, elems: ArrayElems)
    requires w.refer.Fake? && Inv(w) && WriteArray(w, elems).Ok?
    ensures Encodable(w.mode, Array(0, elems))
    decreases elems
  {
    match elems
    case Objects(items) => ItemsWritten(w, items);
    case Grid(rows) => RowsWritten(w, rows);
    case Texts(kind, ts) =>
      assert WriteArray(w, elems) == WriteTypedArray(w, elems);
      TextsWritten(w, kind, ts);
    case _ =>
  }

  lemma {:induction false} ListWritten(w: Writer, items: ListElems)
    requires w.refer.Fake? && Inv(w) && WriteList(w, items).Ok?
    ensures Encodable(w.mode, List(0, items))
    decreases items
  {
    match items
    case Items(xs) => ItemsWritten(w, xs);
    case StringItems(ts) => StringItemsWritten(w, ts);
    case _ =>
  }

  lemma {:induction false} ItemsWritten(w: Writer, xs: seq<Value>)
    requires w.refer.Fake? && Inv(w) && WriteItems(w, xs).Ok?
    ensures forall x :: x in xs ==> Encodable(w.mode, x)
    decreases xs
  {
    if xs != [] {
      WrittenIsEncodable(w, xs[0]);
      ItemsWritten(Serialize(w, xs[0]).value.w, xs[1..]);
      assert forall x :: x in xs ==> x == xs[0] || x in xs[1..];
    }
  }

  lemma {:induction false} RowsWritten(w: Writer, rows: seq<Row>)
    requires w.refer.Fake? && Inv(w) && WriteRows(w, rows).Ok?
    ensures forall r, x :: r in rows && x in r.cells ==> Encodable(w.mode, x)
    decreases rows
  {
    if rows != [] {
      assert Bind(w, None) == w;
      ItemsWritten(w, rows[0].cells);
      RowsWritten(WriteItems(w, rows[0].cells).value.w, rows[1..]);
      assert forall r :: r in rows ==> r == rows[0] || r in rows[1..];
    }
  }

  lemma {:induction false} EntriesWritten(w: Writer, entries: seq<Entry>)
    requires w.refer.Fake? && Inv(w) && WriteEntries(w, entries).Ok?
    ensures forall e :: e in entries ==> Encodable(w.mode, e.key) && Encodable(w.mode, e.val)
    decreases entries
  {
    if entries != [] {
      EntryWritten(w, entries[0]);
      EntriesWritten(WriteEntry(w, entries[0]).value.w, entries[1..]);
      assert forall e :: e in entries ==> e == entries[0] || e in entries[1..];
    }
  }

  lemma {:induction false} EntryWritten(w: Writer, e: Entry)
    requires w.refer.Fake? && Inv(w) && WriteEntry(w, e).Ok?
    ensures Encodable(w.mode, e.key) && Encodable(w.mode, e.val)
    decreases e
  {
    WrittenIsEncodable(w, e.key);
    WrittenIsEncodable(Serialize(w, e.key).value.w, e.val);
  }

  lemma {:induction false} TextsWritten(w: Writer, kind: TextKind, ts: seq<Option<Text>>)
    requires WriteTexts(w, kind, ts).Ok?
    ensures TextsWellFormed(ts)
    decreases |ts|
  {
    if ts != [] {
      var first := match ts[0]
                   case None => Ok(Out([TagNull], w))
                   case Some(t) => WriteString(w, KeyOfText(w.mode, kind, t), t.units);
      TextsWritten(first.value.w, kind, ts[1..]);
      assert forall i :: 1 <= i < |ts| ==> ts[i] == ts[1..][i - 1];
    }
  }

  lemma {:induction false} StringItemsWritten(w: Writer, ts: seq<Option<Text>>)
    requires w.refer.Fake? && WriteStringItems(w, ts).Ok?
    ensures TextsWellFormed(ts)
    decreases |ts|
  {
    if ts != [] {
      var first := match ts[0]
                   case None => Ok(Out([TagNull], w))
                   case Some(t) => WriteStringWithRef(w, KeyOfText(w.mode, StringText, t), t.units);
      StringItemsWritten(first.value.w, ts[1..]);
      assert forall i :: 1 <= i < |ts| ==> ts[i] == ts[1..][i - 1];
    }
  }

  lemma {:induction false} ObjectWritten(w: Writer, v: Value)
    requires v.Object? && w.refer.Fake? && Inv(w) && WriteObject(w, v).Ok?
    ensures Encodable(w.mode, v)
    decreases v, 1
  {
    ClassIndexWritten(w, v.cls);
    var c := ClassIndex(w, v.cls).value;
    assert Bind(c.w, Some(Identity(v.id))) == c.w;
    match PartitionOf(w.mode, v.cls)
    case Fields => ItemsWritten(c.w, v.fieldValues);
    case Properties => ItemsWritten(c.w, v.propertyValues);
    case Members => ItemsWritten(c.w, v.memberValues);
  }

  /** In a consistent state the class lookup succeeds only for a class whose
      names are well-formed: a class with an index has its schema cached,
      and every cached schema is one its names build. */
  lemma ClassIndexWritten(w: Writer, cls: ClassDesc)
    requires Inv(w) && ClassIndex(w, cls).Ok?
    ensures NamesWellFormed(w.mode, cls)
  {
    var key := CacheKey(PartitionOf(w.mode, cls), cls);
    if cls !in w.classes.classref {
      assert ClassIndex(w, cls) == WriteClass(w, cls);
    }
    if key in w.classes.schemas {
      assert BuildSchema(cls.name, NamesOf(cls, key.part)).Ok?;
    }
  }
}

=== FILE: integers.dfy ===
/**
  Integer encoders of the hprose writer: `WriteInteger` / `WriteLong` for every
  .NET integer width, the digit writer `WriteIntFast` with its 20-byte scratch
  buffer, and `WriteInt`, which writes counts, class indexes and reference ids.
*/
module Integers {
  import opened Tags
  import opened Wrappers

  /** The .NET integer widths that reach an integer encoder. */
  datatype IntKind = SByte | Int16 | Int32 | Byte | UInt16 | UInt32 | Int64 | UInt64

  const Two31: int := 0x8000_0000
  const Two32: int := 0x1_0000_0000
  const Two63: int := 0x8000_0000_0000_0000
  const Two64: int := 0x1_0000_0000_0000_0000

  function MinOf(k: IntKind): int {
    match k
    case SByte => -0x80
    case Int16 => -0x8000
    case Int32 => -Two31
    case Int64 => -Two63
    case _ => 0
  }

  function MaxOf(k: IntKind): int {
    match k
    case SByte => 0x7F
    case Int16 => 0x7FFF
    case Int32 => Two31 - 1
    case Int64 => Two63 - 1
    case Byte => 0xFF
    case UInt16 => 0xFFFF
    case UInt32 => Two32 - 1
    case UInt64 => Two64 - 1
  }

  /** `n` is a value of the .NET type `k`. */
  predicate InRange(k: IntKind, n: int) {
    MinOf(k) <= n <= MaxOf(k)
  }

  /** `WriteInteger` (sbyte, short, int, byte, ushort) tags with TagInteger;
      `WriteLong` (uint, long, ulong) tags with TagLong. */
  function KindTag(k: IntKind): byte {
    match k
    case UInt32 | Int64 | UInt64 => TagLong
    case _ => TagInteger
  }

  function Pow10(k: nat): (p: nat)
    ensures p >= 1
  {
    if k == 0 then 1 else 10 * Pow10(k - 1)
  }

  predicate AllDigits(s: seq<byte>) {
    forall i :: 0 <= i < |s| ==> IsDigit(s[i])
  }

  /** The decimal digits of `m`, most significant first, without leading zeros;
      empty for 0 (the digit loop of `WriteIntFast` writes nothing for 0). */
  function Digits(m: nat): (r: seq<byte>)
    ensures AllDigits(r)
    ensures m == 0 <==> r == []
    ensures m > 0 ==> r[0] != Zero
  {
    if m == 0 then [] else Digits(m / 10) + [Digit(m % 10)]
  }

  /** The number a string of ASCII digits denotes. */
  function DigitsToNat(s: seq<byte>): nat
    requires AllDigits(s)
  {
    if s == [] then 0 else 10 * DigitsToNat(s[..|s| - 1]) + (s[|s| - 1] - Zero)
  }

  lemma {:induction false} DigitsRoundTrip(m: nat)
    ensures DigitsToNat(Digits(m)) == m
    decreases m
  {
    if m > 0 {
      var r := Digits(m);
      assert r[..|r| - 1] == Digits(m / 10);
      DigitsRoundTrip(m / 10);
    }
  }

  lemma {:induction false} DigitsLength(m: nat, k: nat)
    requires m < Pow10(k)
    ensures |Digits(m)| <= k
    decreases k
  {
    if m > 0 {
      assert k > 0;
      DigitsLength(m / 10, k - 1);
    }
  }

  /** Signed decimal text: '-' exactly when negative, then the magnitude's digits. */
  function DecimalText(n: int): seq<byte> {
    (if n < 0 then [Minus] else []) + Digits(if n < 0 then -n else n)
  }

  /** An unsigned decimal: one or more ASCII digits. */
  function ParseUnsigned(s: seq<byte>): Option<nat> {
    if |s| > 0 && AllDigits(s) then Some(DigitsToNat(s)) else None
  }

  /** A signed decimal as a reader of the protocol takes it. */
  function ParseDecimal(s: seq<byte>): Option<int> {
    if |s| > 0 && s[0] == Minus then
      var u := ParseUnsigned(s[1..]);
      if u.Some? then Some(-(u.value as int)) else None
    else ParseUnsigned(s)
  }

  lemma DecimalTextRoundTrip(n: int)
    requires n != 0
    ensures ParseDecimal(DecimalText(n)) == Some(n)
  {
    var m := if n < 0 then -n else n;
    DigitsRoundTrip(m);
    if n < 0 {
      assert DecimalText(n)[1..] == Digits(m);
    } else {
      assert DecimalText(n) == Digits(m);
    }
  }

  /** The literal `minIntBuf`: the text of Int32.MinValue, written because negating it overflows. */
  const MinIntBuf: seq<byte> := [45, 50, 49, 52, 55, 52, 56, 51, 54, 52, 56]

  /** The literal `minLongBuf`: the text of Int64.MinValue. */
  const MinLongBuf: seq<byte> :=
    [45, 57, 50, 50, 51, 51, 55, 50, 48, 51, 54, 56, 53, 52, 55, 55, 53, 56, 48, 56]

  lemma DigitsStep(m: nat, q: nat, d: nat)
    requires q == m / 10 && d == m % 10 && m > 0
    ensures Digits(m) == Digits(q) + [Zero + d]
  {
  }

  lemma DigitsOfTwo31()
    ensures Digits(Two31) == MinIntBuf[1..]
  {
    DigitsStep(2, 0, 2);
    assert Digits(2) == [50];
    DigitsStep(21, 2, 1);
    assert Digits(21) == [50, 49];
    DigitsStep(214, 21, 4);
    assert Digits(214) == [50, 49, 52];
    DigitsStep(2147, 214, 7);
    assert Digits(2147) == [50, 49, 52, 55];
    DigitsStep(21474, 2147, 4);
    assert Digits(21474) == [50, 49, 52, 55, 52];
    DigitsStep(214748, 21474, 8);
    assert Digits(214748) == [50, 49, 52, 55, 52, 56];
    DigitsStep(2147483, 214748, 3);
    assert Digits(2147483) == [50, 49, 52, 55, 52, 56, 51];
    DigitsStep(21474836, 2147483, 6);
    assert Digits(21474836) == [50, 49, 52, 55, 52, 56, 51, 54];
    DigitsStep(214748364, 21474836, 4);
    assert Digits(214748364) == [50, 49, 52, 55, 52, 56, 51, 54, 52];
    DigitsStep(2147483648, 214748364, 8);
    assert Digits(2147483648) == [50, 49, 52, 55, 52, 56, 51, 54, 52, 56];
  }

  lemma DigitsOfTwo63Prefix()
    ensures Digits(9223372036) == [57, 50, 50, 51, 51, 55, 50, 48, 51, 54]
  {
    DigitsStep(9, 0, 9);
    assert Digits(9) == [57];
    DigitsStep(92, 9, 2);
    assert Digits(92) == [57, 50];
    DigitsStep(922, 92, 2);
    assert Digits(922) == [57, 50, 50];
    DigitsStep(9223, 922, 3);
    assert Digits(9223) == [57, 50, 50, 51];
    DigitsStep(92233, 9223, 3);
    assert Digits(92233) == [57, 50, 50, 51, 51];
    DigitsStep(922337, 92233, 7);
    assert Digits(922337) == [57, 50, 50, 51, 51, 55];
    DigitsStep(9223372, 922337, 2);
    assert Digits(9223372) == [57, 50, 50, 51, 51, 55, 50];
    DigitsStep(92233720, 9223372, 0);
    assert Digits(92233720) == [57, 50, 50, 51, 51, 55, 50, 48];
    DigitsStep(922337203, 92233720, 3);
    assert Digits(922337203) == [57, 50, 50, 51, 51, 55, 50, 48, 51];
    DigitsStep(9223372036, 922337203, 6);
    assert Digits(9223372036) == [57, 50, 50, 51, 51, 55, 50, 48, 51, 54];
  }

  lemma DigitsOfTwo63()
    ensures Digits(Two63) == MinLongBuf[1..]
  {
    DigitsOfTwo63Prefix();
    DigitsStep(92233720368, 9223372036, 8);
    assert Digits(92233720368) == [57, 50, 50, 51, 51, 55, 50, 48, 51, 54, 56];
    DigitsStep(922337203685, 92233720368, 5);
    assert Digits(922337203685) == [57, 50, 50, 51, 51, 55, 50, 48, 51, 54, 56, 53];
    DigitsStep(9223372036854, 922337203685, 4);
    assert Digits(9223372036854) == [57, 50, 50, 51, 51, 55, 50, 48, 51, 54, 56, 53, 52];
    DigitsStep(92233720368547, 9223372036854, 7);
    assert Digits(92233720368547) == [57, 50, 50, 51, 51, 55, 50, 48, 51, 54, 56, 53, 52, 55];
    DigitsStep(922337203685477, 92233720368547, 7);
    assert Digits(922337203685477) == [57, 50, 50, 51, 51, 55, 50, 48, 51, 54, 56, 53, 52, 55, 55];
    DigitsStep(9223372036854775, 922337203685477, 5);
    assert Digits(9223372036854775) == [57, 50, 50, 51, 51, 55, 50, 48, 51, 54, 56, 53, 52, 55, 55, 53];
    DigitsStep(92233720368547758, 9223372036854775, 8);
    assert Digits(92233720368547758) == [57, 50, 50, 51, 51, 55, 50, 48, 51, 54, 56, 53, 52, 55, 55, 53, 56];
    DigitsStep(922337203685477580, 92233720368547758, 0);
    assert Digits(922337203685477580) == [57, 50, 50, 51, 51, 55, 50, 48, 51, 54, 56, 53, 52, 55, 55, 53, 56, 48];
    DigitsStep(9223372036854775808, 922337203685477580, 8);
    assert Digits(9223372036854775808) == [57, 50, 50, 51, 51, 55, 50, 48, 51, 54, 56, 53, 52, 55, 55, 53, 56, 48, 56];
  }

  /** The literal byte arrays hold exactly the decimal text of the two minimum values. */
  lemma MinLiteralsAreDecimalText()
    ensures MinIntBuf == DecimalText(-Two31)
    ensures MinLongBuf == DecimalText(-Two63)
  {
    DigitsOfTwo31();
    DigitsOfTwo63();
  }

  /** The digit text between the tag and the semicolon, as each overload computes it. */
  function IntegerBody(k: IntKind, n: int): seq<byte> {
    if k == Int32 && n == -Two31 then MinIntBuf
    else if k == Int64 && n == -Two63 then MinLongBuf
    else DecimalText(n)
  }

  /** `WriteInteger` and `WriteLong` for every fixed width: 0..9 as one bare digit,
      anything else as the width's tag, signed decimal text and a semicolon. */
  function WriteInteger(k: IntKind, n: int): (r: seq<byte>)
    ensures 0 <= n <= 9 ==> r == [Zero + n]
    ensures !(0 <= n <= 9) ==> r == [KindTag(k)] + DecimalText(n) + [TagSemicolon]
  {
    MinLiteralsAreDecimalText();
    if 0 <= n <= 9 then [Zero + n]
    else [KindTag(k)] + IntegerBody(k, n) + [TagSemicolon]
  }

  /** What a reader of the protocol recovers from an integer encoding. */
  function DecodeInteger(b: seq<byte>): Option<int> {
    if |b| == 1 then
      (if IsDigit(b[0]) then Some(b[0] - Zero) else None)
    else if |b| >= 3 && (b[0] == TagInteger || b[0] == TagLong) && b[|b| - 1] == TagSemicolon then
      ParseDecimal(b[1..|b| - 1])
    else None
  }

  /** Every integer of every width, the two minimum values included, decodes back
      to itself, and its digit text fits the writer's 20-byte scratch buffer. */
  lemma IntegerRoundTrip(k: IntKind, n: int)
    requires InRange(k, n)
    ensures DecodeInteger(WriteInteger(k, n)) == Some(n)
    ensures !(0 <= n <= 9) ==> |WriteInteger(k, n)| <= 22
  {
    if !(0 <= n <= 9) {
      TaggedRoundTrip(k, n);
      assert -Two63 <= MinOf(k) && MaxOf(k) < Two64;
      TextFitsBuffer(n);
    }
  }

  lemma TaggedRoundTrip(k: IntKind, n: int)
    requires !(0 <= n <= 9)
    ensures DecodeInteger(WriteInteger(k, n)) == Some(n)
    ensures |WriteInteger(k, n)| == |DecimalText(n)| + 2
  {
    var t := DecimalText(n);
    var r := [KindTag(k)] + t + [TagSemicolon];
    assert WriteInteger(k, n) == r;
    DecimalTextRoundTrip(n);
    assert r[1..|r| - 1] == t;
  }

  lemma Pow10Values()
    ensures Pow10(19) == 10000000000000000000
    ensures Pow10(20) == 100000000000000000000
  {
    assert Pow10(1) == 10;
    assert Pow10(2) == 100;
    assert Pow10(3) == 1000;
    assert Pow10(4) == 10000;
    assert Pow10(5) == 100000;
    assert Pow10(6) == 1000000;
    assert Pow10(7) == 10000000;
    assert Pow10(8) == 100000000;
    assert Pow10(9) == 1000000000;
    assert Pow10(10) == 10000000000;
    assert Pow10(11) == 100000000000;
    assert Pow10(12) == 1000000000000;
    assert Pow10(13) == 10000000000000;
    assert Pow10(14) == 100000000000000;
    assert Pow10(15) == 1000000000000000;
    assert Pow10(16) == 10000000000000000;
    assert Pow10(17) == 100000000000000000;
    assert Pow10(18) == 1000000000000000000;
    assert Pow10(19) == 10000000000000000000;
    assert Pow10(20) == 100000000000000000000;
  }

  /** Digit text of any value that reaches `WriteIntFast` fits in 20 bytes. */
  lemma TextFitsBuffer(n: int)
    requires -Two63 <= n < Two64
    ensures |DecimalText(n)| <= 20
  {
    if n < 0 {
      Pow10Values();
      DigitsLength(-n, 19);
    } else {
      Pow10Values();
      DigitsLength(n, 20);
    }
  }

  /** `WriteIntFast`: fills a 20-byte buffer from the end with the digits of |i|,
      then a '-' when `i` was negative, and returns the written tail. `acc`
      stands for the filled part `buf[off..]`; `off` never drops below 0.
      Callers keep Int64.MinValue (whose negation overflows) away from it. */
  method WriteIntFast(i: int) returns (out: seq<byte>)
    requires -Two63 < i < Two64
    ensures out == DecimalText(i)
    ensures |out| <= 20
  {
    var off := 20;
    var acc: seq<byte> := [];
    var neg := false;
    var m := i;
    if m < 0 {
      neg := true;
      m := -m;
    }
    var magnitude := m;
    TextFitsBuffer(i);
    assert |DecimalText(i)| == |Digits(magnitude)| + (if neg then 1 else 0);
    while m != 0
      invariant 0 <= m <= magnitude
      invariant off + |acc| == 20
      invariant |Digits(m)| + (if neg then 1 else 0) <= off
      invariant Digits(m) + acc == Digits(magnitude)
      decreases m
    {
      var d := Digit(m % 10);
      assert Digits(m) == Digits(m / 10) + [d];
      off := off - 1;
      acc := [d] + acc;
      m := m / 10;
    }
    if neg {
      off := off - 1;
      acc := [Minus] + acc;
    }
    out := acc;
  }

  /** `WriteInt`, the writer of counts, class indexes and reference ids: bare digit
      for 0..9, otherwise the digits of `(uint)i`, with no tag and no terminator. */
  function WriteInt(i: int): (r: seq<byte>)
    ensures |r| >= 1 && AllDigits(r)
    ensures r[0] == Zero ==> r == [Zero]
    ensures 0 <= i <= 9 ==> r == [Zero + i]
    ensures ParseUnsigned(r) == Some(i % Two32)
  {
    DigitsRoundTrip(i % Two32);
    var u := i % Two32;
    if u <= 9 then [Zero + u] else Digits(u)
  }
}

=== FILE: layout.dfy ===
/**
  The layout of lists and maps: every container is framed by its tag, its
  element count (the number of pairs for a map), `{` and `}`; and with a
  simple writer the elements between are each element's own bytes, in order,
  a map giving each key before its value.
*/
module Layouts {
  import opened Tags
  import opened Wrappers
  import opened Integers
  import opened References
  import opened Values
  import opened Scalars
  import opened HproseWriter
  import opened WriterProperties

  /** Every array is framed by TagList and its length. */
  lemma ArrayFramed(w: Writer, elems: ArrayElems)
    requires WriteArray(w, elems).Ok?
    ensures Framed(WriteArray(w, elems).value.bytes, TagList, ArrayLength(elems))
  {
    match elems
    case Objects(items) =>
      WrapFramed(TagList, |items|, WriteItems(w, items).value);
    case Grid(rows) =>
      WrapFramed(TagList, |rows|, WriteRows(w, rows).value);
    case _ =>
      TypedArrayFramed(w, elems);
  }

  lemma TypedArrayFramed(w: Writer, elems: ArrayElems)
    requires !elems.Objects? && !elems.Grid? && WriteTypedArray(w, elems).Ok?
    ensures Framed(WriteTypedArray(w, elems).value.bytes, TagList, ArrayLength(elems))
  {
    WrapFramed(TagList, ArrayLength(elems), TypedBody(w, elems).value);
  }

  /** Every list is framed by TagList and its count. */
  lemma ListFramed(w: Writer, items: ListElems)
    requires WriteList(w, items).Ok?
    ensures Framed(WriteList(w, items).value.bytes, TagList, ListCount(items))
  {
    match items
    case Items(xs) => WrapFramed(TagList, |xs|, WriteItems(w, xs).value);
    case IntItems(ns) => WrapFramed(TagList, |ns|, Out(Join(ns, n => WriteInteger(Int32, n)), w));
    case StringItems(ts) => WrapFramed(TagList, |ts|, WriteStringItems(w, ts).value);
    case DoubleItems(fs) => WrapFramed(TagList, |fs|, Out(Join(fs, WriteDouble), w));
  }

  /** The frame of a container: TagMap and the number of pairs for a map,
      TagList and the element count for everything else. */
  ghost predicate ContainerFrame(b: seq<byte>, v: Value)
    requires v.Array? || v.List? || v.Map? || v.Collection?
  {
    match v
    case Array(_, elems) => Framed(b, TagList, ArrayLength(elems))
    case List(_, items) => Framed(b, TagList, ListCount(items))
    case Map(_, entries) => Framed(b, TagMap, |entries|)
    case Collection(_, members) => Framed(b, TagList, |members|)
  }

  /** A container not yet bound is written framed; one already bound is a
      back-reference instead. */
  lemma ContainerLayout(w: Writer, v: Value)
    requires v.Array? || v.List? || v.Map? || v.Collection?
    requires Found(w, Some(Identity(v.id))).None? && Serialize(w, v).Ok?
    ensures ContainerFrame(Serialize(w, v).value.bytes, v)
  {
    var w1 := Bind(w, Some(Identity(v.id)));
    ContainerUnfolds(w, v);
    match v
    case Array(_, elems) => ArrayFramed(w1, elems);
    case List(_, items) => ListFramed(w1, items);
    case Map(_, entries) => WrapFramed(TagMap, |entries|, WriteEntries(w1, entries).value);
    case Collection(_, members) => WrapFramed(TagList, |members|, WriteItems(w1, members).value);
  }

  /** Each value serialized on its own from the same state, concatenated. */
  function EachBytes(w: Writer, xs: seq<Value>): (r: Result<seq<byte>>)
    decreases |xs|
  {
    if xs == [] then Ok([])
    else
      var first :- Serialize(w, xs[0]);
      var rest :- EachBytes(w, xs[1..]);
      Ok(first.bytes + rest)
  }

  /** Each pair serialized on its own from the same state: key, then value. */
  function EachPairBytes(w: Writer, entries: seq<Entry>): (r: Result<seq<byte>>)
    decreases |entries|
  {
    if entries == [] then Ok([])
    else
      var k :- Serialize(w, entries[0].key);
      var v :- Serialize(w, entries[0].val);
      var rest :- EachPairBytes(w, entries[1..]);
      Ok(k.bytes + v.bytes + rest)
  }

  /** A simple writer writes an object-free sequence as each element's own
      bytes in order, and fails exactly when one element does. */
  lemma {:induction false} SimpleItems(w: Writer, xs: seq<Value>)
    requires w.refer.Fake? && forall x :: x in xs ==> NoObjects(x)
    ensures WriteItems(w, xs).Ok? <==> EachBytes(w, xs).Ok?
    ensures WriteItems(w, xs).Ok? ==> WriteItems(w, xs).value == Out(EachBytes(w, xs).value, w)
    decreases |xs|
  {
    if xs != [] {
      assert xs[0] in xs;
      assert forall x :: x in xs[1..] ==> x in xs;
      SimpleItems(w, xs[1..]);
    }
  }

  /** A simple writer writes object-free pairs as key then value, pair by
      pair, and fails exactly when one key or value does. */
  lemma {:induction false} SimpleEntries(w: Writer, entries: seq<Entry>)
    requires w.refer.Fake? && forall e :: e in entries ==> NoObjects(e.key) && NoObjects(e.val)
    ensures WriteEntries(w, entries).Ok? <==> EachPairBytes(w, entries).Ok?
    ensures WriteEntries(w, entries).Ok? ==> WriteEntries(w, entries).value == Out(EachPairBytes(w, entries).value, w)
    decreases |entries|
  {
    if entries != [] {
      assert entries[0] in entries;
      assert forall e :: e in entries[1..] ==> e in entries;
      SimpleEntries(w, entries[1..]);
      var e := entries[0];
      if Serialize(w, e.key).Ok? && Serialize(w, e.val).Ok? && EachPairBytes(w, entries[1..]).Ok? {
        var k := Serialize(w, e.key).value.bytes;
        var v := Serialize(w, e.val).value.bytes;
        var rest := EachPairBytes(w, entries[1..]).value;
        assert WriteEntry(w, e) == Ok(Out(k + v, w));
        assert EachPairBytes(w, entries) == Ok(k + v + rest);
      }
    }
  }

  /** A map from a simple writer: TagMap, the number of pairs, `{`, each key
      then its value, `}`. */
  lemma SimpleMapLayout(w: Writer, id: nat, entries: seq<Entry>)
    requires w.refer.Fake? && NoObjects(Map(id, entries))
    ensures Serialize(w, Map(id, entries)).Ok? <==> EachPairBytes(w, entries).Ok?
    ensures Serialize(w, Map(id, entries)).Ok? ==>
              Serialize(w, Map(id, entries)).value.bytes
              == Header(TagMap, |entries|) + EachPairBytes(w, entries).value + [TagClosebrace]
  {
    ContainerUnfolds(w, Map(id, entries));
    assert Bind(w, Some(Identity(id))) == w;
    SimpleEntries(w, entries);
  }

  /** An object[] from a simple writer: TagList, the length, `{`, each
      element's own bytes in order, `}`. */
  lemma SimpleArrayLayout(w: Writer, id: nat, xs: seq<Value>)
    requires w.refer.Fake? && NoObjects(Array(id, Objects(xs)))
    ensures Serialize(w, Array(id, Objects(xs))).Ok? <==> EachBytes(w, xs).Ok?
    ensures Serialize(w, Array(id, Objects(xs))).Ok? ==>
              Serialize(w, Array(id, Objects(xs))).value.bytes
              == Header(TagList, |xs|) + EachBytes(w, xs).value + [TagClosebrace]
  {
    ContainerUnfolds(w, Array(id, Objects(xs)));
    assert Bind(w, Some(Identity(id))) == w;
    SimpleItems(w, xs);
  }

  /** An IList from a simple writer, as an object[]. */
  lemma SimpleListLayout(w: Writer, id: nat, xs: seq<Value>)
    requires w.refer.Fake? && NoObjects(List(id, Items(xs)))
    ensures Serialize(w, List(id, Items(xs))).Ok? <==> EachBytes(w, xs).Ok?
    ensures Serialize(w, List(id, Items(xs))).Ok? ==>
              Serialize(w, List(id, Items(xs))).value.bytes
              == Header(TagList, |xs|) + EachBytes(w, xs).value + [TagClosebrace]
  {
    ContainerUnfolds(w, List(id, Items(xs)));
    assert Bind(w, Some(Identity(id))) == w;
    SimpleItems(w, xs);
  }

  /** Any other ICollection from a simple writer, as an object[]. */
  lemma SimpleCollectionLayout(w: Writer, id: nat, xs: seq<Value>)
    requires w.refer.Fake? && NoObjects(Collection(id, xs))
    ensures Serialize(w, Collection(id, xs)).Ok? <==> EachBytes(w, xs).Ok?
    ensures Serialize(w, Collection(id, xs)).Ok? ==>
              Serialize(w, Collection(id, xs)).value.bytes
              == Header(TagList, |xs|) + EachBytes(w, xs).value + [TagClosebrace]
  {
    ContainerUnfolds(w, Collection(id, xs));
    assert Bind(w, Some(Identity(id))) == w;
    SimpleItems(w, xs);
  }
}

=== FILE: refer.dfy ===
/**
  The reference tracker: `WriterRefer` with its two implementations,
  `RealWriterRefer` (a dictionary from key to id plus the next id, `lastref`)
  and `FakeWriterRefer` (every operation does nothing).

  What counts as "the same object" depends on the writer's mode: in FieldMode
  the dictionary compares by reference, in the other modes by `Equals`. The
  model makes that comparison explicit by turning every object into a
  `RefKey` before it reaches the tracker; `None` stands for a freshly boxed
  object that no later lookup can ever find.
*/
module References {
  import opened Tags
  import opened Wrappers
  import opened Integers
  import opened Utf8
  import opened Dates

  /** What the references dictionary compares. */
  datatype RefKey =
    | Identity(id: nat)           // reference equality: one key per object
    | TextKey(units: seq<char16>) // String.Equals: equal content
    | DateKey(dt: DateTime)       // DateTime.Equals: equal ticks, whatever the Kind
    | GuidKey(text: seq<byte>)    // Guid.Equals: equal value

  datatype Refer = Fake | Real(refs: map<RefKey, nat>, lastref: nat)

  /** The bytes of a back-reference to id `id`. */
  function BackRef(id: nat): (r: seq<byte>)
    ensures |r| >= 3 && r[0] == TagRef && r[|r| - 1] == TagSemicolon
  {
    [TagRef] + WriteInt(id) + [TagSemicolon]
  }

  /** `AddCount`: reserve `count` ids without binding them. */
  function AddCount(r: Refer, count: nat): Refer {
    match r
    case Fake => Fake
    case Real(refs, lastref) => Real(refs, lastref + count)
  }

  /** `Set`: bind the key to the next id (overwriting any earlier binding of an
      equal key) and advance the counter. A fresh box still uses up an id. */
  function Set(r: Refer, key: Option<RefKey>): Refer {
    match r
    case Fake => Fake
    case Real(refs, lastref) =>
      Real(if key.Some? then refs[key.value := lastref] else refs, lastref + 1)
  }

  /** `Write`: the back-reference bytes when the key is bound, nothing otherwise. */
  function Write(r: Refer, key: Option<RefKey>): (out: Option<seq<byte>>)
    ensures out.Some? <==> r.Real? && key.Some? && key.value in r.refs
    ensures out.Some? ==> |out.value| >= 3 && out.value[0] == TagRef && out.value[|out.value| - 1] == TagSemicolon
  {
    if r.Real? && key.Some? && key.value in r.refs then Some(BackRef(r.refs[key.value])) else None
  }

  /** `Reset`: forget every binding and restart the ids at 0. */
  function Reset(r: Refer): Refer {
    match r
    case Fake => Fake
    case Real(_, _) => Real(map[], 0)
  }

  /** Binding a sequence of keys, as consecutive `Set` calls do. */
  function SetAll(r: Refer, keys: seq<Option<RefKey>>): Refer
    decreases |keys|
  {
    if keys == [] then r else SetAll(Set(r, keys[0]), keys[1..])
  }

  /** No key is bound twice; any number of fresh boxes may occur. */
  predicate Distinct(keys: seq<Option<RefKey>>) {
    forall i, j :: 0 <= i < j < |keys| && keys[i].Some? ==> keys[i] != keys[j]
  }

  /** Consecutive `Set` calls hand out ids `lastref`, `lastref + 1`, ... in call
      order, leave earlier bindings of other keys alone, and a fresh box uses
      up its id without becoming findable. */
  lemma {:induction false} SetAllBindsInOrder(r: Refer, keys: seq<Option<RefKey>>)
    requires r.Real? && Distinct(keys)
    ensures SetAll(r, keys).Real?
    ensures SetAll(r, keys).lastref == r.lastref + |keys|
    ensures SetAll(r, keys).refs.Keys == r.refs.Keys + Bound(keys)
    ensures forall i :: 0 <= i < |keys| && keys[i].Some? ==>
              SetAll(r, keys).refs[keys[i].value] == r.lastref + i
    ensures forall k :: k in r.refs && Some(k) !in keys ==> SetAll(r, keys).refs[k] == r.refs[k]
    decreases |keys|
  {
    if keys != [] {
      var r1 := Set(r, keys[0]);
      var tail := keys[1..];
      DistinctSplits(keys);
      SetAllBindsInOrder(r1, tail);
      var s := SetAll(r, keys);
      assert s == SetAll(r1, tail);
      forall i | 0 <= i < |keys| && keys[i].Some?
        ensures s.refs[keys[i].value] == r.lastref + i
      {
        if i > 0 {
          assert tail[i - 1] == keys[i];
        }
      }
      forall k | k in r.refs && Some(k) !in keys
        ensures s.refs[k] == r.refs[k]
      {
        assert Some(k) !in tail;
        assert keys[0] != Some(k);
      }
      BoundSplits(keys);
    }
  }

  /** The keys a sequence of `Set` calls makes findable. */
  function Bound(keys: seq<Option<RefKey>>): set<RefKey> {
    set i | 0 <= i < |keys| && keys[i].Some? :: keys[i].value
  }

  lemma BoundSplits(keys: seq<Option<RefKey>>)
    requires keys != []
    ensures Bound(keys) == (if keys[0].Some? then {keys[0].value} else {}) + Bound(keys[1..])
  {
    var tail := keys[1..];
    forall k | k in Bound(keys)
      ensures k in (if keys[0].Some? then {keys[0].value} else {}) + Bound(tail)
    {
      var i :| 0 <= i < |keys| && keys[i].Some? && keys[i].value == k;
      if i > 0 {
        assert tail[i - 1] == keys[i];
      }
    }
    forall k | k in Bound(tail) ensures k in Bound(keys) {
      var j :| 0 <= j < |tail| && tail[j].Some? && tail[j].value == k;
      assert keys[j + 1] == tail[j];
    }
  }

  lemma DistinctSplits(keys: seq<Option<RefKey>>)
    requires keys != [] && Distinct(keys)
    ensures Distinct(keys[1..]) && (keys[0].Some? ==> keys[0] !in keys[1..])
  {
    var tail := keys[1..];
    forall i, j | 0 <= i < j < |tail| && tail[i].Some? ensures tail[i] != tail[j] {
      assert tail[i] == keys[i + 1] && tail[j] == keys[j + 1];
    }
    if keys[0].Some? {
      forall j | 0 <= j < |tail| ensures tail[j] != keys[0] {
        assert tail[j] == keys[j + 1];
      }
    }
  }

  /** A reader recovers the id from a back-reference, modulo 2^32 as the
      source writes it through a `uint` cast. */
  lemma BackRefId(id: nat)
    ensures var b := BackRef(id); ParseUnsigned(b[1..|b| - 1]) == Some(id % Two32)
  {
    var b := BackRef(id);
    assert b[1..|b| - 1] == WriteInt(id);
  }

  /** After `Set(k)` the key is found and written as a back-reference to the
      id it was given; a `FakeWriterRefer` never finds anything. */
  lemma SetThenWrite(r: Refer, k: RefKey)
    ensures r.Real? ==> Write(Set(r, Some(k)), Some(k)) == Some(BackRef(r.lastref))
    ensures r.Fake? ==> Write(Set(r, Some(k)), Some(k)) == None
  {
  }

  /** After `Reset` no key is found and ids restart at 0. */
  lemma ResetForgets(r: Refer, k: Option<RefKey>)
    ensures Write(Reset(r), k) == None
    ensures r.Real? ==> Set(Reset(r), k).lastref == 1
  {
  }
}

=== FILE: scalars.dfy ===
/**
  The scalar writers that need no reference tracking: `WriteBoolean`, the
  three `WriteDouble` overloads, `WriteLong(BigInteger)`, and the byte layouts
  of `WriteBytes` and `WriteGuid`.
*/
module Scalars {
  import opened Tags
  import opened Wrappers
  import opened Integers
  import opened Values
  import Utf8

  function WriteBoolean(b: bool): (r: seq<byte>)
    ensures |r| == 1
  {
    if b then [TagTrue] else [TagFalse]
  }

  /** `WriteDouble`: NaN and the infinities get their own tags; any other value
      is TagDouble, its text, TagSemicolon. A decimal is always `Finite`. */
  function WriteDouble(f: Real): (r: seq<byte>)
    ensures |r| >= 1
  {
    match f
    case NaN => [TagNaN]
    case Infinity(positive) => [TagInfinity, if positive then TagPos else TagNeg]
    case Finite(text) => [TagDouble] + text + [TagSemicolon]
  }

  /** `WriteLong(BigInteger)`: the number's decimal text between TagLong and
      TagSemicolon; the text is never reduced to the one-digit form. */
  function WriteBigInteger(text: seq<byte>): seq<byte> {
    [TagLong] + text + [TagSemicolon]
  }

  /** The bytes of `WriteBytes`: TagBytes, the length when non-zero, and the
      raw bytes between quotes. The data may itself hold quotes, so a reader
      finds its end only through the length, which reads back (modulo 2^32)
      right after the tag and stops at the opening quote. */
  function BytesBody(data: seq<byte>): (r: seq<byte>)
    ensures |r| >= |data| + 3 && r[0] == TagBytes && r[|r| - 1] == TagQuote
    ensures r[|r| - |data| - 2] == TagQuote && r[|r| - |data| - 1..|r| - 1] == data
    ensures TagsDistinct() ==> Utf8.ReadCount(r[1..]) == (|data| % Two32, r[|r| - |data| - 2..])
  {
    var count := if |data| > 0 then WriteInt(|data|) else [];
    var r := [TagBytes] + count + [TagQuote] + data + [TagQuote];
    if TagsDistinct() then
      Utf8.CountRoundTrip(|data|, TagQuote, data + [TagQuote]);
      assert r[1..] == count + [TagQuote] + (data + [TagQuote]);
      assert r[|r| - |data| - 2..] == [TagQuote] + (data + [TagQuote]);
      r
    else r
  }

  /** A reader's view of one `WriteBytes` encoding: the tag, the length, a
      quote, exactly that many raw bytes, a quote, and nothing after. */
  function ReadBytes(b: seq<byte>): Option<seq<byte>> {
    if |b| == 0 || b[0] != TagBytes then None
    else
      var (n, rest) := Utf8.ReadCount(b[1..]);
      if |rest| == n + 2 && rest[0] == TagQuote && rest[n + 1] == TagQuote then Some(rest[1..n + 1])
      else None
  }

  /** Every byte[] shorter than 2^32 reads back from what `WriteBytes`
      writes, quotes inside the data included. */
  lemma BytesRoundTrip(data: seq<byte>)
    requires |data| < Two32 && TagsDistinct()
    ensures ReadBytes(BytesBody(data)) == Some(data)
  {
    var count := if |data| > 0 then WriteInt(|data|) else [];
    Utf8.CountReadsBack(|data|, TagQuote, data + [TagQuote]);
    BytesPieces(BytesBody(data), count, data);
  }

  /** The reader over the pieces of the encoding, with the count abstract. */
  lemma BytesPieces(b: seq<byte>, count: seq<byte>, data: seq<byte>)
    requires b == [TagBytes] + count + [TagQuote] + data + [TagQuote]
    requires Utf8.ReadCount(count + [TagQuote] + (data + [TagQuote])) == (|data|, [TagQuote] + (data + [TagQuote]))
    ensures ReadBytes(b) == Some(data)
  {
    var rest := [TagQuote] + (data + [TagQuote]);
    assert b[1..] == count + [TagQuote] + (data + [TagQuote]);
    assert rest[1..|data| + 1] == data;
  }

  /** The bytes of `WriteGuid`: TagGuid and the Guid's text between braces. */
  function GuidBody(text: seq<byte>): seq<byte> {
    [TagGuid, TagOpenbrace] + text + [TagClosebrace]
  }

  /** A reader's view of one `WriteBoolean` byte. */
  function DecodeBoolean(b: seq<byte>): Option<bool> {
    if b == [TagTrue] then Some(true)
    else if b == [TagFalse] then Some(false)
    else None
  }

  /** A reader's view of one `WriteDouble` encoding. */
  function DecodeDouble(b: seq<byte>): Option<Real> {
    if |b| == 1 && b[0] == TagNaN then Some(NaN)
    else if |b| == 2 && b[0] == TagInfinity && (b[1] == TagPos || b[1] == TagNeg) then
      Some(Infinity(b[1] == TagPos))
    else if |b| >= 2 && b[0] == TagDouble && b[|b| - 1] == TagSemicolon then
      Some(Finite(b[1..|b| - 1]))
    else None
  }

  /** Booleans and doubles are recovered from their encodings, including the
      sign of an infinity and the exact text of a finite value. */
  lemma ScalarRoundTrip(b: bool, f: Real)
    requires TagsDistinct()
    ensures DecodeBoolean(WriteBoolean(b)) == Some(b)
    ensures DecodeDouble(WriteDouble(f)) == Some(f)
  {
    if f.Finite? {
      var r := WriteDouble(f);
      assert r[1..|r| - 1] == f.text;
    }
  }
}

=== FILE: schemas.dfy ===
/**
  Class schemas: the bytes `WriteSerializableClass` and
  `WriteDataContractClass` build once per type and keep in the process-wide
  `fieldsCache`, `propertiesCache` and `membersCache`, together with the
  number of reference ids the member-name strings use up (`refcount`).
*/
module Schemas {
  import opened Tags
  import opened Wrappers
  import opened Integers
  import opened Utf8
  import opened Values

  datatype Schema = Schema(data: seq<byte>, refcount: nat)

  /** The three caches as one map: the partition picks the cache. */
  datatype CacheKey = CacheKey(part: Partition, cls: ClassDesc)

  /** The member names, each as TagString and its UTF-8 string. */
  function SchemaKeys(names: seq<seq<char16>>): (r: Result<seq<byte>>)
    ensures r.Ok? <==> forall i :: 0 <= i < |names| ==> WellFormed(names[i])
    ensures r.Ok? ==> |r.value| >= 3 * |names|
    decreases |names|
  {
    if names == [] then Ok([])
    else
      var first :- WriteUTF8String(names[0]);
      var rest :- SchemaKeys(names[1..]);
      assert forall i :: 1 <= i < |names| ==> names[i] == names[1..][i - 1];
      Ok([TagString] + first + rest)
  }

  /** Every name fits the 32-bit count the writer puts in front of it. */
  predicate Countable(names: seq<seq<char16>>) {
    |names| < Two32 && forall i :: 0 <= i < |names| ==> |names[i]| < Two32
  }

  /** A class schema: TagClass, the class name, the member count when
      non-zero, `{`, the member names, `}`. One reference id is counted per
      member name. Building fails exactly when the class name or a member name
      is not well-formed UTF-16, and a reader takes back the class name and the
      member names in order. */
  function BuildSchema(name: seq<char16>, names: seq<seq<char16>>): (r: Result<Schema>)
    ensures r.Ok? <==> WellFormed(name) && forall i :: 0 <= i < |names| ==> WellFormed(names[i])
    ensures r.Ok? ==> r.value.refcount == |names|
    ensures r.Ok? ==> |r.value.data| >= 4 && r.value.data[0] == TagClass && r.value.data[|r.value.data| - 1] == TagClosebrace
    ensures r.Ok? && TagsDistinct() && |name| < Two32 && Countable(names) ==>
              ReadSchema(r.value.data) == Some((name, names))
  {
    var nameBytes :- WriteUTF8String(name);
    var keys :- SchemaKeys(names);
    var data := [TagClass] + nameBytes + (if |names| > 0 then WriteInt(|names|) else [])
                + [TagOpenbrace] + keys + [TagClosebrace];
    if TagsDistinct() && |name| < Two32 && Countable(names) then
      SchemaReadsBack(name, names);
      Ok(Schema(data, |names|))
    else Ok(Schema(data, |names|))
  }

  /** A reader's view of a schema: TagClass, the class name string, the member
      count up to `{`, that many member-name strings each after TagString,
      then `}` and nothing more. */
  function ReadSchema(b: seq<byte>): Option<(seq<char16>, seq<seq<char16>>)> {
    if b == [] || b[0] != TagClass then None
    else
      match ReadString(b[1..])
      case None => None
      case Some((name, afterName)) =>
        var c := ReadCount(afterName);
        if c.1 == [] || c.1[0] != TagOpenbrace then None
        else
          match ReadNames(c.1[1..], c.0)
          case None => None
          case Some((names, after)) => if after == [TagClosebrace] then Some((name, names)) else None
  }

  /** `n` member names, each TagString and a string; the names and the bytes after them. */
  function ReadNames(b: seq<byte>, n: nat): Option<(seq<seq<char16>>, seq<byte>)>
    decreases n
  {
    if n == 0 then Some(([], b))
    else if b == [] || b[0] != TagString then None
    else
      match ReadString(b[1..])
      case None => None
      case Some((first, after)) =>
        match ReadNames(after, n - 1)
        case None => None
        case Some((others, rest)) => Some(([first] + others, rest))
  }

  lemma {:induction false} NamesReadBack(names: seq<seq<char16>>, rest: seq<byte>)
    requires SchemaKeys(names).Ok? && Countable(names) && TagsDistinct()
    ensures ReadNames(SchemaKeys(names).value + rest, |names|) == Some((names, rest))
    decreases |names|
  {
    if names == [] {
      assert SchemaKeys(names).value + rest == rest;
    } else {
      var tail := names[1..];
      KeysCons(names);
      NamesReadBack(tail, rest);
      NameStep(names[0], tail, WriteUTF8String(names[0]).value, SchemaKeys(tail).value, rest);
      assert [names[0]] + tail == names;
    }
  }

  /** The keys of a non-empty name list: the first name, then the others. */
  lemma KeysCons(names: seq<seq<char16>>)
    requires names != [] && SchemaKeys(names).Ok? && Countable(names)
    ensures WellFormed(names[0]) && |names[0]| < Two32 && WriteUTF8String(names[0]).Ok?
    ensures SchemaKeys(names[1..]).Ok? && Countable(names[1..])
    ensures SchemaKeys(names).value == [TagString] + WriteUTF8String(names[0]).value + SchemaKeys(names[1..]).value
  {
    assert forall i :: 1 <= i < |names| ==> names[i] == names[1..][i - 1];
  }

  lemma NameStep(name: seq<char16>, tail: seq<seq<char16>>, first: seq<byte>, others: seq<byte>, rest: seq<byte>)
    requires WellFormed(name) && |name| < Two32 && TagsDistinct()
    requires WriteUTF8String(name) == Ok(first)
    requires ReadNames(others + rest, |tail|) == Some((tail, rest))
    ensures ReadNames([TagString] + first + others + rest, |tail| + 1) == Some(([name] + tail, rest))
  {
    StringRoundTrip(name, others + rest);
    NamesCons([TagString] + first + others + rest, |tail| + 1, name, tail, first, others + rest, rest);
  }

  /** One step of `ReadNames`: a name, then the others. */
  lemma NamesCons(b: seq<byte>, n: nat, first: seq<char16>, others: seq<seq<char16>>,
                  bytes: seq<byte>, after: seq<byte>, rest: seq<byte>)
    requires n > 0 && b == [TagString] + bytes + after
    requires ReadString(bytes + after) == Some((first, after))
    requires ReadNames(after, n - 1) == Some((others, rest))
    ensures ReadNames(b, n) == Some(([first] + others, rest))
  {
    assert b[1..] == bytes + after;
  }

  /** A reader takes back the class name and the member names of a schema. */
  lemma SchemaReadsBack(name: seq<char16>, names: seq<seq<char16>>)
    requires WellFormed(name) && SchemaKeys(names).Ok?
    requires |name| < Two32 && Countable(names) && TagsDistinct()
    ensures var data := [TagClass] + WriteUTF8String(name).value + (if |names| > 0 then WriteInt(|names|) else [])
                        + [TagOpenbrace] + SchemaKeys(names).value + [TagClosebrace];
            ReadSchema(data) == Some((name, names))
  {
    SchemaPieces(name, names, WriteUTF8String(name).value, if |names| > 0 then WriteInt(|names|) else [],
                 SchemaKeys(names).value);
  }

  /** The three readers of a schema, each on its own piece. */
  lemma SchemaPieces(name: seq<char16>, names: seq<seq<char16>>, nameBytes: seq<byte>, count: seq<byte>, keys: seq<byte>)
    requires WriteUTF8String(name) == Ok(nameBytes) && SchemaKeys(names) == Ok(keys)
    requires count == if |names| > 0 then WriteInt(|names|) else []
    requires WellFormed(name) && |name| < Two32 && Countable(names) && TagsDistinct()
    ensures ReadSchema([TagClass] + nameBytes + count + [TagOpenbrace] + keys + [TagClosebrace]) == Some((name, names))
  {
    var tail := count + [TagOpenbrace] + keys + [TagClosebrace];
    StringRoundTrip(name, tail);
    CountReadsBack(|names|, TagOpenbrace, keys + [TagClosebrace]);
    NamesReadBack(names, [TagClosebrace]);
    SchemaParts(nameBytes, count, keys, name, |names|, names);
  }

  /** `ReadSchema` from its parts. */
  lemma SchemaParts(nameBytes: seq<byte>, count: seq<byte>, keys: seq<byte>,
                    name: seq<char16>, n: nat, names: seq<seq<char16>>)
    requires ReadString(nameBytes + (count + [TagOpenbrace] + keys + [TagClosebrace]))
             == Some((name, count + [TagOpenbrace] + keys + [TagClosebrace]))
    requires ReadCount(count + [TagOpenbrace] + (keys + [TagClosebrace])) == (n, [TagOpenbrace] + (keys + [TagClosebrace]))
    requires ReadNames(keys + [TagClosebrace], n) == Some((names, [TagClosebrace]))
    ensures ReadSchema([TagClass] + nameBytes + count + [TagOpenbrace] + keys + [TagClosebrace]) == Some((name, names))
  {
    var tail := count + [TagOpenbrace] + keys + [TagClosebrace];
    var b := [TagClass] + nameBytes + count + [TagOpenbrace] + keys + [TagClosebrace];
    assert b[1..] == nameBytes + tail;
    assert tail == count + [TagOpenbrace] + (keys + [TagClosebrace]);
    assert ([TagOpenbrace] + (keys + [TagClosebrace]))[1..] == keys + [TagClosebrace];
  }

  /** Every cached schema is the one its class and partition build. */
  ghost predicate SchemasSound(schemas: map<CacheKey, Schema>) {
    forall k :: k in schemas ==> BuildSchema(k.cls.name, NamesOf(k.cls, k.part)) == Ok(schemas[k])
  }

  /** The cached schema when there is one, otherwise a freshly built one. */
  function GetSchema(schemas: map<CacheKey, Schema>, key: CacheKey): (r: Result<Schema>)
    ensures SchemasSound(schemas) ==> r == BuildSchema(key.cls.name, NamesOf(key.cls, key.part))
  {
    if key in schemas then Ok(schemas[key])
    else BuildSchema(key.cls.name, NamesOf(key.cls, key.part))
  }
}

=== FILE: tags.dfy ===
/**
  The wire tag table of the hprose protocol. Each tag is one byte; the model
  names every tag but does not fix its numeric value, so nothing proved here
  depends on which byte a tag is. Where a decoder must tell two tags apart,
  the lemma says so with `TagsDistinct`.
*/
module Tags {

  type byte = x: int | 0 <= x < 256

  const TagInteger: byte
  const TagLong: byte
  const TagDouble: byte
  const TagNaN: byte
  const TagInfinity: byte
  const TagNull: byte
  const TagEmpty: byte
  const TagTrue: byte
  const TagFalse: byte
  const TagUTF8Char: byte
  const TagString: byte
  const TagBytes: byte
  const TagGuid: byte
  const TagDate: byte
  const TagTime: byte
  const TagUTC: byte
  const TagList: byte
  const TagMap: byte
  const TagClass: byte
  const TagObject: byte
  const TagRef: byte
  const TagSemicolon: byte
  const TagQuote: byte
  const TagOpenbrace: byte
  const TagClosebrace: byte
  const TagPoint: byte
  const TagPos: byte
  const TagNeg: byte

  /** The ASCII bytes the writer emits literally rather than through the tag table. */
  const Zero: byte := 48
  const Minus: byte := 45

  predicate IsDigit(b: byte) {
    Zero <= b <= Zero + 9
  }

  /** The ASCII digit for `d mod 10`, as the source's `(byte)('0' + x % 10)`. */
  function Digit(d: nat): (b: byte)
    ensures IsDigit(b) && b - Zero == d % 10
  {
    Zero + d % 10
  }

  /** The facts about the tag table that decoding in this model relies on. */
  predicate TagsDistinct() {
    && TagUTC != TagSemicolon
    && TagTrue != TagFalse
    && TagNaN != TagInfinity && TagNaN != TagDouble && TagInfinity != TagDouble
    && TagPos != TagNeg
    && !IsDigit(TagQuote) && !IsDigit(TagOpenbrace)
  }
}

=== FILE: utf8.dfy ===
/**
  The writer's hand-written UTF-16 to UTF-8 conversion: `WriteUTF8Char` for a
  single code unit and `WriteUTF8String` for a whole string, char[] or
  StringBuilder. Byte forms follow section 3 of RFC 3629; a surrogate pair is
  combined into one code point as in section 2.2 of RFC 2781.
*/
module Utf8 {
  import opened Tags
  import opened Wrappers
  import opened Integers

  /** A UTF-16 code unit, the element type of a .NET string. */
  type char16 = x: int | 0 <= x < 0x10000

  predicate IsHigh(c: char16) {
    0xD800 <= c <= 0xDBFF
  }

  predicate IsLow(c: char16) {
    0xDC00 <= c <= 0xDFFF
  }

  predicate IsSurrogate(c: char16) {
    0xD800 <= c <= 0xDFFF
  }

  /** A continuation byte `10xxxxxx` carrying the six bits `x mod 64`. */
  function Cont(x: nat): byte {
    0x80 + x % 64
  }

  /** The one-, two- or three-byte form of a 16-bit value. The source writes
      `0xc0 | (c >> 6)` and the like; the OR is an addition because the two
      operands share no set bit. */
  function UnitBytes(c: char16): (r: seq<byte>)
    ensures |r| == (if c < 0x80 then 1 else if c < 0x800 then 2 else 3)
  {
    if c < 0x80 then [c]
    else if c < 0x800 then [0xC0 + c / 64, Cont(c)]
    else [0xE0 + c / 4096, Cont(c / 64), Cont(c)]
  }

  /** The code point of a high/low surrogate pair:
      `((hi & 0x3FF) << 10 | (lo & 0x3FF)) + 0x10000`. */
  function PairCodePoint(hi: char16, lo: char16): (cp: int)
    requires IsHigh(hi) && IsLow(lo)
    ensures 0x10000 <= cp < 0x110000
  {
    (hi - 0xD800) * 1024 + (lo - 0xDC00) + 0x10000
  }

  /** The four-byte form of a supplementary code point. */
  function PairBytes(cp: int): seq<byte>
    requires 0x10000 <= cp < 0x110000
  {
    [0xF0 + cp / 262144, Cont(cp / 4096), Cont(cp / 64), Cont(cp)]
  }

  /** `WriteUTF8Char`: TagUTF8Char and the unit's 1-3 byte form. It never fails:
      a lone surrogate is written as a three-byte form. */
  function WriteUTF8Char(c: char16): (r: seq<byte>)
    ensures 2 <= |r| <= 4 && r[0] == TagUTF8Char
    ensures IsSurrogate(c) ==> |r| == 4
    ensures r[1..] == UnitBytes(c)
  {
    [TagUTF8Char] + UnitBytes(c)
  }

  /** Position `i` respects surrogate pairing: a high surrogate is immediately
      followed by a low one, and a low surrogate immediately follows a high one. */
  predicate PairedAt(s: seq<char16>, i: int)
    requires 0 <= i < |s|
  {
    && (IsHigh(s[i]) ==> i + 1 < |s| && IsLow(s[i + 1]))
    && (IsLow(s[i]) ==> 0 < i && IsHigh(s[i - 1]))
  }

  /** Well-formed UTF-16: every position respects surrogate pairing. */
  ghost predicate WellFormed(s: seq<char16>) {
    forall i :: 0 <= i < |s| ==> PairedAt(s, i)
  }

  /** The loop of `WriteUTF8String`: the bytes between the two quotes, or the
      "wrong unicode string" failure. */
  function EncodeUnits(s: seq<char16>): (r: Result<seq<byte>>)
    ensures r.Ok? ==> |s| <= |r.value| <= 3 * |s|
    decreases |s|
  {
    if s == [] then Ok([])
    else if !IsSurrogate(s[0]) then
      var rest :- EncodeUnits(s[1..]);
      Ok(UnitBytes(s[0]) + rest)
    else if |s| >= 2 && IsHigh(s[0]) && IsLow(s[1]) then
      var rest :- EncodeUnits(s[2..]);
      Ok(PairBytes(PairCodePoint(s[0], s[1])) + rest)
    else Err(WrongUnicode)
  }

  /** Text below 0x80 is written byte for byte as its own code units. */
  lemma {:induction false} AsciiEncodesAsItself(s: seq<char16>)
    requires forall i :: 0 <= i < |s| ==> s[i] < 0x80
    ensures EncodeUnits(s).Ok? && |EncodeUnits(s).value| == |s|
    ensures forall i :: 0 <= i < |s| ==> EncodeUnits(s).value[i] == s[i]
    decreases |s|
  {
    if s != [] {
      AsciiEncodesAsItself(s[1..]);
      var rest := EncodeUnits(s[1..]).value;
      assert EncodeUnits(s).value == [s[0]] + rest;
    }
  }

  /** For a unit that is not a surrogate, the char form after its tag is the
      same bytes the string encoder gives that one unit. */
  lemma CharAgreesWithString(c: char16)
    requires !IsSurrogate(c)
    ensures EncodeUnits([c]) == Ok(WriteUTF8Char(c)[1..])
  {
    assert [c][1..] == [];
    assert EncodeUnits([c]) == Ok(UnitBytes(c) + []);
    assert UnitBytes(c) + [] == UnitBytes(c);
  }

  /** The count before a string is its number of UTF-16 code units: a
      surrogate pair and one ASCII letter are written with the count 3 (not
      2 characters, and not the 5 bytes between the quotes). */
  lemma CountIsCodeUnits()
    ensures WellFormed([0xD83D, 0xDE00, 0x61])
    ensures WriteUTF8String([0xD83D, 0xDE00, 0x61]).Ok?
    ensures WriteUTF8String([0xD83D, 0xDE00, 0x61]).value[0] == Zero + 3
    ensures |EncodeUnits([0xD83D, 0xDE00, 0x61]).value| == 5
  {
    var s: seq<char16> := [0xD83D, 0xDE00, 0x61];
    assert PairedAt(s, 0) && PairedAt(s, 1) && PairedAt(s, 2);
    assert s[2..] == [0x61];
    assert [0x61 as char16][1..] == [];
  }

  /** `WriteUTF8String`: the code-unit count (only when non-zero), a quote,
      the UTF-8 bytes, a quote. The count is `s.Length`, not the byte count.
      It fails exactly on text that is not well-formed UTF-16, and a reader
      takes back the text, wholly consumed, from what it writes. */
  function WriteUTF8String(s: seq<char16>): (r: Result<seq<byte>>)
    ensures r.Ok? <==> WellFormed(s)
    ensures r.Ok? ==> 2 + |s| <= |r.value| && r.value[|r.value| - 1] == TagQuote
    ensures r.Ok? && |s| < Two32 && TagsDistinct() ==> ReadString(r.value) == Some((s, []))
  {
    EncodeFailsIffMalformed(s);
    var payload :- EncodeUnits(s);
    var out := (if |s| > 0 then WriteInt(|s|) else []) + [TagQuote] + payload + [TagQuote];
    if |s| < Two32 && TagsDistinct() then
      StringReadsBack(s, []);
      assert out + [] == out;
      Ok(out)
    else Ok(out)
  }

  lemma WellFormedTail(s: seq<char16>)
    requires |s| > 0 && !IsSurrogate(s[0])
    ensures WellFormed(s) <==> WellFormed(s[1..])
  {
    var t := s[1..];
    if WellFormed(t) {
      forall i | 0 <= i < |s|
        ensures PairedAt(s, i)
      {
        if i > 0 {
          assert PairedAt(t, i - 1);
        }
      }
    }
    if WellFormed(s) {
      forall j | 0 <= j < |t|
        ensures PairedAt(t, j)
      {
        assert PairedAt(s, j + 1);
      }
    }
  }

  lemma WellFormedPairTail(s: seq<char16>)
    requires |s| >= 2 && IsHigh(s[0]) && IsLow(s[1])
    ensures WellFormed(s) <==> WellFormed(s[2..])
  {
    var t := s[2..];
    if WellFormed(t) {
      forall i | 0 <= i < |s|
        ensures PairedAt(s, i)
      {
        if i > 1 {
          assert PairedAt(t, i - 2);
        }
      }
    }
    if WellFormed(s) {
      forall j | 0 <= j < |t|
        ensures PairedAt(t, j)
      {
        assert PairedAt(s, j + 2);
      }
    }
  }

  /** `WriteUTF8String` fails exactly on text that is not well-formed UTF-16:
      a low surrogate first, a high surrogate last, or a high surrogate not
      followed by a low one. */
  lemma {:induction false} EncodeFailsIffMalformed(s: seq<char16>)
    ensures EncodeUnits(s).Ok? <==> WellFormed(s)
    decreases |s|
  {
    if s == [] {
    } else if !IsSurrogate(s[0]) {
      WellFormedTail(s);
      EncodeFailsIffMalformed(s[1..]);
    } else if |s| >= 2 && IsHigh(s[0]) && IsLow(s[1]) {
      WellFormedPairTail(s);
      EncodeFailsIffMalformed(s[2..]);
    } else {
      assert !PairedAt(s, 0);
    }
  }

  predicate IsCont(b: byte) {
    0x80 <= b < 0xC0
  }

  /** The six payload bits of a continuation byte. */
  function ContBits(b: byte): (x: int)
    requires IsCont(b)
    ensures 0 <= x < 64
  {
    b as int - 0x80
  }

  /** A reader's decoding of the first UTF-8 sequence of `b`: its UTF-16 code
      units (a four-byte sequence gives a surrogate pair) and its length. */
  function DecodeOne(b: seq<byte>): (r: Option<(seq<char16>, nat)>)
    requires b != []
    ensures r.Some? ==> 1 <= r.value.1 <= |b|
  {
    var b0: int := b[0];
    if b0 < 0x80 then Some(([b0], 1))
    else if 0xC0 <= b0 < 0xE0 && |b| >= 2 && IsCont(b[1]) then
      Some(([(b0 - 0xC0) * 64 + ContBits(b[1])], 2))
    else if 0xE0 <= b0 < 0xF0 && |b| >= 3 && IsCont(b[1]) && IsCont(b[2]) then
      Some(([(b0 - 0xE0) * 4096 + ContBits(b[1]) * 64 + ContBits(b[2])], 3))
    else if 0xF0 <= b0 < 0xF5 && |b| >= 4 && IsCont(b[1]) && IsCont(b[2]) && IsCont(b[3]) then
      var cp := (b0 - 0xF0) * 262144 + ContBits(b[1]) * 4096 + ContBits(b[2]) * 64 + ContBits(b[3]);
      if 0x10000 <= cp < 0x110000 then
        Some(([0xD800 + (cp - 0x10000) / 1024, 0xDC00 + (cp - 0x10000) % 1024], 4))
      else None
    else None
  }

  /** A reader's decoding of exactly `n` code units of UTF-8 from the front of
      `b`: the units and the bytes after them. */
  function DecodeCount(b: seq<byte>, n: nat): Option<(seq<char16>, seq<byte>)>
    decreases |b|
  {
    if n == 0 then Some(([], b))
    else if b == [] then None
    else
      match DecodeOne(b)
      case None => None
      case Some((u, k)) =>
        if |u| > n then None
        else
          match DecodeCount(b[k..], n - |u|)
          case None => None
          case Some((t, after)) => Some((u + t, after))
  }

  /** One step of `DecodeCount`: the first sequence, then the remaining units. */
  lemma DecodeCountCons(b: seq<byte>, n: nat, u: seq<char16>, k: nat, t: seq<char16>, after: seq<byte>)
    requires b != [] && 0 < |u| <= n && DecodeOne(b) == Some((u, k))
    requires k <= |b| && DecodeCount(b[k..], n - |u|) == Some((t, after))
    ensures DecodeCount(b, n) == Some((u + t, after))
  {
  }

  lemma UnitBytesDecode(c: char16, rest: seq<byte>)
    ensures DecodeOne(UnitBytes(c) + rest) == Some(([c], |UnitBytes(c)|))
  {
    if c >= 0x800 {
      var q := c / 64;
      assert c == 64 * q + c % 64;
      assert q == 64 * (c / 4096) + q % 64;
    }
  }

  /** The four 3-, 6-, 6- and 6-bit groups of a supplementary code point put back together. */
  lemma GroupsReassemble(cp: nat)
    ensures (cp / 262144) * 262144 + (cp / 4096) % 64 * 4096 + (cp / 64) % 64 * 64 + cp % 64 == cp
  {
    var q1 := cp / 64;
    var q2 := q1 / 64;
    var q3 := q2 / 64;
    assert cp / 4096 == q2;
    assert cp / 262144 == q3;
  }

  /** The code point of a pair splits back into the two surrogates. */
  lemma PairSplits(hi: char16, lo: char16)
    requires IsHigh(hi) && IsLow(lo)
    ensures (PairCodePoint(hi, lo) - 0x10000) / 1024 == hi - 0xD800
    ensures (PairCodePoint(hi, lo) - 0x10000) % 1024 == lo - 0xDC00
  {
  }

  lemma PairBytesDecode(hi: char16, lo: char16, rest: seq<byte>)
    requires IsHigh(hi) && IsLow(lo)
    ensures DecodeOne(PairBytes(PairCodePoint(hi, lo)) + rest) == Some(([hi, lo], 4))
  {
    var cp := PairCodePoint(hi, lo);
    var b := PairBytes(cp) + rest;
    assert ContBits(b[1]) == (cp / 4096) % 64;
    assert ContBits(b[2]) == (cp / 64) % 64;
    assert ContBits(b[3]) == cp % 64;
    GroupsReassemble(cp);
    PairSplits(hi, lo);
  }

  /** Decoding as many code units as were encoded gives them back and stops
      exactly where the encoded bytes end. */
  lemma {:induction false} EncodeUnitsRoundTrip(s: seq<char16>, rest: seq<byte>)
    requires EncodeUnits(s).Ok?
    ensures DecodeCount(EncodeUnits(s).value + rest, |s|) == Some((s, rest))
    decreases |s|
  {
    if s == [] {
      assert EncodeUnits(s).value + rest == rest;
    } else if !IsSurrogate(s[0]) {
      EncodeUnitsRoundTrip(s[1..], rest);
      UnitStep(s, rest);
    } else {
      EncodeUnitsRoundTrip(s[2..], rest);
      PairStep(s, rest);
    }
  }

  lemma UnitStep(s: seq<char16>, rest: seq<byte>)
    requires s != [] && !IsSurrogate(s[0]) && EncodeUnits(s).Ok?
    requires DecodeCount(EncodeUnits(s[1..]).value + rest, |s| - 1) == Some((s[1..], rest))
    ensures DecodeCount(EncodeUnits(s).value + rest, |s|) == Some((s, rest))
  {
    var head := UnitBytes(s[0]);
    var e := EncodeUnits(s[1..]).value;
    assert EncodeUnits(s) == Ok(head + e);
    Regroup(head, e, rest);
    UnitBytesDecode(s[0], e + rest);
    DecodeCountCons(head + (e + rest), |s|, [s[0]], |head|, s[1..], rest);
    assert [s[0]] + s[1..] == s;
  }

  lemma PairStep(s: seq<char16>, rest: seq<byte>)
    requires |s| >= 2 && IsHigh(s[0]) && IsLow(s[1]) && EncodeUnits(s).Ok?
    requires DecodeCount(EncodeUnits(s[2..]).value + rest, |s| - 2) == Some((s[2..], rest))
    ensures DecodeCount(EncodeUnits(s).value + rest, |s|) == Some((s, rest))
  {
    var head := PairBytes(PairCodePoint(s[0], s[1]));
    var e := EncodeUnits(s[2..]).value;
    assert EncodeUnits(s) == Ok(head + e);
    Regroup(head, e, rest);
    PairBytesDecode(s[0], s[1], e + rest);
    DecodeCountCons(head + (e + rest), |s|, [s[0], s[1]], 4, s[2..], rest);
    assert [s[0], s[1]] + s[2..] == s;
  }

  lemma Regroup5(a: seq<byte>, b: seq<byte>, c: seq<byte>, d: seq<byte>, e: seq<byte>)
    ensures a + b + c + d + e == a + b + (c + (d + e))
  {
  }

  lemma Regroup(a: seq<byte>, b: seq<byte>, c: seq<byte>)
    ensures (a + b) + c == a + (b + c) && (a + (b + c))[|a|..] == b + c
  {
  }

  /** A reader's count: the digits before the first non-digit, read from the
      left into `acc`, and the bytes after them. No digits at all is 0. */
  function ReadDigits(b: seq<byte>, acc: nat): (nat, seq<byte>)
    decreases |b|
  {
    if b != [] && IsDigit(b[0]) then ReadDigits(b[1..], 10 * acc + (b[0] - Zero)) else (acc, b)
  }

  function ReadCount(b: seq<byte>): (nat, seq<byte>) {
    ReadDigits(b, 0)
  }

  /** Reading runs through a block of digits and carries on after it. */
  lemma {:induction false} ReadDigitsSplit(d: seq<byte>, t: seq<byte>, acc: nat)
    requires AllDigits(d)
    ensures ReadDigits(d + t, acc) == ReadDigits(t, ReadDigits(d, acc).0)
    decreases |d|
  {
    if d != [] {
      assert (d + t)[1..] == d[1..] + t;
      assert AllDigits(d[1..]) by {
        forall i | 0 <= i < |d[1..]| ensures IsDigit(d[1..][i]) {
          assert d[1..][i] == d[i + 1];
        }
      }
      ReadDigitsSplit(d[1..], t, 10 * acc + (d[0] - Zero));
    } else {
      assert d + t == t;
    }
  }

  /** Reading the digits from the left gives the number they denote. */
  lemma {:induction false} ReadDigitsValue(d: seq<byte>)
    requires AllDigits(d)
    ensures ReadDigits(d, 0).0 == DigitsToNat(d)
    decreases |d|
  {
    if d != [] {
      var front := d[..|d| - 1];
      var x := d[|d| - 1];
      assert AllDigits(front) by {
        forall i | 0 <= i < |front| ensures IsDigit(front[i]) {
          assert front[i] == d[i];
        }
      }
      ReadDigitsValue(front);
      assert front + [x] == d;
      ReadDigitsSplit(front, [x], 0);
      assert [x][1..] == [];
    }
  }

  /** A count written as `WriteInt` writes it, or left out when it is 0, is
      read back modulo 2^32 up to the byte that follows it. */
  lemma CountRoundTrip(count: nat, x: byte, rest: seq<byte>)
    requires !IsDigit(x)
    ensures ReadCount((if count > 0 then WriteInt(count) else []) + [x] + rest) == (count % Two32, [x] + rest)
  {
    var d := if count > 0 then WriteInt(count) else [];
    assert d + [x] + rest == d + ([x] + rest);
    ReadDigitsSplit(d, [x] + rest, 0);
    ReadDigitsValue(d);
    if count > 0 {
      assert ParseUnsigned(d) == Some(count % Two32);
    }
  }

  /** A reader's `ReadString`, after TagString: the code-unit count up to the
      opening quote, that many code units of UTF-8, the closing quote. Gives
      the text and the bytes after the closing quote. */
  function ReadString(b: seq<byte>): Option<(seq<char16>, seq<byte>)> {
    var c := ReadCount(b);
    var open := c.1;
    if open == [] || open[0] != TagQuote then None
    else
      match DecodeCount(open[1..], c.0)
      case None => None
      case Some((units, after)) =>
        if after != [] && after[0] == TagQuote then Some((units, after[1..])) else None
  }

  /** `ReadString` from its parts: the count, the units, the two quotes. */
  lemma ReadStringParts(count: seq<byte>, n: nat, payload: seq<byte>, u: seq<char16>, rest: seq<byte>)
    requires ReadCount(count + [TagQuote] + (payload + ([TagQuote] + rest))) == (n, [TagQuote] + (payload + ([TagQuote] + rest)))
    requires DecodeCount(payload + ([TagQuote] + rest), n) == Some((u, [TagQuote] + rest))
    ensures ReadString(count + [TagQuote] + payload + [TagQuote] + rest) == Some((u, rest))
  {
    var m := payload + ([TagQuote] + rest);
    Regroup5(count, [TagQuote], payload, [TagQuote], rest);
    assert ([TagQuote] + m)[1..] == m;
    assert ([TagQuote] + rest)[1..] == rest;
  }

  /** The count a string writes, read back in full when it is below 2^32. */
  lemma CountReadsBack(n: nat, x: byte, m: seq<byte>)
    requires n < Two32 && !IsDigit(x)
    ensures ReadCount((if n > 0 then WriteInt(n) else []) + [x] + m) == (n, [x] + m)
  {
    CountRoundTrip(n, x, m);
  }

  /** The reader takes back what the string writer wrote, and nothing after it. */
  lemma StringReadsBack(s: seq<char16>, rest: seq<byte>)
    requires EncodeUnits(s).Ok? && |s| < Two32 && TagsDistinct()
    ensures ReadString((if |s| > 0 then WriteInt(|s|) else []) + [TagQuote] + EncodeUnits(s).value + [TagQuote] + rest)
         == Some((s, rest))
  {
    var payload := EncodeUnits(s).value;
    CountReadsBack(|s|, TagQuote, payload + ([TagQuote] + rest));
    EncodeUnitsRoundTrip(s, [TagQuote] + rest);
    ReadStringParts(if |s| > 0 then WriteInt(|s|) else [], |s|, payload, s, rest);
  }

  /** A string written by `WriteUTF8String` is read back in full, whatever
      bytes follow it, when its length fits the 32-bit count. */
  lemma StringRoundTrip(s: seq<char16>, rest: seq<byte>)
    requires WellFormed(s) && |s| < Two32 && TagsDistinct()
    ensures WriteUTF8String(s).Ok? && ReadString(WriteUTF8String(s).value + rest) == Some((s, rest))
  {
    EncodeFailsIffMalformed(s);
    var count := if |s| > 0 then WriteInt(|s|) else [];
    var payload := EncodeUnits(s).value;
    assert WriteUTF8String(s) == Ok(count + [TagQuote] + payload + [TagQuote]);
    StringReadsBack(s, rest);
  }
}

=== FILE: values.dfy ===
/**
  The values `HproseWriter.Serialize` accepts, as a closed datatype. Every
  reference object carries an `id` standing for its object identity, and all
  occurrences of one object in a graph carry the same id. A `Value` is finite,
  so a graph with a cycle is given with a stand-in at the back edge: a value
  with the object's id whose contents a real tracker never reads, because it
  finds the id bound. A .NET `Type` is a `ClassDesc` with its name and its
  three ordered member-name lists.
*/
module Values {
  import opened Tags
  import opened Wrappers
  import opened Integers
  import opened Utf8
  import opened Dates
  import opened References

  /** `HproseMode`. */
  datatype Mode = FieldMode | PropertyMode | MemberMode

  /** A string, a StringBuilder or a char[]: identity and UTF-16 contents. */
  datatype Text = Text(id: nat, units: seq<char16>)

  datatype TextKind = StringText | BuilderText | CharsText

  /** A byte[]: identity and contents. */
  datatype Blob = Blob(id: nat, data: seq<byte>)

  /** A float, double or decimal. The digits of a finite value come from .NET
      number formatting and are carried as the ASCII text written. */
  datatype Real = NaN | Infinity(positive: bool) | Finite(text: seq<byte>)

  /** A user class: its hprose class name, whether it is [Serializable], and
      the ordered names of its fields, of its properties, and of its
      data-contract members. */
  datatype ClassDesc = ClassDesc(
    typeId: nat,
    name: seq<char16>,
    serializable: bool,
    fields: seq<seq<char16>>,
    properties: seq<seq<char16>>,
    members: seq<seq<char16>>)

  /** Which member list (and which schema cache) an object of a class uses. */
  datatype Partition = Fields | Properties | Members

  datatype Value =
    | Null                                   // null and DBNull
    | Bool(b: bool)
    | Int(ikind: IntKind, n: int)            // the integral value types, enums by their underlying type, TimeSpan as Int64 ticks
    | BigInt(text: seq<byte>)                // BigInteger, by its decimal text
    | Float(f: Real)
    | Char(c: char16)
    | Txt(tkind: TextKind, t: Text)           // string, StringBuilder, char[]
    | Bytes(blob: Blob)
    | Date(dt: DateTime)                     // a boxed DateTime
    | Guid(text: seq<byte>)                  // a boxed Guid, by its text
    | Array(id: nat, elems: ArrayElems)
    | List(id: nat, items: ListElems)
    | Map(id: nat, entries: seq<Entry>)      // IDictionary, in enumeration order
    | Collection(id: nat, members: seq<Value>) // any other ICollection
    | Object(id: nat, cls: ClassDesc,
             fieldValues: seq<Value>, propertyValues: seq<Value>, memberValues: seq<Value>)
    | Unsupported                            // an ISerializable class

  datatype Entry = Entry(key: Value, val: Value)

  /** The element types `Serialize` dispatches on for arrays. */
  datatype ArrayElems =
    | Objects(items: seq<Value>)                  // object[] and any other rank-1 array
    | Grid(rows: seq<Row>)                        // a rank-2 array, row by row
    | Integers(ikind: IntKind, ns: seq<int>)      // sbyte[] ... ulong[], TimeSpan[] as Int64
    | Booleans(bs: seq<bool>)
    | Reals(fs: seq<Real>)                        // float[], double[], decimal[]
    | BigIntegers(texts: seq<seq<byte>>)
    | DateTimes(dts: seq<DateTime>)
    | Texts(tkind: TextKind, ts: seq<Option<Text>>) // string[], StringBuilder[], char[][]
    | Blobs(blobs: seq<Option<Blob>>)             // byte[][]
    | Guids(guids: seq<seq<byte>>)

  /** One row of a rank-2 array. */
  datatype Row = Row(cells: seq<Value>)

  /** The list types `Serialize` dispatches on. */
  datatype ListElems =
    | Items(items: seq<Value>)                    // ArrayList and any other IList
    | IntItems(ns: seq<int>)                      // IList<int>
    | StringItems(ts: seq<Option<Text>>)          // IList<string>
    | DoubleItems(fs: seq<Real>)                  // IList<double>

  /** `Length` of an array: its elements, or its rows for a rank-2 array. */
  function ArrayLength(elems: ArrayElems): nat {
    match elems
    case Objects(items) => |items|
    case Grid(rows) => |rows|
    case Integers(_, ns) => |ns|
    case Booleans(bs) => |bs|
    case Reals(fs) => |fs|
    case BigIntegers(texts) => |texts|
    case DateTimes(dts) => |dts|
    case Texts(_, ts) => |ts|
    case Blobs(bs) => |bs|
    case Guids(gs) => |gs|
  }

  /** `Count` of a list. */
  function ListCount(items: ListElems): nat {
    match items
    case Items(xs) => |xs|
    case IntItems(ns) => |ns|
    case StringItems(ts) => |ts|
    case DoubleItems(fs) => |fs|
  }

  /** The test `WriteClass` and `WriteObject` share: serializable classes use
      their fields (FieldMode) or properties (PropertyMode); MemberMode and
      non-serializable classes use data-contract members. */
  function PartitionOf(mode: Mode, cls: ClassDesc): (p: Partition)
    ensures p == Fields <==> mode == FieldMode && cls.serializable
    ensures p == Properties <==> mode == PropertyMode && cls.serializable
  {
    if mode != MemberMode && cls.serializable then
      (match mode
       case FieldMode => Fields
       case PropertyMode => Properties)
    else Members
  }

  function NamesOf(cls: ClassDesc, p: Partition): seq<seq<char16>> {
    match p
    case Fields => cls.fields
    case Properties => cls.properties
    case Members => cls.members
  }

  function ValuesOf(v: Value, p: Partition): seq<Value>
    requires v.Object?
  {
    match p
    case Fields => v.fieldValues
    case Properties => v.propertyValues
    case Members => v.memberValues
  }

  /** The dictionary key of a string, StringBuilder or char[]: only a string in
      a mode that compares by `Equals` is found by its contents. */
  function KeyOfText(mode: Mode, kind: TextKind, t: Text): (k: Option<RefKey>)
    ensures k.Some?
    ensures k.value.TextKey? <==> kind == StringText && mode != FieldMode
  {
    if kind == StringText && mode != FieldMode then Some(TextKey(t.units))
    else Some(Identity(t.id))
  }

  /** The dictionary key of a boxed DateTime: in FieldMode each boxing is a new
      object no lookup can find; otherwise equal ticks match, whatever the Kind. */
  function KeyOfDate(mode: Mode, dt: DateTime): (k: Option<RefKey>)
    ensures k.None? <==> mode == FieldMode
  {
    if mode == FieldMode then None else Some(DateKey(dt.(utc := false)))
  }

  /** The dictionary key of a boxed Guid, as for DateTime. */
  function KeyOfGuid(mode: Mode, g: seq<byte>): (k: Option<RefKey>)
    ensures k.None? <==> mode == FieldMode
  {
    if mode == FieldMode then None else Some(GuidKey(g))
  }

  /** Values with no user object anywhere inside. */
  ghost predicate NoObjects(v: Value) {
    match v
    case Object(_, _, _, _, _) => false
    case Array(_, Objects(items)) => forall x :: x in items ==> NoObjects(x)
    case Array(_, Grid(rows)) => forall r, x :: r in rows && x in r.cells ==> NoObjects(x)
    case List(_, Items(items)) => forall x :: x in items ==> NoObjects(x)
    case Map(_, entries) => forall e :: e in entries ==> NoObjects(e.key) && NoObjects(e.val)
    case Collection(_, members) => forall x :: x in members ==> NoObjects(x)
    case _ => true
  }

  /** An object[] is object-free exactly when each element is. */
  lemma NoObjectsInItems(id: nat, items: seq<Value>)
    ensures NoObjects(Array(id, Objects(items))) <==> forall x :: x in items ==> NoObjects(x)
  {
  }
}

=== FILE: wrappers.dfy ===
/** Failure-compatible result types shared by the writer model. */
module Wrappers {

  datatype Option<+T> = None | Some(value: T)

  /** The ways a `Serialize` call can fail. */
  datatype Error =
    | WrongUnicode     // an unpaired or misordered UTF-16 surrogate
    | UnsupportedType  // a reference type implementing ISerializable

  /** Either a value or the error that stopped the writer. Usable with `:-`. */
  datatype Result<+T> = Ok(value: T) | Err(error: Error) {

    predicate IsFailure() {
      Err?
    }

    function PropagateFailure<U>(): Result<U>
      requires Err?
    {
      Err(error)
    }

    function Extract(): T
      requires Ok?
    {
      value
    }
  }
}

=== FILE: writer.dfy ===
/**
  `HproseWriter.Serialize` and the writers it dispatches to, over the closed
  `Value` datatype. Each writer takes the writer state and returns the bytes
  it appends together with the new state, or the error the source throws.
*/
module HproseWriter {
  import opened Tags
  import opened Wrappers
  import opened Integers
  import opened Utf8
  import opened Dates
  import opened References
  import opened Values
  import opened Scalars
  import opened Schemas

  /** The class side of the writer: the class indexes handed out so far
      (`classref`, `lastclassref`) and the schema caches (static in the
      source, so they outlive `Reset`). */
  datatype Classes = Classes(
    classref: map<ClassDesc, nat>,
    lastclassref: nat,
    schemas: map<CacheKey, Schema>)

  /** The writer: its mode, its reference tracker and its class side. */
  datatype Writer = Writer(mode: Mode, refer: Refer, classes: Classes)

  /** The bytes one call writes and the state after it. */
  datatype Out = Out(bytes: seq<byte>, w: Writer)

  /** `WriteClass` and the class-index lookup of `WriteObject`: the schema
      bytes written (none for a class already seen) and the class index. */
  datatype ClassOut = ClassOut(bytes: seq<byte>, w: Writer, index: nat)

  /** The constructor: a simple writer gets a `FakeWriterRefer`. */
  function NewWriter(mode: Mode, simple: bool, schemas: map<CacheKey, Schema>): (w: Writer)
    ensures w.refer.Fake? <==> simple
    ensures SchemasSound(schemas) ==> Inv(w)
  {
    Writer(mode, if simple then Fake else Real(map[], 0), Classes(map[], 0, schemas))
  }

  /** `Reset`: the tracker forgets everything and class indexes restart at 0;
      the schema caches are kept. */
  function ResetWriter(w: Writer): (w': Writer)
    ensures w'.mode == w.mode && w'.classes.schemas == w.classes.schemas && w'.refer.Fake? == w.refer.Fake?
    ensures forall k :: Found(w', k).None?
    ensures forall c :: c !in w'.classes.classref
    ensures Inv(w) ==> Inv(w')
  {
    w.(refer := References.Reset(w.refer), classes := Classes(map[], 0, w.classes.schemas))
  }

  /** Class indexes are below `lastclassref`, no two classes share one, every
      class with an index has its schema in the cache of its partition, and
      every cached schema is the one its class builds. */
  ghost predicate ClassesInv(mode: Mode, c: Classes) {
    && (forall cls :: cls in c.classref ==> c.classref[cls] < c.lastclassref)
    && (forall c1, c2 :: c1 in c.classref && c2 in c.classref && c1 != c2 ==> c.classref[c1] != c.classref[c2])
    && (forall cls :: cls in c.classref ==> CacheKey(PartitionOf(mode, cls), cls) in c.schemas)
    && SchemasSound(c.schemas)
  }

  ghost predicate Inv(w: Writer) {
    ClassesInv(w.mode, w.classes)
  }

  /** Bound keys stay bound and ids only grow; the kind of tracker stays. */
  ghost predicate ReferGrows(a: Refer, b: Refer) {
    && b.Fake? == a.Fake?
    && (a.Real? ==> a.refs.Keys <= b.refs.Keys && a.lastref <= b.lastref)
  }

  /** Class indexes and cached schemas are never changed or dropped. */
  ghost predicate ClassesGrow(a: Classes, b: Classes) {
    || a == b
    || (&& (forall c :: c in a.classref ==> c in b.classref && b.classref[c] == a.classref[c])
        && a.lastclassref <= b.lastclassref
        && (forall k :: k in a.schemas ==> k in b.schemas && b.schemas[k] == a.schemas[k]))
  }

  /** What writing never undoes. */
  ghost predicate Grows(a: Writer, b: Writer) {
    b.mode == a.mode && ReferGrows(a.refer, b.refer) && ClassesGrow(a.classes, b.classes)
  }

  lemma GrowsTrans(a: Writer, b: Writer, c: Writer)
    requires Grows(a, b) && Grows(b, c)
    ensures Grows(a, c)
  {
  }

  /** A successful write grows the state and keeps the invariant. */
  ghost predicate Advances(w: Writer, r: Result<Out>) {
    r.Ok? ==> Grows(w, r.value.w) && (Inv(w) ==> Inv(r.value.w))
  }

  /** With a `FakeWriterRefer`, a value with no user object in it leaves the
      writer exactly as it was. */
  ghost predicate StatelessWhenFake(w: Writer, v: Value, r: Result<Out>) {
    r.Ok? && w.refer.Fake? && NoObjects(v) ==> r.value.w == w
  }

  /** The key under which `Serialize` looks a value up, if it looks it up at
      all: strings of length 0 and 1 and every value type but DateTime and
      Guid are written without a lookup. */
  function RefKeyOf(mode: Mode, v: Value): Option<RefKey> {
    match v
    case Txt(kind, t) =>
      if kind != CharsText && |t.units| <= 1 then None else KeyOfText(mode, kind, t)
    case Bytes(b) => Some(Identity(b.id))
    case Date(dt) => KeyOfDate(mode, dt)
    case Guid(g) => KeyOfGuid(mode, g)
    case Array(id, _) => Some(Identity(id))
    case List(id, _) => Some(Identity(id))
    case Map(id, _) => Some(Identity(id))
    case Collection(id, _) => Some(Identity(id))
    case Object(id, _, _, _, _) => Some(Identity(id))
    case _ => None
  }

  /** `refer.Write`: the back-reference when the key is bound. */
  function Found(w: Writer, key: Option<RefKey>): Option<seq<byte>> {
    References.Write(w.refer, key)
  }

  /** `refer.Set`. */
  function Bind(w: Writer, key: Option<RefKey>): (w': Writer)
    ensures Grows(w, w') && (Inv(w) ==> Inv(w'))
    ensures w.refer.Real? && key.Some? ==> Found(w', key) == Some(BackRef(w.refer.lastref))
    ensures w.refer.Fake? ==> w' == w
  {
    w.(refer := Set(w.refer, key))
  }

  /** The start of a list, map or object body: the tag, the element count when
      it is not zero, and `{`. */
  function Header(tag: byte, count: nat): (r: seq<byte>)
    ensures |r| >= 2 && r[0] == tag && r[|r| - 1] == TagOpenbrace
    ensures count == 0 <==> |r| == 2
    ensures count > 0 ==> ParseUnsigned(r[1..|r| - 1]) == Some(count % Two32)
  {
    var r := [tag] + (if count > 0 then WriteInt(count) else []) + [TagOpenbrace];
    assert count > 0 ==> r[1..|r| - 1] == WriteInt(count);
    r
  }

  /** The layout of a list, map or object: `Header(tag, count)`, the
      elements, then `}`. */
  predicate Framed(b: seq<byte>, tag: byte, count: nat) {
    var h := Header(tag, count);
    |h| < |b| && b[..|h|] == h && b[|b| - 1] == TagClosebrace
  }

  /** The bytes of a sequence of values that need no writer state. */
  function Join<T>(xs: seq<T>, f: T -> seq<byte>): seq<byte>
    decreases |xs|
  {
    if xs == [] then [] else f(xs[0]) + Join(xs[1..], f)
  }

  /** `WriteString` (string, char[] and StringBuilder overloads): bind the key,
      then TagString and the UTF-8 string, which a reader takes back whole.
      Fails on ill-formed UTF-16. */
  function WriteString(w: Writer, key: Option<RefKey>, units: seq<char16>): (r: Result<Out>)
    ensures r.Ok? <==> WellFormed(units)
    ensures r.Ok? ==> r.value.w == Bind(w, key) && |r.value.bytes| > 0 && r.value.bytes[0] == TagString
    ensures r.Ok? && |units| < Two32 && TagsDistinct() ==> ReadString(r.value.bytes[1..]) == Some((units, []))
    ensures Advances(w, r)
  {
    var body :- WriteUTF8String(units);
    assert ([TagString] + body)[1..] == body;
    Ok(Out([TagString] + body, Bind(w, key)))
  }

  /** `WriteStringWithRef`: when the key is bound, the back-reference to its
      id and nothing else changes; otherwise the string in full, after which
      a real tracker finds the key under the next id. */
  function WriteStringWithRef(w: Writer, key: Option<RefKey>, units: seq<char16>): (r: Result<Out>)
    ensures w.refer.Real? && key.Some? && key.value in w.refer.refs ==>
              r == Ok(Out(BackRef(w.refer.refs[key.value]), w))
    ensures Found(w, key).None? ==> (r.Ok? <==> WellFormed(units))
    ensures Found(w, key).None? && r.Ok? ==>
              && |r.value.bytes| > 0 && r.value.bytes[0] == TagString
              && (|units| < Two32 && TagsDistinct() ==> ReadString(r.value.bytes[1..]) == Some((units, [])))
              && (w.refer.Real? && key.Some? ==> Found(r.value.w, key) == Some(BackRef(w.refer.lastref)))
    ensures Advances(w, r)
  {
    match Found(w, key)
    case Some(b) => Ok(Out(b, w))
    case None => WriteString(w, key, units)
  }

  /** `WriteBytes`: bind the array, then its bytes. */
  function WriteBytes(w: Writer, b: Blob): (o: Out)
    ensures o.w == Bind(w, Some(Identity(b.id))) && |o.bytes| > 0 && o.bytes[0] == TagBytes
  {
    Out(BytesBody(b.data), Bind(w, Some(Identity(b.id))))
  }

  function WriteBytesWithRef(w: Writer, b: Blob): (o: Out)
    ensures SerializeSpec(w, Bytes(b), Ok(o))
  {
    match Found(w, Some(Identity(b.id)))
    case Some(back) => Out(back, w)
    case None => WriteBytes(w, b)
  }

  /** `WriteDate(DateTime)`: bind the boxed date, then its encoding, which a
      reader takes back to the tick. Afterwards a real tracker finds the date
      unless the mode boxes it afresh (FieldMode); the id is used up either way. */
  function WriteDateValue(w: Writer, dt: DateTime): (o: Out)
    ensures Valid(dt) && TagsDistinct() ==> DecodeDateTime(o.bytes) == Some(dt.(subTicks := 0))
    ensures Found(o.w, KeyOfDate(w.mode, dt)).Some? <==> w.refer.Real? && w.mode != FieldMode
    ensures w.refer.Real? ==> o.w.refer.Real? && o.w.refer.lastref == w.refer.lastref + 1
    ensures w.refer.Fake? ==> o.w == w
    ensures Grows(w, o.w) && (Inv(w) ==> Inv(o.w))
  {
    if Valid(dt) && TagsDistinct() then
      DateTimeRoundTrip(dt);
      Out(WriteDateTime(dt), Bind(w, KeyOfDate(w.mode, dt)))
    else Out(WriteDateTime(dt), Bind(w, KeyOfDate(w.mode, dt)))
  }

  function WriteDateWithRef(w: Writer, dt: DateTime): (o: Out)
    ensures SerializeSpec(w, Date(dt), Ok(o))
    ensures w.mode == FieldMode ==> o == WriteDateValue(w, dt)
  {
    match Found(w, KeyOfDate(w.mode, dt))
    case Some(back) => Out(back, w)
    case None => WriteDateValue(w, dt)
  }

  /** `WriteGuid`: bind the boxed Guid, then TagGuid and its text in braces. */
  function WriteGuid(w: Writer, g: seq<byte>): (o: Out)
    ensures o.w == Bind(w, KeyOfGuid(w.mode, g)) && |o.bytes| > 0 && o.bytes[0] == TagGuid
  {
    Out(GuidBody(g), Bind(w, KeyOfGuid(w.mode, g)))
  }

  function WriteGuidWithRef(w: Writer, g: seq<byte>): (o: Out)
    ensures SerializeSpec(w, Guid(g), Ok(o))
    ensures w.mode == FieldMode ==> o == WriteGuid(w, g)
  {
    match Found(w, KeyOfGuid(w.mode, g))
    case Some(back) => Out(back, w)
    case None => WriteGuid(w, g)
  }

  /** The loop of `WriteArray(DateTime[])`: `WriteDate` on every element,
      with no lookup. */
  function WriteDates(w: Writer, dts: seq<DateTime>): (o: Out)
    ensures Advances(w, Ok(o))
    ensures w.refer.Real? ==> o.w.refer.lastref == w.refer.lastref + |dts|
    ensures w.refer.Fake? ==> o.w == w
    decreases |dts|
  {
    if dts == [] then Out([], w)
    else
      var first := WriteDateValue(w, dts[0]);
      var rest := WriteDates(first.w, dts[1..]);
      Out(first.bytes + rest.bytes, rest.w)
  }

  /** The loop of `WriteArray(string[])`, `WriteArray(StringBuilder[])` and
      `WriteArray(char[][])`: null or `WriteString`, with no lookup and no
      short-string form. */
  function WriteTexts(w: Writer, kind: TextKind, ts: seq<Option<Text>>): (r: Result<Out>)
    ensures Advances(w, r)
    ensures r.Ok? && w.refer.Real? ==> r.value.w.refer.lastref == w.refer.lastref + Present(ts)
    ensures r.Ok? && w.refer.Fake? ==> r.value.w == w
    decreases |ts|
  {
    if ts == [] then Ok(Out([], w))
    else
      var first :- (match ts[0]
                    case None => Ok(Out([TagNull], w))
                    case Some(t) => WriteString(w, KeyOfText(w.mode, kind, t), t.units));
      var rest :- WriteTexts(first.w, kind, ts[1..]);
      Ok(Out(first.bytes + rest.bytes, rest.w))
  }

  /** The number of non-null elements. */
  function Present<T>(xs: seq<Option<T>>): nat
    decreases |xs|
  {
    if xs == [] then 0 else (if xs[0].Some? then 1 else 0) + Present(xs[1..])
  }

  /** The loop of `WriteArray(byte[][])`: null or `WriteBytes`, with no lookup. */
  function WriteBlobs(w: Writer, bs: seq<Option<Blob>>): (o: Out)
    ensures Advances(w, Ok(o))
    ensures w.refer.Real? ==> o.w.refer.lastref == w.refer.lastref + Present(bs)
    ensures w.refer.Fake? ==> o.w == w
    decreases |bs|
  {
    if bs == [] then Out([], w)
    else
      var first := match bs[0]
                   case None => Out([TagNull], w)
                   case Some(b) => WriteBytes(w, b);
      var rest := WriteBlobs(first.w, bs[1..]);
      Out(first.bytes + rest.bytes, rest.w)
  }

  /** The loop of `WriteArray(Guid[])`: `WriteGuidWithRef` on every element. */
  function WriteGuids(w: Writer, gs: seq<seq<byte>>): (o: Out)
    ensures Advances(w, Ok(o))
    ensures w.refer.Fake? ==> o.w == w
    decreases |gs|
  {
    if gs == [] then Out([], w)
    else
      var first := WriteGuidWithRef(w, gs[0]);
      var rest := WriteGuids(first.w, gs[1..]);
      Out(first.bytes + rest.bytes, rest.w)
  }

  /** The loop of `WriteList(IList<string>)`: null or `WriteStringWithRef`,
      with no short-string form. */
  function WriteStringItems(w: Writer, ts: seq<Option<Text>>): (r: Result<Out>)
    ensures Advances(w, r)
    ensures r.Ok? && w.refer.Fake? ==> r.value.w == w
    decreases |ts|
  {
    if ts == [] then Ok(Out([], w))
    else
      var first :- (match ts[0]
                    case None => Ok(Out([TagNull], w))
                    case Some(t) => WriteStringWithRef(w, KeyOfText(w.mode, StringText, t), t.units));
      var rest :- WriteStringItems(first.w, ts[1..]);
      Ok(Out(first.bytes + rest.bytes, rest.w))
  }

  /** A list body: header, elements, `}`. */
  function Wrap(tag: byte, count: nat, body: Out): Out {
    Out(Header(tag, count) + body.bytes + [TagClosebrace], body.w)
  }

  /** A wrapped body is framed by its header and `}`, with the body between. */
  lemma WrapFramed(tag: byte, count: nat, body: Out)
    ensures var r := Wrap(tag, count, body);
            Framed(r.bytes, tag, count) && r.bytes[0] == tag && r.w == body.w
            && r.bytes[|Header(tag, count)|..|r.bytes| - 1] == body.bytes
  {
    var h := Header(tag, count);
    var b := h + body.bytes + [TagClosebrace];
    assert b[..|h|] == h && b[|h|..|b| - 1] == body.bytes;
  }

  /** What `Serialize` promises about every value: the state grows and keeps
      its invariant, a simple writer is left untouched by object-free values,
      and something is always written. */
  ghost predicate SerializeSpec(w: Writer, v: Value, r: Result<Out>) {
    && Advances(w, r)
    && StatelessWhenFake(w, v, r)
    && (r.Ok? ==> |r.value.bytes| > 0)
  }

  /** `Serialize`. */
  function Serialize(w: Writer, v: Value): (r: Result<Out>)
    ensures SerializeSpec(w, v, r)
    decreases v, 3
  {
    if IsReference(v) then WriteWithRef(w, v)
    else if v.Txt? then WriteTextValue(w, v)
    else if v.Bytes? || v.Date? || v.Guid? then Ok(WriteBoxed(w, v))
    else if v.Unsupported? then Err(UnsupportedType)
    else Ok(Out(WriteScalar(v), w))
  }

  /** The value types `Serialize` writes without any lookup. */
  function WriteScalar(v: Value): (r: seq<byte>)
    requires !IsReference(v) && !v.Txt? && !v.Bytes? && !v.Date? && !v.Guid? && !v.Unsupported?
    ensures |r| > 0
  {
    match v
    case Null => [TagNull]
    case Bool(b) => WriteBoolean(b)
    case Int(k, n) => WriteInteger(k, n)
    case BigInt(text) => WriteBigInteger(text)
    case Float(f) => WriteDouble(f)
    case Char(c) => WriteUTF8Char(c)
  }

  /** The byte[], DateTime and Guid branches of `Serialize`. */
  function WriteBoxed(w: Writer, v: Value): (o: Out)
    requires v.Bytes? || v.Date? || v.Guid?
    ensures SerializeSpec(w, v, Ok(o))
  {
    match v
    case Bytes(b) => WriteBytesWithRef(w, b)
    case Date(dt) => WriteDateWithRef(w, dt)
    case Guid(g) => WriteGuidWithRef(w, g)
  }

  /** The string, StringBuilder and char[] branches of `Serialize`: an empty
      string or builder is TagEmpty, a one-unit one is written as a char, and
      everything else goes through `WriteStringWithRef`. */
  function WriteTextValue(w: Writer, v: Value): (r: Result<Out>)
    requires v.Txt?
    ensures SerializeSpec(w, v, r)
  {
    var t := v.t;
    if v.tkind != CharsText && |t.units| == 0 then Ok(Out([TagEmpty], w))
    else if v.tkind != CharsText && |t.units| == 1 then Ok(Out(WriteUTF8Char(t.units[0]), w))
    else WriteStringWithRef(w, KeyOfText(w.mode, v.tkind, t), t.units)
  }

  predicate IsReference(v: Value) {
    v.Array? || v.List? || v.Map? || v.Collection? || v.Object?
  }

  /** `WriteArrayWithRef`, `WriteListWithRef`, `WriteMapWithRef`,
      `WriteCollectionWithRef` and `WriteObjectWithRef`: the back-reference
      when the object is bound, otherwise the full write. */
  function WriteWithRef(w: Writer, v: Value): (r: Result<Out>)
    requires IsReference(v)
    ensures SerializeSpec(w, v, r)
    decreases v, 2
  {
    if v.Object? then WriteObjectWithRef(w, v) else WriteContainerWithRef(w, v)
  }

  function WriteObjectWithRef(w: Writer, v: Value): (r: Result<Out>)
    requires v.Object?
    ensures SerializeSpec(w, v, r)
    decreases v, 1
  {
    match Found(w, Some(Identity(v.id)))
    case Some(back) => Ok(Out(back, w))
    case None => WriteObject(w, v)
  }

  function WriteContainerWithRef(w: Writer, v: Value): (r: Result<Out>)
    requires v.Array? || v.List? || v.Map? || v.Collection?
    ensures SerializeSpec(w, v, r)
    decreases v, 1
  {
    match Found(w, Some(Identity(v.id)))
    case Some(back) => Ok(Out(back, w))
    case None => WriteContainer(Bind(w, Some(Identity(v.id))), v)
  }

  /** `WriteArray`, `WriteList`, `WriteMap` and `WriteCollection` after the
      container has been bound. */
  function WriteContainer(w: Writer, v: Value): (r: Result<Out>)
    requires v.Array? || v.List? || v.Map? || v.Collection?
    ensures Advances(w, r)
    ensures r.Ok? && w.refer.Fake? && NoObjects(v) ==> r.value.w == w
    ensures r.Ok? ==> |r.value.bytes| > 0
    decreases v, 0
  {
    match v
    case Array(_, elems) => WriteArray(w, elems)
    case List(_, items) => WriteList(w, items)
    case Map(_, entries) =>
      var body :- WriteEntries(w, entries);
      Ok(Wrap(TagMap, |entries|, body))
    case Collection(_, members) =>
      var body :- WriteItems(w, members);
      Ok(Wrap(TagList, |members|, body))
  }

  /** `WriteArray` for every element type, after the array has been bound. */
  function WriteArray(w: Writer, elems: ArrayElems): (r: Result<Out>)
    ensures Advances(w, r)
    ensures r.Ok? && w.refer.Fake? && NoObjects(Array(0, elems)) ==> r.value.w == w
    ensures r.Ok? ==> |r.value.bytes| > 0 && r.value.bytes[0] == TagList
    decreases elems
  {
    match elems
    case Objects(items) =>
      var body :- WriteItems(w, items);
      NoObjectsInItems(0, items);
      Ok(Wrap(TagList, |items|, body))
    case Grid(rows) =>
      var body :- WriteRows(w, rows);
      assert NoObjects(Array(0, elems)) ==> forall row, x :: row in rows && x in row.cells ==> NoObjects(x);
      Ok(Wrap(TagList, |rows|, body))
    case _ => WriteTypedArray(w, elems)
  }

  /** `WriteArray` for the arrays whose elements are written without
      `Serialize`: the element loop of the array's type, framed. */
  function WriteTypedArray(w: Writer, elems: ArrayElems): (r: Result<Out>)
    requires !elems.Objects? && !elems.Grid?
    ensures Advances(w, r)
    ensures r.Ok? && w.refer.Fake? ==> r.value.w == w
    ensures r.Ok? ==> |r.value.bytes| > 0 && r.value.bytes[0] == TagList
  {
    var body :- TypedBody(w, elems);
    Ok(Wrap(TagList, ArrayLength(elems), body))
  }

  /** The element loop of each typed array. */
  function TypedBody(w: Writer, elems: ArrayElems): (r: Result<Out>)
    requires !elems.Objects? && !elems.Grid?
    ensures Advances(w, r)
    ensures r.Ok? && w.refer.Fake? ==> r.value.w == w
    ensures r.Ok? <==> !elems.Texts? || WriteTexts(w, elems.tkind, elems.ts).Ok?
  {
    match elems
    case Integers(k, ns) => Ok(Out(Join(ns, n => WriteInteger(k, n)), w))
    case Booleans(bs) => Ok(Out(Join(bs, WriteBoolean), w))
    case Reals(fs) => Ok(Out(Join(fs, WriteDouble), w))
    case BigIntegers(texts) => Ok(Out(Join(texts, WriteBigInteger), w))
    case DateTimes(dts) => Ok(WriteDates(w, dts))
    case Texts(kind, ts) => WriteTexts(w, kind, ts)
    case Blobs(bs) => Ok(WriteBlobs(w, bs))
    case Guids(gs) => Ok(WriteGuids(w, gs))
  }

  /** `WriteList` for every list type, after the list has been bound. */
  function WriteList(w: Writer, items: ListElems): (r: Result<Out>)
    ensures Advances(w, r)
    ensures r.Ok? && w.refer.Fake? && NoObjects(List(0, items)) ==> r.value.w == w
    ensures r.Ok? ==> |r.value.bytes| > 0 && r.value.bytes[0] == TagList
    decreases items
  {
    match items
    case Items(xs) =>
      var body :- WriteItems(w, xs);
      Ok(Wrap(TagList, |xs|, body))
    case IntItems(ns) =>
      Ok(Wrap(TagList, |ns|, Out(Join(ns, n => WriteInteger(Int32, n)), w)))
    case StringItems(ts) =>
      var body :- WriteStringItems(w, ts);
      Ok(Wrap(TagList, |ts|, body))
    case DoubleItems(fs) =>
      Ok(Wrap(TagList, |fs|, Out(Join(fs, WriteDouble), w)))
  }

  /** The rows of a rank-2 array: each row is a nested list whose wrapper is
      bound as a fresh `new object()`, so it uses up an id no lookup finds. */
  function WriteRows(w: Writer, rows: seq<Row>): (r: Result<Out>)
    ensures Advances(w, r)
    ensures r.Ok? && w.refer.Fake? && (forall row, x :: row in rows && x in row.cells ==> NoObjects(x)) ==>
              r.value.w == w
    ensures r.Ok? && w.refer.Real? ==> r.value.w.refer.lastref >= w.refer.lastref + |rows|
    decreases rows
  {
    if rows == [] then Ok(Out([], w))
    else
      var cells := rows[0].cells;
      var first :- WriteItems(Bind(w, None), cells);
      var rest :- WriteRows(first.w, rows[1..]);
      Ok(Out(Header(TagList, |cells|) + first.bytes + [TagClosebrace] + rest.bytes, rest.w))
  }

  /** `Serialize` on each element in turn. */
  function WriteItems(w: Writer, items: seq<Value>): (r: Result<Out>)
    ensures Advances(w, r)
    ensures r.Ok? && w.refer.Fake? && (forall x :: x in items ==> NoObjects(x)) ==> r.value.w == w
    ensures r.Ok? && w.refer.Real? ==> r.value.w.refer.lastref >= w.refer.lastref
    decreases items
  {
    if items == [] then Ok(Out([], w))
    else
      var first :- Serialize(w, items[0]);
      var rest :- WriteItems(first.w, items[1..]);
      Ok(Out(first.bytes + rest.bytes, rest.w))
  }

  /** The loop of `WriteMap`: each key, then its value. */
  function WriteEntries(w: Writer, entries: seq<Entry>): (r: Result<Out>)
    ensures Advances(w, r)
    ensures r.Ok? && w.refer.Fake? && (forall e :: e in entries ==> NoObjects(e.key) && NoObjects(e.val)) ==>
              r.value.w == w
    decreases entries
  {
    if entries == [] then Ok(Out([], w))
    else
      var first :- WriteEntry(w, entries[0]);
      var rest :- WriteEntries(first.w, entries[1..]);
      Ok(Out(first.bytes + rest.bytes, rest.w))
  }

  function WriteEntry(w: Writer, e: Entry): (r: Result<Out>)
    ensures Advances(w, r)
    ensures r.Ok? && w.refer.Fake? && NoObjects(e.key) && NoObjects(e.val) ==> r.value.w == w
    decreases e
  {
    var k :- Serialize(w, e.key);
    var v :- Serialize(k.w, e.val);
    Ok(Out(k.bytes + v.bytes, v.w))
  }

  /** The class-index lookup of `WriteObject`, falling back on `WriteClass`. */
  function ClassIndex(w: Writer, cls: ClassDesc): (r: Result<ClassOut>)
    ensures cls in w.classes.classref ==> r == Ok(ClassOut([], w, w.classes.classref[cls]))
    ensures r.Ok? ==> Grows(w, r.value.w) && (Inv(w) ==> Inv(r.value.w))
    ensures r.Ok? ==> cls in r.value.w.classes.classref && r.value.w.classes.classref[cls] == r.value.index
  {
    if cls in w.classes.classref then Ok(ClassOut([], w, w.classes.classref[cls]))
    else WriteClass(w, cls)
  }

  /** The class side after `WriteClass` gives `cls` the next index. */
  function Register(c: Classes, cls: ClassDesc, key: CacheKey, schema: Schema): Classes {
    Classes(c.classref[cls := c.lastclassref], c.lastclassref + 1, c.schemas[key := schema])
  }

  /** Registering a new class with the schema its partition builds keeps the
      class invariant and keeps every earlier index and schema. */
  lemma RegisterKeepsInv(mode: Mode, c: Classes, cls: ClassDesc, schema: Schema)
    requires cls !in c.classref
    requires var key := CacheKey(PartitionOf(mode, cls), cls);
             (key in c.schemas ==> c.schemas[key] == schema)
             && BuildSchema(cls.name, NamesOf(cls, key.part)) == Ok(schema)
    ensures var c' := Register(c, cls, CacheKey(PartitionOf(mode, cls), cls), schema);
            ClassesGrow(c, c') && (ClassesInv(mode, c) ==> ClassesInv(mode, c'))
  {
    var key := CacheKey(PartitionOf(mode, cls), cls);
    var c' := Register(c, cls, key, schema);
    if ClassesInv(mode, c) {
      RegisterKeepsIndexes(c, cls, key, schema);
      RegisterKeepsSound(c.schemas, key, schema);
      assert forall x :: x in c'.classref ==> CacheKey(PartitionOf(mode, x), x) in c'.schemas;
    }
  }

  /** A fresh class gets the next index: indexes stay below the counter and distinct. */
  lemma RegisterKeepsIndexes(c: Classes, cls: ClassDesc, key: CacheKey, schema: Schema)
    requires cls !in c.classref
    requires forall x :: x in c.classref ==> c.classref[x] < c.lastclassref
    requires forall c1, c2 :: c1 in c.classref && c2 in c.classref && c1 != c2 ==> c.classref[c1] != c.classref[c2]
    ensures var m := Register(c, cls, key, schema).classref;
            && (forall x :: x in m ==> m[x] < c.lastclassref + 1)
            && (forall c1, c2 :: c1 in m && c2 in m && c1 != c2 ==> m[c1] != m[c2])
  {
    var m := Register(c, cls, key, schema).classref;
    forall c1, c2 | c1 in m && c2 in m && c1 != c2
      ensures m[c1] != m[c2]
    {
      if c1 != cls && c2 != cls {
        assert m[c1] == c.classref[c1] && m[c2] == c.classref[c2];
      }
    }
  }

  /** Caching a schema its class and partition build keeps the cache sound. */
  lemma RegisterKeepsSound(schemas: map<CacheKey, Schema>, key: CacheKey, schema: Schema)
    requires SchemasSound(schemas)
    requires BuildSchema(key.cls.name, NamesOf(key.cls, key.part)) == Ok(schema)
    ensures SchemasSound(schemas[key := schema])
  {
    var s' := schemas[key := schema];
    forall k | k in s'
      ensures BuildSchema(k.cls.name, NamesOf(k.cls, k.part)) == Ok(s'[k])
    {
      if k != key {
        assert k in schemas;
      }
    }
  }


  /** `WriteClass`: write the schema of the class's partition (from the cache,
      building and caching it when absent), reserve one id per member name,
      and give the class the next index. */
  function WriteClass(w: Writer, cls: ClassDesc): (r: Result<ClassOut>)
    requires cls !in w.classes.classref
    ensures r.Ok? ==> r.value.index == w.classes.lastclassref
    ensures r.Ok? ==> Grows(w, r.value.w) && (Inv(w) ==> Inv(r.value.w))
    ensures r.Ok? ==> cls in r.value.w.classes.classref && r.value.w.classes.classref[cls] == r.value.index
    ensures r.Ok? && SchemasSound(w.classes.schemas) ==>
              var s := BuildSchema(cls.name, NamesOf(cls, PartitionOf(w.mode, cls)));
              s.Ok? && r.value.bytes == s.value.data && r.value.w.refer == AddCount(w.refer, s.value.refcount)
  {
    var key := CacheKey(PartitionOf(w.mode, cls), cls);
    var schema :- GetSchema(w.classes.schemas, key);
    var w' := Writer(w.mode, AddCount(w.refer, schema.refcount), Register(w.classes, cls, key, schema));
    assert Inv(w) ==> Inv(w') by {
      if Inv(w) {
        RegisterKeepsInv(w.mode, w.classes, cls, schema);
      }
    }
    assert ClassesGrow(w.classes, w'.classes) by {
      assert forall c :: c in w.classes.classref ==> c != cls;
      if key in w.classes.schemas {
        assert w.classes.schemas[key] == schema;
      }
    }
    Ok(ClassOut(schema.data, w', w.classes.lastclassref))
  }

  /** `WriteObject`: the class first (schema and index), then the object is
      bound, then TagObject, the class index, `{`, the values of the
      partition's members in order, `}`. */
  function WriteObject(w: Writer, v: Value): (r: Result<Out>)
    requires v.Object?
    ensures Advances(w, r)
    ensures r.Ok? ==> |r.value.bytes| > 0 && v.cls in r.value.w.classes.classref
    ensures r.Ok? && w.refer.Real? ==> Identity(v.id) in r.value.w.refer.refs
    decreases v, 0
  {
    var c :- ClassIndex(w, v.cls);
    var w1 := Bind(c.w, Some(Identity(v.id)));
    var body :- (match PartitionOf(w.mode, v.cls)
                 case Fields => WriteItems(w1, v.fieldValues)
                 case Properties => WriteItems(w1, v.propertyValues)
                 case Members => WriteItems(w1, v.memberValues));
    GrowsTrans(w, c.w, w1);
    GrowsTrans(w, w1, body.w);
    Ok(Out(c.bytes + [TagObject] + WriteInt(c.index) + [TagOpenbrace] + body.bytes + [TagClosebrace], body.w))
  }
}

=== FILE: writer_props.dfy ===
/**
  Properties that relate several writer calls: a second occurrence of a
  reference value is a back-reference, a simple writer repeats itself, `Reset`
  is a fresh writer, and the typed-array writers differ from the list writers
  in whether they look elements up.
*/
module WriterProperties {
  import opened Tags
  import opened Wrappers
  import opened Integers
  import opened Utf8
  import opened Dates
  import opened References
  import opened Values
  import opened Scalars
  import opened Schemas
  import opened HproseWriter

  /** A value whose key is already bound is written as the back-reference to
      its id, and the writer state does not change. */
  lemma SeenIsBackRef(w: Writer, v: Value)
    requires Found(w, RefKeyOf(w.mode, v)).Some?
    ensures Serialize(w, v) == Ok(Out(Found(w, RefKeyOf(w.mode, v)).value, w))
  {
    match v
    case Txt(kind, t) =>
      assert WriteTextValue(w, v) == WriteStringWithRef(w, KeyOfText(w.mode, kind, t), t.units);
    case Bytes(b) =>
      assert WriteBoxed(w, v) == WriteBytesWithRef(w, b);
    case Date(dt) =>
      assert WriteBoxed(w, v) == WriteDateWithRef(w, dt);
    case Guid(g) =>
      assert WriteBoxed(w, v) == WriteGuidWithRef(w, g);
    case Object(id, _, _, _, _) =>
      assert WriteWithRef(w, v) == WriteObjectWithRef(w, v);
    case Array(id, _) =>
      assert WriteWithRef(w, v) == WriteContainerWithRef(w, v);
    case List(id, _) =>
      assert WriteWithRef(w, v) == WriteContainerWithRef(w, v);
    case Map(id, _) =>
      assert WriteWithRef(w, v) == WriteContainerWithRef(w, v);
    case Collection(id, _) =>
      assert WriteWithRef(w, v) == WriteContainerWithRef(w, v);
  }

  /** With a `RealWriterRefer`, once a value with a key has been written its
      key is bound. */
  lemma BoundAfterWrite(w: Writer, v: Value)
    requires w.refer.Real? && Serialize(w, v).Ok? && RefKeyOf(w.mode, v).Some?
    ensures Found(Serialize(w, v).value.w, RefKeyOf(w.mode, v)).Some?
  {
    var key := RefKeyOf(w.mode, v);
    if Found(w, key).Some? {
      SeenIsBackRef(w, v);
    } else if IsReference(v) {
      assert Serialize(w, v) == WriteWithRef(w, v);
      if v.Object? {
        assert WriteWithRef(w, v) == WriteObjectWithRef(w, v);
      } else {
        BoundAfterContainer(w, v);
      }
    } else if v.Txt? {
      assert Serialize(w, v) == WriteTextValue(w, v);
    } else {
      assert Serialize(w, v) == Ok(WriteBoxed(w, v));
    }
  }

  lemma BoundAfterContainer(w: Writer, v: Value)
    requires v.Array? || v.List? || v.Map? || v.Collection?
    requires w.refer.Real? && WriteContainerWithRef(w, v).Ok?
    ensures Identity(v.id) in WriteContainerWithRef(w, v).value.w.refer.refs
  {
    var key := Some(Identity(v.id));
    if Found(w, key).None? {
      var w1 := Bind(w, key);
      assert Identity(v.id) in w1.refer.refs;
      assert WriteContainerWithRef(w, v) == WriteContainer(w1, v);
    }
  }

  /** The sharing promise of a non-simple writer: writing the same value
      twice, the second time writes only a back-reference. */
  lemma SecondWriteIsBackRef(w: Writer, v: Value)
    requires w.refer.Real? && Serialize(w, v).Ok? && RefKeyOf(w.mode, v).Some?
    ensures var w1 := Serialize(w, v).value.w;
            && Found(w1, RefKeyOf(w.mode, v)).Some?
            && Serialize(w1, v) == Ok(Out(Found(w1, RefKeyOf(w.mode, v)).value, w1))
            && Serialize(w1, v).value.bytes[0] == TagRef
  {
    var w1 := Serialize(w, v).value.w;
    BoundAfterWrite(w, v);
    assert w1.mode == w.mode;
    SeenIsBackRef(w1, v);
  }

  /** A simple writer never shares: an object-free value written twice gives
      the same bytes twice. */
  lemma SimpleWriterRepeats(w: Writer, v: Value)
    requires w.refer.Fake? && NoObjects(v) && Serialize(w, v).Ok?
    ensures var o := Serialize(w, v).value;
            Serialize(o.w, v) == Ok(o)
  {
  }

  /** `Reset` gives the writer a freshly constructed writer's state, the
      schema caches aside. */
  lemma ResetIsFresh(w: Writer)
    ensures ResetWriter(w) == NewWriter(w.mode, w.refer.Fake?, w.classes.schemas)
  {
  }

  /** A container not yet bound is bound first, then written out. */
  lemma ContainerUnfolds(w: Writer, v: Value)
    requires v.Array? || v.List? || v.Map? || v.Collection?
    requires Found(w, Some(Identity(v.id))).None?
    ensures Serialize(w, v) == WriteContainer(Bind(w, Some(Identity(v.id))), v)
  {
    assert Serialize(w, v) == WriteWithRef(w, v);
    assert WriteWithRef(w, v) == WriteContainerWithRef(w, v);
  }

  /** `WriteItems` writes the first element, then the rest from the state it leaves. */
  lemma ItemsCons(w: Writer, x: Value, rest: seq<Value>)
    requires Serialize(w, x).Ok? && WriteItems(Serialize(w, x).value.w, rest).Ok?
    ensures var a := Serialize(w, x).value;
            var b := WriteItems(a.w, rest).value;
            WriteItems(w, [x] + rest) == Ok(Out(a.bytes + b.bytes, b.w))
  {
    assert ([x] + rest)[0] == x && ([x] + rest)[1..] == rest;
  }

  /** When a list of elements is written, so are its first element and the rest. */
  lemma ItemsOkSplit(w: Writer, items: seq<Value>)
    requires items != [] && WriteItems(w, items).Ok?
    ensures Serialize(w, items[0]).Ok?
    ensures WriteItems(Serialize(w, items[0]).value.w, items[1..]).Ok?
  {
  }

  /** An object[] not yet bound: bound, then TagList, count, `{`, elements, `}`. */
  lemma ObjectArrayUnfolds(w: Writer, id: nat, items: seq<Value>)
    requires Found(w, Some(Identity(id))).None?
    ensures var r := WriteItems(Bind(w, Some(Identity(id))), items);
            Serialize(w, Array(id, Objects(items))) == if r.Ok? then Ok(Wrap(TagList, |items|, r.value)) else r
  {
    var v := Array(id, Objects(items));
    ContainerUnfolds(w, v);
    assert WriteContainer(Bind(w, Some(Identity(id))), v) == WriteArray(Bind(w, Some(Identity(id))), Objects(items));
  }

  /** `WriteItems` on no element. */
  lemma ItemsEmpty(w: Writer)
    ensures WriteItems(w, []) == Ok(Out([], w))
  {
  }

  /** The sequence [1, "hi", null] as an object[]: TagList, count 3, `{`, the
      bare digit 1, the string with its code-unit count 2 between quotes,
      TagNull, `}`. */
  lemma MixedArrayBytes(w: Writer, id: nat, tid: nat)
    requires Found(w, Some(Identity(id))).None?
    requires Found(Bind(w, Some(Identity(id))), KeyOfText(w.mode, StringText, Text(tid, [0x68, 0x69]))).None?
    ensures var v := Array(id, Objects([Int(Int32, 1), Txt(StringText, Text(tid, [0x68, 0x69])), Null]));
            && Serialize(w, v).Ok?
            && Serialize(w, v).value.bytes
               == [TagList, Zero + 3, TagOpenbrace, Zero + 1,
                   TagString, Zero + 2, TagQuote, 0x68, 0x69, TagQuote,
                   TagNull, TagClosebrace]
  {
    var hi := Text(tid, [0x68, 0x69]);
    var items := [Int(Int32, 1), Txt(StringText, hi), Null];
    var w1 := Bind(w, Some(Identity(id)));
    ObjectArrayUnfolds(w, id, items);
    var body := MixedItems(w1, hi);
    HeaderOfDigit(TagList, 3);
    MixedConcat();
  }

  /** A count of 1 to 9 is one digit between the tag and `{`. */
  lemma HeaderOfDigit(tag: byte, n: nat)
    requires 1 <= n <= 9
    ensures Header(tag, n) == [tag, Zero + n, TagOpenbrace]
  {
    assert WriteInt(n) == [Zero + n];
  }

  lemma MixedConcat()
    ensures [TagList, Zero + 3, TagOpenbrace]
            + [Zero + 1, TagString, Zero + 2, TagQuote, 0x68, 0x69, TagQuote, TagNull]
            + [TagClosebrace]
         == [TagList, Zero + 3, TagOpenbrace, Zero + 1,
             TagString, Zero + 2, TagQuote, 0x68, 0x69, TagQuote,
             TagNull, TagClosebrace]
  {
  }

  /** The three elements of the example, from the state after the array is bound. */
  lemma MixedItems(w: Writer, hi: Text) returns (bytes: seq<byte>)
    requires hi.units == [0x68, 0x69]
    requires Found(w, KeyOfText(w.mode, StringText, hi)).None?
    ensures bytes == [Zero + 1, TagString, Zero + 2, TagQuote, 0x68, 0x69, TagQuote, TagNull]
    ensures WriteItems(w, [Int(Int32, 1), Txt(StringText, hi), Null]).Ok?
    ensures WriteItems(w, [Int(Int32, 1), Txt(StringText, hi), Null]).value.bytes == bytes
  {
    var x0 := Int(Int32, 1);
    var tail := HiNullItems(w, hi);
    assert Serialize(w, x0) == Ok(Out([Zero + 1], w));
    ItemsCons(w, x0, [Txt(StringText, hi), Null]);
    assert [x0] + [Txt(StringText, hi), Null] == [x0, Txt(StringText, hi), Null];
    bytes := [Zero + 1] + tail;
    PrependOne(tail);
  }

  lemma PrependOne(tail: seq<byte>)
    requires tail == [TagString, Zero + 2, TagQuote, 0x68, 0x69, TagQuote, TagNull]
    ensures [Zero + 1] + tail == [Zero + 1, TagString, Zero + 2, TagQuote, 0x68, 0x69, TagQuote, TagNull]
  {
  }

  /** The last two elements of the example. */
  lemma HiNullItems(w: Writer, hi: Text) returns (bytes: seq<byte>)
    requires hi.units == [0x68, 0x69]
    requires Found(w, KeyOfText(w.mode, StringText, hi)).None?
    ensures bytes == [TagString, Zero + 2, TagQuote, 0x68, 0x69, TagQuote, TagNull]
    ensures WriteItems(w, [Txt(StringText, hi), Null]).Ok?
    ensures WriteItems(w, [Txt(StringText, hi), Null]).value.bytes == bytes
  {
    var str := StringHi(w, w.mode, hi);
    var w2 := Serialize(w, Txt(StringText, hi)).value.w;
    NullItems(w2);
    ItemsCons(w, Txt(StringText, hi), [Null]);
    assert [Txt(StringText, hi)] + [Null] == [Txt(StringText, hi), Null];
    bytes := str + [TagNull];
  }

  lemma NullItems(w: Writer)
    ensures WriteItems(w, [Null]) == Ok(Out([TagNull], w))
  {
    assert Serialize(w, Null) == Ok(Out([TagNull], w));
    ItemsEmpty(w);
    ItemsCons(w, Null, []);
    assert [Null] + [] == [Null];
    assert [TagNull] + [] == [TagNull];
  }

  /** The string "hi" is written in full when its key is not bound. */
  lemma StringHi(w: Writer, mode: Mode, hi: Text) returns (bytes: seq<byte>)
    requires w.mode == mode && hi.units == [0x68, 0x69]
    requires Found(w, KeyOfText(mode, StringText, hi)).None?
    ensures bytes == [TagString, Zero + 2, TagQuote, 0x68, 0x69, TagQuote]
    ensures Serialize(w, Txt(StringText, hi)).Ok?
    ensures Serialize(w, Txt(StringText, hi)).value.bytes == bytes
  {
    HiBody(hi.units);
    var key := KeyOfText(mode, StringText, hi);
    assert Serialize(w, Txt(StringText, hi)) == WriteTextValue(w, Txt(StringText, hi));
    assert WriteTextValue(w, Txt(StringText, hi)) == WriteString(w, key, hi.units);
    bytes := [TagString, Zero + 2, TagQuote, 0x68, 0x69, TagQuote];
  }

  /** The UTF-8 string form of "hi": the count 2, then the two letters
      between quotes. */
  lemma HiBody(units: seq<char16>)
    requires units == [0x68, 0x69]
    ensures WriteUTF8String(units) == Ok([Zero + 2, TagQuote, 0x68, 0x69, TagQuote])
  {
    AsciiEncodesAsItself(units);
    var e := EncodeUnits(units).value;
    assert e[0] == 0x68 && e[1] == 0x69;
    assert e == [0x68, 0x69];
    assert WriteInt(|units|) == [Zero + 2];
    assert WriteUTF8String(units) == Ok(WriteInt(|units|) + [TagQuote] + e + [TagQuote]);
    assert [Zero + 2] + [TagQuote] + [0x68, 0x69] + [TagQuote] == [Zero + 2, TagQuote, 0x68, 0x69, TagQuote];
  }

  /** Two occurrences of one reference value in an object[]: with a
      `RealWriterRefer` the second is a back-reference to the id the first
      one holds. */
  lemma SharedValueIsReferenced(w: Writer, id: nat, x: Value)
    requires w.refer.Real? && RefKeyOf(w.mode, x).Some? && RefKeyOf(w.mode, x) != Some(Identity(id))
    requires Found(w, Some(Identity(id))).None?
    requires Serialize(w, Array(id, Objects([x, x]))).Ok?
    ensures var first := Serialize(Bind(w, Some(Identity(id))), x);
            && first.Ok?
            && var back := Found(first.value.w, RefKeyOf(w.mode, x));
            && back.Some? && back.value[0] == TagRef
            && Serialize(w, Array(id, Objects([x, x]))).value.bytes
               == Header(TagList, 2) + first.value.bytes + back.value + [TagClosebrace]
  {
    var w1 := Bind(w, Some(Identity(id)));
    ObjectArrayUnfolds(w, id, [x, x]);
    ItemsOkSplit(w1, [x, x]);
    TwiceIsBackRef(w1, x);
    var first := Serialize(w1, x).value;
    WrapPair(Header(TagList, 2), first.bytes, Found(first.w, RefKeyOf(w.mode, x)).value);
  }

  /** `[x, x]` from a tracking writer: `x`, then the back-reference to it. */
  lemma TwiceIsBackRef(w: Writer, x: Value)
    requires w.refer.Real? && RefKeyOf(w.mode, x).Some? && Serialize(w, x).Ok?
    ensures var first := Serialize(w, x).value;
            var back := Found(first.w, RefKeyOf(w.mode, x));
            && back.Some? && back.value[0] == TagRef
            && WriteItems(w, [x, x]) == Ok(Out(first.bytes + back.value, first.w))
  {
    var first := Serialize(w, x).value;
    SecondWriteIsBackRef(w, x);
    var back := Found(first.w, RefKeyOf(w.mode, x));
    OneItem(first.w, x);
    ItemsCons(w, x, [x]);
    assert [x] + [x] == [x, x];
  }

  /** `WriteItems` on one element is `Serialize` on it. */
  lemma OneItem(w: Writer, x: Value)
    requires Serialize(w, x).Ok?
    ensures WriteItems(w, [x]) == Serialize(w, x)
  {
    var o := Serialize(w, x).value;
    ItemsEmpty(o.w);
    ItemsCons(w, x, []);
    assert [x] + [] == [x];
    assert o.bytes + [] == o.bytes;
  }

  /** The same two occurrences with a `FakeWriterRefer`: the value is written
      out in full twice. */
  lemma SharedValueIsRepeatedWhenSimple(w: Writer, id: nat, x: Value)
    requires w.refer.Fake? && NoObjects(x)
    requires Serialize(w, Array(id, Objects([x, x]))).Ok?
    ensures Serialize(w, x).Ok?
    ensures var once := Serialize(w, x).value.bytes;
            Serialize(w, Array(id, Objects([x, x]))).value.bytes
            == Header(TagList, 2) + once + once + [TagClosebrace]
  {
    assert Bind(w, Some(Identity(id))) == w;
    ObjectArrayUnfolds(w, id, [x, x]);
    ItemsOkSplit(w, [x, x]);
    OneItem(w, x);
    ItemsCons(w, x, [x]);
    assert [x] + [x] == [x, x];
    var once := Serialize(w, x).value.bytes;
    WrapPair(Header(TagList, 2), once, once);
  }


  /** The bytes `WriteString` writes for well-formed text, whatever the state. */
  function StringBytes(units: seq<char16>): (r: seq<byte>)
    requires WellFormed(units)
    ensures forall w: Writer, key :: WriteString(w, key, units) == Ok(Out(r, Bind(w, key)))
  {
    EncodeFailsIffMalformed(units);
    [TagString] + WriteUTF8String(units).value
  }

  /** `string[]` writes every element in full, even a repeated one, and binds
      each occurrence to a new id. */
  lemma StringArrayRepeats(w: Writer, t: Text)
    requires WellFormed(t.units)
    ensures var key := KeyOfText(w.mode, StringText, t);
            WriteTypedArray(w, Texts(StringText, [Some(t), Some(t)]))
            == Ok(Out(Header(TagList, 2) + StringBytes(t.units) + StringBytes(t.units) + [TagClosebrace],
                      Bind(Bind(w, key), key)))
    ensures var key := KeyOfText(w.mode, StringText, t);
            w.refer.Real? ==> Bind(Bind(w, key), key).refer.lastref == w.refer.lastref + 2
  {
    var ts := [Some(t), Some(t)];
    TextsTwice(w, t);
    TypedTextsUnfolds(w, StringText, ts);
    var h, b := Header(TagList, 2), StringBytes(t.units);
    WrapPair(h, b, b);
  }

  /** A wrapped two-part body reads as header, parts, closing brace. */
  lemma WrapPair(h: seq<byte>, a: seq<byte>, b: seq<byte>)
    ensures h + (a + b) + [TagClosebrace] == h + a + b + [TagClosebrace]
  {
  }

  lemma TypedTextsUnfolds(w: Writer, kind: TextKind, ts: seq<Option<Text>>)
    requires WriteTexts(w, kind, ts).Ok?
    ensures WriteTypedArray(w, Texts(kind, ts)) == Ok(Wrap(TagList, |ts|, WriteTexts(w, kind, ts).value))
  {
    assert TypedBody(w, Texts(kind, ts)) == WriteTexts(w, kind, ts);
    TypedUnfolds(w, Texts(kind, ts));
  }

  /** A typed array whose element loop succeeds is that loop's bytes, framed. */
  lemma TypedUnfolds(w: Writer, elems: ArrayElems)
    requires !elems.Objects? && !elems.Grid? && TypedBody(w, elems).Ok?
    ensures WriteTypedArray(w, elems) == Ok(Wrap(TagList, ArrayLength(elems), TypedBody(w, elems).value))
  {
  }

  /** The element loop of `string[]` on a repeated string. */
  lemma TextsTwice(w: Writer, t: Text)
    requires WellFormed(t.units)
    ensures var key := KeyOfText(w.mode, StringText, t);
            WriteTexts(w, StringText, [Some(t), Some(t)])
            == Ok(Out(StringBytes(t.units) + StringBytes(t.units), Bind(Bind(w, key), key)))
  {
    var key := KeyOfText(w.mode, StringText, t);
    var s := StringBytes(t.units);
    var w1 := Bind(w, key);
    TextsOnce(w1, t);
    assert [Some(t), Some(t)][1..] == [Some(t)];
    assert WriteString(w, key, t.units) == Ok(Out(s, w1));
  }

  lemma TextsOnce(w: Writer, t: Text)
    requires WellFormed(t.units)
    ensures var key := KeyOfText(w.mode, StringText, t);
            WriteTexts(w, StringText, [Some(t)]) == Ok(Out(StringBytes(t.units), Bind(w, key)))
  {
    var key := KeyOfText(w.mode, StringText, t);
    var s := StringBytes(t.units);
    var w1 := Bind(w, key);
    assert [Some(t)][1..] == [];
    assert WriteTexts(w1, StringText, []) == Ok(Out([], w1));
    assert WriteString(w, key, t.units) == Ok(Out(s, w1));
    assert s + [] == s;
  }

  /** `IList<string>` looks every element up: a repeated string is written
      once, then as a back-reference to the id it got. */
  lemma StringListShares(w: Writer, t: Text)
    requires WellFormed(t.units) && w.refer.Real?
    requires Found(w, KeyOfText(w.mode, StringText, t)).None?
    ensures WriteList(w, StringItems([Some(t), Some(t)]))
            == Ok(Out(Header(TagList, 2) + StringBytes(t.units) + BackRef(w.refer.lastref) + [TagClosebrace],
                      Bind(w, KeyOfText(w.mode, StringText, t))))
    ensures Bind(w, KeyOfText(w.mode, StringText, t)).refer.lastref == w.refer.lastref + 1
  {
    var ts := [Some(t), Some(t)];
    StringItemsTwice(w, t);
    ListOfStringsUnfolds(w, ts);
    var h, b, back := Header(TagList, 2), StringBytes(t.units), BackRef(w.refer.lastref);
    WrapPair(h, b, back);
  }

  lemma ListOfStringsUnfolds(w: Writer, ts: seq<Option<Text>>)
    requires WriteStringItems(w, ts).Ok?
    ensures WriteList(w, StringItems(ts)) == Ok(Wrap(TagList, |ts|, WriteStringItems(w, ts).value))
  {
  }

  lemma StringItemsTwice(w: Writer, t: Text)
    requires WellFormed(t.units) && w.refer.Real?
    requires Found(w, KeyOfText(w.mode, StringText, t)).None?
    ensures var key := KeyOfText(w.mode, StringText, t);
            WriteStringItems(w, [Some(t), Some(t)])
            == Ok(Out(StringBytes(t.units) + BackRef(w.refer.lastref), Bind(w, key)))
  {
    var key := KeyOfText(w.mode, StringText, t);
    var s := StringBytes(t.units);
    var w1 := Bind(w, key);
    var back := BackRef(w.refer.lastref);
    StringItemsSeen(w1, t, back);
    assert [Some(t), Some(t)][1..] == [Some(t)];
    assert WriteStringWithRef(w, key, t.units) == Ok(Out(s, w1));
  }

  /** The element loop of `IList<string>` on a string already bound. */
  lemma StringItemsSeen(w: Writer, t: Text, back: seq<byte>)
    requires Found(w, KeyOfText(w.mode, StringText, t)) == Some(back)
    ensures WriteStringItems(w, [Some(t)]) == Ok(Out(back, w))
  {
    assert [Some(t)][1..] == [];
    assert WriteStringItems(w, []) == Ok(Out([], w));
    assert back + [] == back;
  }


  /** A string or StringBuilder of at most one code unit is written without a
      lookup and binds no id: TagEmpty when empty, the char form otherwise. */
  lemma ShortTextIsUnbound(w: Writer, kind: TextKind, t: Text)
    requires kind != CharsText && |t.units| <= 1
    ensures Serialize(w, Txt(kind, t))
            == Ok(Out(if |t.units| == 0 then [TagEmpty] else WriteUTF8Char(t.units[0]), w))
  {
    assert Serialize(w, Txt(kind, t)) == WriteTextValue(w, Txt(kind, t));
  }

  /** Longer strings and builders, and every char[], go through the
      reference-checked string writer under their key. */
  lemma LongTextIsLookedUp(w: Writer, kind: TextKind, t: Text)
    requires kind == CharsText || |t.units| >= 2
    ensures RefKeyOf(w.mode, Txt(kind, t)).Some?
    ensures Serialize(w, Txt(kind, t)) == WriteStringWithRef(w, RefKeyOf(w.mode, Txt(kind, t)), t.units)
  {
    assert Serialize(w, Txt(kind, t)) == WriteTextValue(w, Txt(kind, t));
  }

  /** A list is bound before its elements are written, so a list that holds
      itself writes the inner occurrence as a back-reference to its own id. */
  lemma SelfReferenceIsBackRef(w: Writer, id: nat, inner: ListElems)
    requires w.refer.Real? && Found(w, Some(Identity(id))).None?
    ensures Serialize(w, List(id, Items([List(id, inner)])))
            == Ok(Out(Header(TagList, 1) + BackRef(w.refer.lastref) + [TagClosebrace],
                      Bind(w, Some(Identity(id)))))
  {
    var key := Some(Identity(id));
    var x := List(id, inner);
    var v := List(id, Items([x]));
    var w1 := Bind(w, key);
    ListUnfolds(w, id, Items([x]));
    ListKey(w1.mode, id, inner);
    SeenInList(w1, x, BackRef(w.refer.lastref));
  }

  lemma ListKey(mode: Mode, id: nat, items: ListElems)
    ensures RefKeyOf(mode, List(id, items)) == Some(Identity(id))
  {
  }

  /** A list not yet bound is bound, then written. */
  lemma ListUnfolds(w: Writer, id: nat, items: ListElems)
    requires Found(w, Some(Identity(id))).None?
    ensures Serialize(w, List(id, items)) == WriteList(Bind(w, Some(Identity(id))), items)
  {
    ContainerUnfolds(w, List(id, items));
  }

  /** A one-element list whose element is already bound. */
  lemma SeenInList(w: Writer, x: Value, back: seq<byte>)
    requires Found(w, RefKeyOf(w.mode, x)) == Some(back)
    ensures WriteList(w, Items([x])) == Ok(Out(Header(TagList, 1) + back + [TagClosebrace], w))
  {
    SeenIsBackRef(w, x);
    OneItem(w, x);
    ListOfItemsUnfolds(w, [x]);
  }

  lemma ListOfItemsUnfolds(w: Writer, xs: seq<Value>)
    requires WriteItems(w, xs).Ok?
    ensures WriteList(w, Items(xs)) == Ok(Wrap(TagList, |xs|, WriteItems(w, xs).value))
  {
    var body := WriteItems(w, xs).value;
    assert WriteItems(w, xs) == Ok(body);
  }

  /** In FieldMode a boxed DateTime is a new object each time: it is always
      written in full and always uses up an id, whatever was written before. */
  lemma FieldModeDateNeverShared(w: Writer, dt: DateTime)
    requires w.mode == FieldMode
    ensures Serialize(w, Date(dt)) == Ok(Out(WriteDateTime(dt), Bind(w, None)))
    ensures w.refer.Real? ==> Bind(w, None).refer.lastref == w.refer.lastref + 1
  {
    assert Serialize(w, Date(dt)) == Ok(WriteBoxed(w, Date(dt)));
  }

  /** In the other modes a DateTime is found by `Equals`, which compares ticks
      and ignores the Kind: after a date is written, the same instant with the
      other Kind is written as a back-reference to it, not with its own UTC
      marker. */
  lemma DateSharedAcrossKind(w: Writer, dt: DateTime)
    requires w.refer.Real? && w.mode != FieldMode
    requires Found(w, KeyOfDate(w.mode, dt)).None?
    ensures var first := Serialize(w, Date(dt));
            && first == Ok(Out(WriteDateTime(dt), Bind(w, KeyOfDate(w.mode, dt))))
            && Serialize(first.value.w, Date(dt.(utc := !dt.utc)))
               == Ok(Out(BackRef(w.refer.lastref), first.value.w))
  {
    var key := KeyOfDate(w.mode, dt);
    var w1 := Bind(w, key);
    assert Serialize(w, Date(dt)) == Ok(WriteBoxed(w, Date(dt)));
    var other := dt.(utc := !dt.utc);
    assert KeyOfDate(w1.mode, other) == key;
    assert Serialize(w1, Date(other)) == Ok(WriteBoxed(w1, Date(other)));
  }


  /** The bytes of an object: the class schema only when the class has no
      index yet, then TagObject, the class index (the next one for a new
      class), `{`, the member values, `}`. */
  lemma ObjectLayout(w: Writer, v: Value)
    requires v.Object? && SchemasSound(w.classes.schemas) && WriteObject(w, v).Ok?
    ensures v.cls !in w.classes.classref ==> BuildSchema(v.cls.name, NamesOf(v.cls, PartitionOf(w.mode, v.cls))).Ok?
    ensures var seen := v.cls in w.classes.classref;
            var schema := if seen then [] else BuildSchema(v.cls.name, NamesOf(v.cls, PartitionOf(w.mode, v.cls))).value.data;
            var index := if seen then w.classes.classref[v.cls] else w.classes.lastclassref;
            var head := schema + [TagObject] + WriteInt(index) + [TagOpenbrace];
            var b := WriteObject(w, v).value.bytes;
            |head| < |b| && b[..|head|] == head && b[|b| - 1] == TagClosebrace
  {
    var c := ClassIndex(w, v.cls);
    assert c.Ok?;
    ClassIndexBytes(w, v.cls);
    var body := ObjectBody(w, v, c.value);
    var head := c.value.bytes + [TagObject] + WriteInt(c.value.index) + [TagOpenbrace];
    PrefixOfConcat(head, body + [TagClosebrace]);
    assert head + body + [TagClosebrace] == head + (body + [TagClosebrace]);
  }

  lemma PrefixOfConcat(a: seq<byte>, b: seq<byte>)
    requires |b| > 0
    ensures (a + b)[..|a|] == a && |a| < |a + b| && (a + b)[|a + b| - 1] == b[|b| - 1]
  {
  }

  /** What the class lookup of `WriteObject` writes: nothing and the known
      index for a class seen before, otherwise the schema its partition
      builds and the next index. */
  lemma ClassIndexBytes(w: Writer, cls: ClassDesc)
    requires SchemasSound(w.classes.schemas) && ClassIndex(w, cls).Ok?
    ensures cls !in w.classes.classref ==> BuildSchema(cls.name, NamesOf(cls, PartitionOf(w.mode, cls))).Ok?
    ensures var c := ClassIndex(w, cls).value;
            if cls in w.classes.classref then c.bytes == [] && c.index == w.classes.classref[cls]
            else c.bytes == BuildSchema(cls.name, NamesOf(cls, PartitionOf(w.mode, cls))).value.data
                 && c.index == w.classes.lastclassref
  {
    if cls !in w.classes.classref {
      assert ClassIndex(w, cls) == WriteClass(w, cls);
    }
  }

  /** The member values of an object, between `{` and `}`. */
  lemma ObjectBody(w: Writer, v: Value, c: ClassOut) returns (body: seq<byte>)
    requires v.Object? && WriteObject(w, v).Ok? && ClassIndex(w, v.cls) == Ok(c)
    ensures WriteObject(w, v).value.bytes
            == c.bytes + [TagObject] + WriteInt(c.index) + [TagOpenbrace] + body + [TagClosebrace]
  {
    var w1 := Bind(c.w, Some(Identity(v.id)));
    var r := match PartitionOf(w.mode, v.cls)
             case Fields => WriteItems(w1, v.fieldValues)
             case Properties => WriteItems(w1, v.propertyValues)
             case Members => WriteItems(w1, v.memberValues);
    assert r.Ok?;
    body := r.value.bytes;
  }

  /** After an object of a class is written, the next object of that class
      writes no schema and reuses the index. */
  lemma ClassWrittenOnce(w: Writer, v: Value)
    requires v.Object? && WriteObject(w, v).Ok?
    ensures var w1 := WriteObject(w, v).value.w;
            v.cls in w1.classes.classref && ClassIndex(w1, v.cls) == Ok(ClassOut([], w1, w1.classes.classref[v.cls]))
  {
  }

  /** `Reset` drops the class indexes but keeps the schema caches: the next
      object of a class seen before writes the cached schema again, which is
      the schema the class builds, under index 0. */
  lemma ResetRewritesSchema(w: Writer, cls: ClassDesc)
    requires Inv(w) && cls in w.classes.classref
    ensures var s := BuildSchema(cls.name, NamesOf(cls, PartitionOf(w.mode, cls)));
            var r := ClassIndex(ResetWriter(w), cls);
            && s.Ok? && r.Ok?
            && r.value.bytes == s.value.data
            && r.value.index == 0
  {
    var w0 := ResetWriter(w);
    var key := CacheKey(PartitionOf(w.mode, cls), cls);
    assert key in w0.classes.schemas;
    assert GetSchema(w0.classes.schemas, key) == Ok(w0.classes.schemas[key]);
    assert ClassIndex(w0, cls) == WriteClass(w0, cls);
  }

  /** The member names of a new class use up ids first: the object itself
      gets the id after them. */
  lemma ObjectIdAfterNames(w: Writer, cls: ClassDesc, id: nat)
    requires w.refer.Real? && cls !in w.classes.classref && SchemasSound(w.classes.schemas)
    requires ClassIndex(w, cls).Ok?
    ensures Found(Bind(ClassIndex(w, cls).value.w, Some(Identity(id))), Some(Identity(id)))
            == Some(BackRef(w.refer.lastref + |NamesOf(cls, PartitionOf(w.mode, cls))|))
  {
    NamesUseIds(w, cls);
    var c := ClassIndex(w, cls).value;
    assert c.w.refer.Real?;
    var w1 := Bind(c.w, Some(Identity(id)));
    assert Found(w1, Some(Identity(id))) == Some(BackRef(c.w.refer.lastref));
    assert c.w.refer.lastref == w.refer.lastref + |NamesOf(cls, PartitionOf(w.mode, cls))|;
  }

  lemma NamesUseIds(w: Writer, cls: ClassDesc)
    requires w.refer.Real? && cls !in w.classes.classref && SchemasSound(w.classes.schemas)
    requires ClassIndex(w, cls).Ok?
    ensures var r := ClassIndex(w, cls).value.w.refer;
            r.Real? && r.lastref == w.refer.lastref + |NamesOf(cls, PartitionOf(w.mode, cls))|
  {
    var names := NamesOf(cls, PartitionOf(w.mode, cls));
    assert ClassIndex(w, cls) == WriteClass(w, cls);
    assert BuildSchema(cls.name, names).value.refcount == |names|;
  }

}
